=== FILE: README.md ===
# Notebook Navigator topics — a Dafny model

This project models the core of the Notebook Navigator plugin for Obsidian:
- **Topic graph:** built from notes tagged as topics and linked upwards through `subset` frontmatter links. Other notes are filed under the topics they name through `hasTopic`, `isA`, `for` and `subset`. The model covers the queries over the graph (descendants, file paths, note counts, node search, ancestors) and the service that holds the graph.
- **Root topic order:** the user's custom order of the root topics is normalised against the topics that exist.
- **Sorting:** the sort utilities and the list-pane appearance settings.
- **Metadata service:** per-entity colours, icons and sort overrides, plus the key clean-up and folder-rename maintenance.
- **Recent items:** the recent-notes and recent-icons storage.
- **Icon providers:** the Lucide, Phosphor and emoji providers and the emoji utilities.
- **Release check:** the check for a newer release.
- **Content providers:** the registry of content providers.

Pure code is modelled as datatypes, functions and lemmas. Code that changes objects in place is modelled as classes with `modifies` clauses. Loops are modelled as methods, each proved against a specification function.

The host is passed in as data:
- the Obsidian vault and metadata cache;
- the note database;
- the settings store;
- the network, the clock and the library tables.

Shared helpers:
- `wrappers.dfy` defines `Option`.
- `text.dfy` holds string splitting, joining, trimming and ASCII case mapping.
- `ordered_sets.dfy` models insertion-ordered JavaScript `Set`s as duplicate-free sequences.
- `sorting.dfy` models `Array.prototype.sort` with a comparator.

## Model

| member | source | states |
|---|---|---|
| TopicNames.TopicNameFromPathSpec | src/utils/topicGraph.ts:57-59 | A topic's name is its file name (the text after the last `/`) up to the file name's last `.`, with every other `.` removed. A file name without a `.` gives the empty name. |
| TopicNames.TopicNameFromPathClean | src/utils/topicGraph.ts:57-59 | A topic name never contains `/` or `.`. |
| TopicNames.TopicNameOfFile | src/utils/topicGraph.ts:57-59 | Only the file name matters: `dir/stem.ext` is named after `stem` with its dots removed. |
| TopicNames.TopicNameFromPathExample | src/utils/topicGraph.ts:57-59 | `dir/a.b.ext` is named `ab`: the extension is dropped, and the inner dot disappears instead of being kept. |
| TopicNames.SliceInner | src/utils/topicGraph.ts:120 | JavaScript `slice(2, -2)`: the string without its first two and last two characters, or empty when it is shorter than four. |
| TopicNames.LinkTargetOfLink | src/utils/topicGraph.ts:120 | `[[target|alias]]` and `[[target]]` both resolve to `target`. |
| TopicNames.TopicTags | src/utils/topicGraph.ts:61-66 | Metadata without tags gives no tags; otherwise it gives exactly the tags as listed. |
| TopicNames.RelationValues | src/utils/topicGraph.ts:68-74 | The concatenated values hold exactly the links found in one of the given relation fields. |
| TopicNames.TopicRelations | src/utils/topicGraph.ts:68-76 | The topic links are duplicate-free and are exactly the links of the `hasTopic`, `isA`, `for` and `subset` fields. |
| TopicNames.SubsetLinks | src/utils/topicGraph.ts:108-113 | A topic's parent links are exactly its `subset` field, or nothing when the field is absent. |
| TopicGraph.DescendantsOfAll | src/utils/topicGraph.ts:301-307 | Visiting several topics with a shared accumulator extends the accumulator. The result stays duplicate-free and holds exactly the accumulator plus every topic reachable from the visited ones. |
| TopicGraph.CollectTopicDescendants | src/utils/topicGraph.ts:301-307 | The descendants set extends its accumulator, is duplicate-free, and adds exactly the topics reachable from the node along child links, the node included. |
| TopicGraph.ReachClosed | src/utils/topicGraph.ts:301-307 | The descendants of a topic are closed under taking children. |
| TopicGraph.ReachIsPath | src/utils/topicGraph.ts:301-307 | A topic is a descendant exactly when a path of child links leads to it. |
| TopicGraph.CollectTopicFilePaths | src/utils/topicGraph.ts:314-327 | The collected file paths include the topic's own notes. |
| TopicGraph.FilePathsOfReach | src/utils/topicGraph.ts:314-327 | A path is collected exactly when it is filed under the topic or one of its descendants. |
| TopicGraph.FilePathsSound | src/utils/topicGraph.ts:314-327 | Every collected path is filed under some descendant. |
| TopicGraph.FilePathsComplete | src/utils/topicGraph.ts:314-327 | Every path filed under a descendant is collected. |
| TopicGraph.NoteCountCollectsFilePaths | src/utils/topicGraph.ts:275-289 | The notes `getTotalNoteCount` gathers (the topic's own and those of `collectFromChildren`) are exactly the paths `collectTopicFilePaths` collects. |
| TopicGraph.TotalNoteCount | src/utils/topicGraph.ts:265-295 | The total note count is the number of distinct file paths under the topic and its descendants, and it is at least the topic's own note count. |
| TopicGraph.NoteCountCache.constructor | src/utils/topicGraph.ts:43-55 | A cleared cache remembers no counts. |
| TopicGraph.NoteCountCache.GetTotalNoteCount | src/utils/topicGraph.ts:265-295 | The cached or fresh count is always the number of distinct paths under the topic. A remembered count is returned unchanged, and a new one is remembered. |
| TopicGraph.CountsCorrectUpdate | src/utils/topicGraph.ts:292 | Remembering a freshly computed count keeps every cached count correct. |
| TopicGraph.SearchNodes | src/utils/topicGraph.ts:334-346 | The depth-first search returns the stored node with the searched name, and finds nothing exactly when no visited topic reaches that name. |
| TopicGraph.FindTopicNode | src/utils/topicGraph.ts:332-349 | A node is found, and it is the node of that name, exactly when some root reaches it. |
| TopicGraph.AncestorChain | src/utils/topicGraph.ts:370-377 | `collectAncestors` yields a chain that starts at a parentless topic, in which each topic's first parent comes just before it, ending at the given topic. |
| TopicGraph.ChainExtend | src/utils/topicGraph.ts:370-377 | A chain to a topic's first parent, followed by the topic, is a chain to the topic. |
| TopicGraph.TopicAncestors | src/utils/topicGraph.ts:358-382 | The ancestors are empty exactly when the topic has no parents. Otherwise they run from a parentless root down to the topic's first parent, following first parents, without repeats and without the topic itself. |
| TopicBuild.Roots | src/utils/topicGraph.ts:245-252 | The roots are exactly the registered topics without parents, duplicate-free, in registration order. |
| TopicBuild.LinkNodes | src/utils/topicGraph.ts:138-141 | Linking records the child in the parent and the parent in the child (each once). No other node changes, and no names or notes change. |
| TopicBuild.LinkKeepsClosed | src/utils/topicGraph.ts:138-141 | After linking, every link still names a stored topic. |
| TopicBuild.LinkKeepsMutual | src/utils/topicGraph.ts:138-141 | After linking, every link is still recorded at both ends. |
| TopicBuild.LinkKeepsNoDup | src/utils/topicGraph.ts:138-141 | After linking, parent and child lists stay duplicate-free, as the source's Maps keyed by name are. |
| TopicBuild.TopicStore.constructor | src/utils/topicGraph.ts:159 | The topic map starts empty. |
| TopicBuild.TopicStore.Link | src/utils/topicGraph.ts:138-141 | The stored nodes become the linked store; the registration order is unchanged. |
| TopicBuild.TopicStore.Register | src/utils/topicGraph.ts:91-97 | A new topic is stored with no links or notes and appended to the registration order. The map invariant is kept. |
| TopicBuild.RegisterKeepsValid | src/utils/topicGraph.ts:91-97 | Registering a fresh name keeps the map closed and mutual, with duplicate-free links and keys listed once in order. |
| TopicBuild.TopicStore.TraverseTopicsUp | src/utils/topicGraph.ts:82-144 | The returned name is the path's topic name, and it is registered. An already-registered name changes nothing. Otherwise the map only grows, and every link it adds comes from a `subset` link of some note and has a newly registered topic as its child. When the note has metadata, each parent named by its `subset` links is linked to it. |
| TopicBuild.TopicStore.AddParents | src/utils/topicGraph.ts:118-142 | Every parent named by the child's `subset` links is linked to the child. The map only grows, and every new parent link ends at the child or at a topic registered on the way. |
| TopicBuild.TopicStore.AddParent | src/utils/topicGraph.ts:119-141 | A link that resolves to a topic, or to a note without metadata, is registered and linked to the child. A link that fails to resolve, or resolves to a note that is not a topic, changes nothing at all. Each new link is justified by that `subset` link. |
| TopicBuild.LinkedStep | src/utils/topicGraph.ts:118-142 | Links made in earlier iterations survive later growth of the map. |
| TopicBuild.GrowsTrans | src/utils/topicGraph.ts:118-142 | Two growth steps compose into one. |
| TopicBuild.GrowsAfterLink | src/utils/topicGraph.ts:138-141 | Linking two registered topics is still growth. |
| TopicBuild.LinkEdges | src/utils/topicGraph.ts:138-141 | Linking keeps every link and adds exactly the one parent/child pair. |
| TopicBuild.LinkNewChildren | src/utils/topicGraph.ts:138-141 | The only parent link that linking adds ends at the child. |
| TopicBuild.TopicStore.FileNote | src/utils/topicGraph.ts:215 | Adds the path to one topic's notes, and changes nothing else. |
| TopicBuild.FiledKeepsValid | src/utils/topicGraph.ts:215 | Filing notes changes no key and no link, so the map invariant is kept. |
| TopicBuild.TopicStore.CollectParentTopics | src/utils/topicGraph.ts:190-220 | Only notes change. The call overflows exactly when the climb through non-topic notes needs more calls than are left. Without overflow, the note is filed under every registered topic its `hasTopic`, `isA`, `for` and `subset` links reach (`NoteTopics`), climbing through notes that are not topics. Either way it is filed under no other topic. |
| TopicBuild.TopicStore.CollectLinks | src/utils/topicGraph.ts:201-218 | The loop over the relation links overflows exactly when one of the links does. Otherwise it files the note under every registered topic the links reach, and it never files it under another. |
| TopicBuild.TopicStore.CollectLink | src/utils/topicGraph.ts:202-217 | One link: an unresolved link files nothing. A link to a note that is not a topic climbs through that note with one call less. A link to a topic files the note under it when it is registered. |
| TopicBuild.NoteUnfold | src/utils/topicGraph.ts:190-199 | A topic, or a note without metadata, reaches no topic and cannot overflow. Any other note reaches what its relation links reach. |
| TopicBuild.LinkUnresolved | src/utils/topicGraph.ts:204-206 | A link that does not resolve reaches nothing and cannot overflow. |
| TopicBuild.LinkThrough | src/utils/topicGraph.ts:208-211 | A link to a note that is not a topic reaches what that note reaches with one call less; with no call left it overflows. |
| TopicBuild.LinkToTopic | src/utils/topicGraph.ts:212-216 | A link to a topic, or to a note without metadata, reaches exactly its target's topic name. |
| TopicBuild.LinkInLinks | src/utils/topicGraph.ts:201-218 | What one link reaches is part of what the whole list reaches. |
| TopicBuild.LinkOverflowInLinks | src/utils/topicGraph.ts:201-218 | One link that overflows makes the whole list overflow. |
| TopicBuild.CollectStep | src/utils/topicGraph.ts:201-218 | One iteration keeps the loop invariant, or shows that the whole list overflows. |
| TopicBuild.CollectDone | src/utils/topicGraph.ts:201-218 | After the last link, the note is filed under everything the links reach and nothing else, and no link overflowed. |
| TopicBuild.FileNoteFiles | src/utils/topicGraph.ts:212-216 | Filing under a registered topic files the note under exactly that topic. |
| TopicBuild.FiledUnderTrans | src/utils/topicGraph.ts:201-219 | Filing the same note in two steps is filing it once. |
| TopicBuild.TopicStore.RegisterTopics | src/utils/topicGraph.ts:165-188 | The first pass only grows the map, and every link it adds is justified by a `subset` link. Every kept note tagged as a topic then has its topic registered, or, as the source's `allTopics.has(path)` test allows, its path is a registered key. |
| TopicBuild.TopicStore.FileNotes | src/utils/topicGraph.ts:223-243 | The second pass keeps the topics, the order and every link. Every kept, existing note whose climb does not overflow is filed under all registered topics it reaches. Every newly filed note was filed from a kept note that reaches that topic. |
| TopicBuild.FiledEveryStep | src/utils/topicGraph.ts:223-243 | Visiting one more note keeps every earlier note filed and adds the new note's topics. |
| TopicBuild.FiledSoundStep | src/utils/topicGraph.ts:223-243 | Visiting a kept note files it only under topics it reaches. |
| TopicBuild.TopicStore.RootTopics | src/utils/topicGraph.ts:245-252 | The third pass returns the parentless topics in registration order. |
| TopicBuild.CollectRoots | src/utils/topicGraph.ts:248-252 | The loop over the map computes exactly the parentless topics in order. |
| TopicBuild.BuildTopicGraph | src/utils/topicGraph.ts:152-259 | The built graph is closed and mutual. The roots are duplicate-free and are exactly the parentless topics. Every topic comes from a database note or a link target. Every kept topic-tagged note is registered. Every parent link comes from a note's `subset` link. A topic's notes are exactly the kept notes that reach it, except that a note whose climb overflows may be missing from some of them. |
| TopicService.AllTopicNamesReach | src/services/TopicGraphService.ts:55-63 | A name is listed exactly when some root reaches it. |
| TopicService.AllTopicNamesCount | src/services/TopicGraphService.ts:55-63 | Each name is listed once per root that reaches it, so a topic under two roots appears twice. |
| TopicService.AllTopicNamesSnoc | src/services/TopicGraphService.ts:57-61 | Taking one more root appends that root's descendants. |
| TopicService.CollectAllTopicNames | src/services/TopicGraphService.ts:56-62 | The loop over the roots computes the concatenated descendants of each root. |
| TopicService.TopicService.constructor | src/services/TopicGraphService.ts:28 | A new service holds the empty graph. |
| TopicService.TopicService.UpdateTopicGraph | src/services/TopicGraphService.ts:34-36 | The held graph becomes the given one, whatever its shape: a cyclic graph is stored too. |
| TopicService.TopicService.GetTopicGraph | src/services/TopicGraphService.ts:41-43 | Returns the graph last given. |
| TopicService.TopicService.FindTopicNode | src/services/TopicGraphService.ts:48-50 | Finds the node of that name exactly when some root reaches it. The walk needs a ranking of the held graph, which rules out a cycle reachable from the roots. |
| TopicService.TopicService.GetAllTopicNames | src/services/TopicGraphService.ts:55-63 | The names listed are exactly those some root reaches; with no roots the list is empty. Needs a ranking of the held graph, as `FindTopicNode` does. |
| TopicService.TopicService.CollectTopicNames | src/services/TopicGraphService.ts:68-70 | The set of names is exactly the topic and its descendants. Needs a ranking of the held graph. |
| RootTopicOrder.KeptNames | src/hooks/useRootTopicOrder.ts:39-51 | The kept names are duplicate-free and are exactly the non-empty names of the stored order. |
| RootTopicOrder.Unseen | src/hooks/useRootTopicOrder.ts:53-54 | The nodes still to append are exactly those whose name was not seen. |
| RootTopicOrder.NormalizeRootTopicOrder | src/hooks/useRootTopicOrder.ts:25-69 | The two loops compute the normalised order and the missing names as their specification functions define them. |
| RootTopicOrder.NodeNameSet | src/hooks/useRootTopicOrder.ts:30-33 | The node map's keys are exactly the nodes' names. |
| RootTopicOrder.KeepExisting | src/hooks/useRootTopicOrder.ts:39-51 | The first loop keeps each non-empty stored name once, records it as seen, and reports as missing exactly the kept names that have no node. |
| RootTopicOrder.AppendNew | src/hooks/useRootTopicOrder.ts:58-63 | The second loop appends each sorted node's name that is not already present. |
| RootTopicOrder.AppendedNodes | src/hooks/useRootTopicOrder.ts:53-56 | The nodes to append are the unseen nodes sorted by the fallback comparator. |
| RootTopicOrder.NormalizedPrefix | src/hooks/useRootTopicOrder.ts:25-69 | The normalised order is duplicate-free and starts with the kept stored names, none of them empty. |
| RootTopicOrder.MissingNamesSpec | src/hooks/useRootTopicOrder.ts:48-50 | A name is reported missing exactly when it is a non-empty stored name that no node carries. |
| RootTopicOrder.NormalizedCoversNodes | src/hooks/useRootTopicOrder.ts:53-63 | Every node's name appears in the normalised order, so a new topic is never dropped. |
| RootTopicOrder.NormalizedMembers | src/hooks/useRootTopicOrder.ts:39-63 | Every name in the normalised order is a kept stored name or a node's name. |
| RootTopicOrder.NormalizedAppendsSorted | src/hooks/useRootTopicOrder.ts:53-63 | With distinct node names and a consistent comparator, the order is the kept names followed by the names of a sorted permutation of the unseen nodes. |
| RootTopicOrder.NormalizedNoEmpty | src/hooks/useRootTopicOrder.ts:39-63 | With non-empty node names, the normalised order holds no empty name. |
| RootTopicOrder.NormalizeIdempotent | src/hooks/useRootTopicOrder.ts:25-69 | Normalising an already normalised order changes nothing. |
| RootTopicOrder.RootTopicNodes | src/hooks/useRootTopicOrder.ts:88-96 | The root topic nodes are exactly the graph's nodes without parents; an absent graph gives none. |
| RootTopicOrder.ParentlessNodes | src/hooks/useRootTopicOrder.ts:92-95 | The filter keeps exactly the parentless nodes. |
| RootTopicOrder.ParentlessKeepsOrder | src/hooks/useRootTopicOrder.ts:92-95 | The filter keeps the map's order. The roots are the parentless nodes taken at strictly increasing positions, and no parentless node is skipped. |
| RootTopicOrder.IndexMap | src/hooks/useRootTopicOrder.ts:126 | Every listed name gets a position at which it occurs, the last such position when it is listed twice. Nothing else gets one. |
| RootTopicOrder.IndexMapOfNoDup | src/hooks/useRootTopicOrder.ts:126 | In a duplicate-free order, each name maps to its own position. |
| RootTopicOrder.UseRootTopicOrder | src/hooks/useRootTopicOrder.ts:98-134 | Without a custom order, the hook yields an empty map, no missing names and no settings write. With one, the normalised order is written back exactly when it differs from the stored order, and the positions map is that normalised order's index map. |
| RootTopicOrder.CustomOrderState | src/hooks/useRootTopicOrder.ts:98-134 | With a custom order, every root gets a position and positions are distinct. Only stored names and root names are placed. The missing names are the stored names that no root carries. |
| RootTopicOrder.WriteBackSettles | src/hooks/useRootTopicOrder.ts:109-119 | After the normalised order is written back, the next evaluation writes nothing, so the effect does not loop. |
| Sorting.TiesChain | src/utils/sortUtils.ts:93-129 | Under a consistent comparator, ties are symmetric and transitive, and "less" chains with "not greater". |
| Sorting.InsertPermutes | src/utils/sortUtils.ts:93-129 | Inserting adds exactly the inserted element. |
| Sorting.SortByPermutes | src/utils/sortUtils.ts:93-129 | Sorting only reorders: the result is a permutation of the input. |
| Sorting.InsertSorted | src/utils/sortUtils.ts:93-129 | Inserting into a sorted list keeps it sorted. |
| Sorting.SortBySorted | src/utils/sortUtils.ts:93-129 | With a consistent comparator, the sorted list has no element greater than a later one. |
| Sorting.SortInPlace | src/utils/sortUtils.ts:93-129 | The array ends up as the stable sort of its old contents. |
| Sorting.InsertStep | src/utils/sortUtils.ts:93-129 | One pass moves the next element into place in the sorted prefix and leaves the suffix alone. |
| SortUtils.SortOptionsComplete | src/utils/sortUtils.ts:27 | The menu lists each of the six options exactly once, and the settings strings tell the options apart. |
| SortUtils.EffectiveSortOptionSpec | src/utils/sortUtils.ts:55-72 | The effective option is the override for the selected folder path, tag or topic when one exists, and the default exactly when none does. A topic sorts like the tag of the same name. |
| SortUtils.SortFiles | src/utils/sortUtils.ts:81-130 | The files end up as the stable sort by the option's comparator, and they are a permutation of the old array. |
| SortUtils.TimestampComparators | src/utils/sortUtils.ts:94-105 | Newest-first and oldest-first timestamp differences are consistent comparators. |
| SortUtils.NegatedComparator | src/utils/sortUtils.ts:123 | The reversed name comparison of `title-desc` is still consistent. |
| SortUtils.ByNameFlips | src/utils/sortUtils.ts:106-127 | Swapping two files flips the sign of the name, length, path comparison. |
| SortUtils.ByNameChains | src/utils/sortUtils.ts:106-127 | "Not greater" under the name, length, path comparison is transitive. |
| SortUtils.TitleComparator | src/utils/sortUtils.ts:106-127 | Both title comparators are consistent whenever the natural and path comparisons are. |
| SortUtils.FileComparatorConsistent | src/utils/sortUtils.ts:93-129 | Every option's comparator is consistent. |
| SortUtils.SortedByTimestamp | src/utils/sortUtils.ts:94-105 | After a date sort, the chosen timestamps are non-increasing for `-desc` and non-decreasing for `-asc`. |
| SortUtils.SortedByTitle | src/utils/sortUtils.ts:106-127 | After a title sort, names are in natural order (reversed for `title-desc`). Names that compare equal put the shorter one first, then the smaller path. |
| SortUtils.SortIcon | src/utils/sortUtils.ts:137-139 | The icon is the descending one exactly for the `-desc` options. |
| SortUtils.DateField | src/utils/sortUtils.ts:146-148 | The date field is `ctime` exactly for the `created-` options. |
| ListPaneAppearance.MergeNothing | src/hooks/useListPaneAppearance.ts:29 | Merging a missing override gives the global settings. |
| ListPaneAppearance.MergeFull | src/hooks/useListPaneAppearance.ts:31-37 | A fully set override is taken as it is. |
| ListPaneAppearance.FolderAppearance | src/hooks/useListPaneAppearance.ts:27-38 | With a folder selected, each field set in the folder's override wins, and an unset field falls back to the global setting. |
| ListPaneAppearance.TagAppearance | src/hooks/useListPaneAppearance.ts:41-51 | With a non-empty tag selected, the tag's override is merged the same way. |
| ListPaneAppearance.TopicLikeTag | src/hooks/useListPaneAppearance.ts:54-64 | A selected topic looks exactly like the tag of the same name. |
| ListPaneAppearance.NoSelectionDefaults | src/hooks/useListPaneAppearance.ts:67-73 | Without a usable selection, the result is exactly the global settings. |
| ListPaneAppearance.AppearanceFields | src/hooks/useListPaneAppearance.ts:25-73 | Every field of the result is the selected override's field when set, and the global one otherwise. |
| MetadataService.ValidateColorExamples | src/services/metadata/BaseMetadataService.ts:95-100 | Short and long hex colours and named colours pass. A bare `rgb(` opening passes, but a complete `rgb(1,2,3)` call is rejected, as are two hex digits, nine hex digits and the empty string. |
| MetadataService.ColorRecordKey | src/services/metadata/BaseMetadataService.ts:164-172 | A colour is kept in one of the five colour records. |
| MetadataService.ColorRecordKeySeparates | src/services/metadata/BaseMetadataService.ts:164-172 | Folders and tags keep each variant in a record of its own, and different entity types or variants never share one. A file keeps both variants in `fileColors`, which only files use. |
| MetadataService.Lookup | src/services/metadata/BaseMetadataService.ts:222 | A value is found exactly when the record exists and holds the path. |
| MetadataService.MetadataService.constructor | src/services/metadata/BaseMetadataService.ts:177-182 | The service starts on the given settings records. |
| MetadataService.MetadataService.Put | src/services/metadata/BaseMetadataService.ts:177-197 | The record is created if missing and the path is set to the value. Every other record and entry is unchanged. |
| MetadataService.MetadataService.Delete | src/services/metadata/BaseMetadataService.ts:209-214 | The entry is removed from an existing record; a missing record stays missing. Nothing else changes. |
| MetadataService.MetadataService.SetEntityColorVariant | src/services/metadata/BaseMetadataService.ts:187-197 | An invalid colour changes nothing. A valid one is stored in the variant's record for the entity type, touching nothing else. |
| MetadataService.MetadataService.RemoveEntityColorVariant | src/services/metadata/BaseMetadataService.ts:202-215 | The entry is gone afterwards. When the record or the entry was missing, nothing changes. |
| MetadataService.MetadataService.GetEntityColorVariant | src/services/metadata/BaseMetadataService.ts:220-223 | Returns the entry of the variant's record, if any. |
| MetadataService.MetadataService.SetEntityColor | src/services/metadata/BaseMetadataService.ts:110-112 | Sets the foreground colour of a valid colour only. |
| MetadataService.MetadataService.SetEntityBackgroundColor | src/services/metadata/BaseMetadataService.ts:139-141 | Sets the background colour of a valid colour only. |
| MetadataService.MetadataService.RemoveEntityColor | src/services/metadata/BaseMetadataService.ts:119-121 | Removes the foreground colour. |
| MetadataService.MetadataService.RemoveEntityBackgroundColor | src/services/metadata/BaseMetadataService.ts:148-150 | Removes the background colour. |
| MetadataService.MetadataService.GetEntityColor | src/services/metadata/BaseMetadataService.ts:129-131 | Returns the text colour stored for the entity, if any, from the colour record of its type. |
| MetadataService.MetadataService.GetEntityBackgroundColor | src/services/metadata/BaseMetadataService.ts:157-159 | Returns the background colour stored for the entity, if any, from the background record of its type. |
| MetadataService.MetadataService.SetEntityIcon | src/services/metadata/BaseMetadataService.ts:233-252 | The icon is stored in the entity type's own icon record, touching nothing else. |
| MetadataService.MetadataService.RemoveEntityIcon | src/services/metadata/BaseMetadataService.ts:259-279 | A truthy icon entry is deleted. An absent or empty-string entry is left as it is. |
| MetadataService.MetadataService.GetEntityIcon | src/services/metadata/BaseMetadataService.ts:287-295 | Returns the icon from the entity type's own record. |
| MetadataService.MetadataService.SetEntitySortOverride | src/services/metadata/BaseMetadataService.ts:305-319 | A folder's override goes to the folder record. A tag's or a file's goes to the tag record. |
| MetadataService.MetadataService.RemoveEntitySortOverride | src/services/metadata/BaseMetadataService.ts:326-340 | A truthy folder or tag override is deleted. A file's removal does nothing. |
| MetadataService.MetadataService.GetEntitySortOverride | src/services/metadata/BaseMetadataService.ts:348-353 | Folders read the folder record; all other entity types read the tag record. |
| MetadataService.CleanupMetadata | src/services/metadata/BaseMetadataService.ts:361-385 | A missing record reports no change. Otherwise, exactly the keys the validator accepts stay, with their values. A change is reported exactly when some key was rejected. |
| MetadataService.DeleteNestedPaths | src/services/metadata/BaseMetadataService.ts:431-442 | Exactly the prefix and the keys beneath it are deleted, and the others keep their values. A change is reported exactly when such a key existed. |
| MetadataService.UnderBoth | src/services/metadata/BaseMetadataService.ts:436 | A key under two prefixes means one prefix lies under the other. |
| MetadataService.RelocateOrigin | src/services/metadata/BaseMetadataService.ts:409 | Moving a key from the old prefix to the new one and back gives the key again. |
| MetadataService.Disjoint | src/services/metadata/BaseMetadataService.ts:391-425 | When neither path lies under the other, no key lies under both. |
| MetadataService.CollectUpdates | src/services/metadata/BaseMetadataService.ts:394-416 | The collected updates move each key at or beneath the old path exactly once. Each update carries the key's value and its relocated key. |
| MetadataService.CollectStep | src/services/metadata/BaseMetadataService.ts:407-416 | Visiting one more key keeps the collection invariant. |
| MetadataService.ApplyUpdate | src/services/metadata/BaseMetadataService.ts:419-422 | Writing one update's new key and deleting its old key extends the set of moved keys. |
| MetadataService.UpdateNestedPaths | src/services/metadata/BaseMetadataService.ts:391-425 | The old path and every key beneath it move to the new path with their values. Moved entries override entries already at the new key. A move is reported exactly when some key lay at or under the old path. |
| MetadataService.AllMovedIsRenamed | src/services/metadata/BaseMetadataService.ts:418-422 | Once every update is applied, the record is renamed. |
| MetadataService.RenamedKeepsOthers | src/services/metadata/BaseMetadataService.ts:391-425 | A key beneath neither path keeps its presence and value through a rename. |
| RecentStorage.AllStrings | src/services/RecentStorageService.ts:117 | Filtering keeps the string items only, so the result is never longer than the input. |
| RecentStorage.AllStringsOfStrs | src/services/RecentStorageService.ts:117 | Filtering a list of strings gives the list back. |
| RecentStorage.NonEmptyStringsMembers | src/services/RecentStorageService.ts:227-231 | The kept items are exactly the non-empty strings among the items. |
| RecentStorage.NormalizeRecentFacts | src/services/RecentStorageService.ts:223-249 | The normalised list is duplicate-free, has no empty entries and has at most `limit` entries. It keeps items in first-seen order, and drops an item only once the limit is reached. |
| RecentStorage.NormalizeRecentValid | src/services/RecentStorageService.ts:223-249 | A normalised list is duplicate-free, has no empty entry and is within the limit. |
| RecentStorage.NormalizeCleanList | src/services/RecentStorageService.ts:223-249 | A clean list is normalised by cutting it to the limit. |
| RecentStorage.NormalizeRecentIdempotent | src/services/RecentStorageService.ts:223-249 | Normalising a normalised list with the same limit changes nothing. |
| RecentStorage.Advance | src/services/RecentStorageService.ts:227-240 | Each step of the loop appends the item exactly when it is a new non-empty string. |
| RecentStorage.StoppedAtLimit | src/services/RecentStorageService.ts:243-245 | Stopping early at the limit gives the normalised list. |
| RecentStorage.Finished | src/services/RecentStorageService.ts:227-248 | Running out of items below the limit gives the normalised list. |
| RecentStorage.NormalizeRecentNotes | src/services/RecentStorageService.ts:223-249 | The loop computes the normalised list. |
| RecentStorage.RecentNotesLimit | src/services/RecentStorageService.ts:339-342 | The limit is the configured count (the default when none is configured), raised to 1 when below. |
| RecentStorage.NormalizedIcons | src/services/RecentStorageService.ts:252-293 | The normalised map keeps exactly the non-empty provider ids whose list normalises to something non-empty. Each such list is duplicate-free, without empty ids, and holds at most 15 entries. |
| RecentStorage.NormalizeRecentIconsMap | src/services/RecentStorageService.ts:252-293 | The loop over the providers computes the normalised map. |
| RecentStorage.NormalizedIconsOfWellFormed | src/services/RecentStorageService.ts:252-293 | A map that is already well formed is its own normalisation. |
| RecentStorage.SanitizedIcons | src/services/RecentStorageService.ts:345-365 | The sanitised map keeps exactly the non-empty keys whose value is an array with some string in it, mapped to those strings. |
| RecentStorage.SanitizeIconRecord | src/services/RecentStorageService.ts:345-365 | The loop computes the sanitised map. |
| RecentStorage.FilterStrings | src/services/RecentStorageService.ts:359 | The loop keeps the string items in order. |
| RecentStorage.AreArraysEqual | src/services/RecentStorageService.ts:296-308 | True exactly when the lists are equal. |
| RecentStorage.AreIconMapsEqual | src/services/RecentStorageService.ts:311-327 | The loop computes the source's comparison: as many keys on each side, and equal lists under every key of the first map, where a missing key counts as the empty list. |
| RecentStorage.IconMapsEqualIsEquality | src/services/RecentStorageService.ts:311-327 | On maps without empty lists, the comparison is map equality. |
| RecentStorage.CloneIconMap | src/services/RecentStorageService.ts:330-336 | The copy equals the original. |
| RecentStorage.LoadNotes | src/services/RecentStorageService.ts:114-127 | The cache is the normalised stored list. The stored entry is rewritten, with the normalised list, only when that differs from the stored string items. |
| RecentStorage.LoadIcons | src/services/RecentStorageService.ts:130-143 | The cache is the sanitised and then normalised stored record. The stored entry is rewritten only when normalising changed the sanitised record. |
| RecentStorage.HydratedNotesAreStable | src/services/RecentStorageService.ts:114-127 | After the stored list is written back, loading it again with the same limit writes nothing. |
| RecentStorage.UpdateNotes | src/services/RecentStorageService.ts:62-70 | An input that normalises to the cache changes nothing. Otherwise the cache becomes the normalised input and a write is scheduled. |
| RecentStorage.ApplyLimit | src/services/RecentStorageService.ts:86-94 | A cache within the limit is kept. A longer one is cut to its first `limit` entries and a write is scheduled. |
| RecentStorage.RecentStorageService.constructor | src/services/RecentStorageService.ts:35-50 | Caches and last writes start empty, and no timer is pending. |
| RecentStorage.RecentStorageService.HydrateRecentNotes | src/services/RecentStorageService.ts:114-127 | The notes cache and last write become the normalised stored list. The stored entry is rewritten only when it changed, and the icon side is untouched. |
| RecentStorage.RecentStorageService.HydrateRecentIcons | src/services/RecentStorageService.ts:130-143 | The icons cache and last write become the normalised sanitised record. The stored entry is rewritten only when it changed, and the notes side is untouched. |
| RecentStorage.RecentStorageService.Hydrate | src/services/RecentStorageService.ts:53-56 | Both caches and last writes become the normalised stored data, and each stored entry is rewritten only when normalising changed it. The pending flags, the limit setting and the notification count are unchanged. |
| RecentStorage.RecentStorageService.GetRecentNotes | src/services/RecentStorageService.ts:58-60 | Returns the notes cache. |
| RecentStorage.RecentStorageService.GetRecentIcons | src/services/RecentStorageService.ts:72-74 | Returns the icons cache. |
| RecentStorage.RecentStorageService.SetRecentNotes | src/services/RecentStorageService.ts:62-70 | An input that normalises to the cache changes nothing. Otherwise the cache takes the normalised list and a write is scheduled. The cache stays within the limit. Nothing is notified. |
| RecentStorage.RecentStorageService.SetRecentIcons | src/services/RecentStorageService.ts:76-84 | The same for the icon map, compared with the icon-map comparison. Nothing is notified. |
| RecentStorage.RecentStorageService.ApplyRecentNotesLimit | src/services/RecentStorageService.ts:86-94 | The cache becomes a prefix of itself within the current limit. A cache already within the limit is left alone. A longer cache is cut to its first `limit` entries and a write is scheduled. Nothing is notified. |
| RecentStorage.RecentStorageService.PersistRecentNotesImmediately | src/services/RecentStorageService.ts:188-199 | A cache equal to the last write writes nothing and notifies no one. Otherwise it is stored, remembered and notified once. |
| RecentStorage.RecentStorageService.PersistRecentIconsImmediately | src/services/RecentStorageService.ts:202-213 | The same for the icon map. |
| RecentStorage.RecentStorageService.OnNotesPersistTimer | src/services/RecentStorageService.ts:153-156 | The delayed notes write clears the pending flag. It writes and notifies once exactly when the cache differs from the last write, keeps the invariant, and leaves the icon side untouched. |
| RecentStorage.RecentStorageService.OnIconsPersistTimer | src/services/RecentStorageService.ts:167-170 | The delayed icons write clears the pending flag. It writes and notifies once exactly when the map differs from the last write, keeps the invariant, and leaves the notes side untouched. |
| RecentStorage.RecentStorageService.FlushPendingPersists | src/services/RecentStorageService.ts:97-111 | Both timers are cancelled. Each cache that differs from its last write is written, and the notification count grows by one per such side. |
| IconTypes.CapitalizeAll | src/services/icons/providers/LucideIconProvider.ts:168 | Each word is capitalised, in place. |
| IconTypes.LowerAll | src/services/icons/providers/LucideIconProvider.ts:88 | Each word is lower-cased, in place. |
| IconTypes.TitleCaseSpells | src/services/icons/providers/LucideIconProvider.ts:165-170 | Splitting on dashes, capitalising and joining with spaces equals a left-to-right spelling of the id. |
| IconTypes.SpellChars | src/services/icons/providers/LucideIconProvider.ts:165-170 | The left-to-right spelling agrees with the character-by-character description. |
| IconTypes.TitleCaseChars | src/services/icons/providers/LucideIconProvider.ts:165-170 | The display name is exactly as long as the id. |
| IconTypes.TitleCaseIsChars | src/services/icons/providers/LucideIconProvider.ts:165-170 | The display name is as long as the id. It has a space for each dash and an upper-case character at the start of each word, and is otherwise unchanged. |
| LucideIcons.FormatDisplayName | src/services/icons/providers/LucideIconProvider.ts:165-170 | The display name of an id is its character-wise Title Case. |
| LucideIcons.GetKeywords | src/services/icons/providers/LucideIconProvider.ts:179-250 | The loop computes the id's keywords. |
| LucideIcons.KeywordsSpec | src/services/icons/providers/LucideIconProvider.ts:179-250 | The keywords start with the id's dash-separated segments in order. Every later keyword is a listed synonym of one of them, and every listed synonym of every segment is present. |
| LucideIcons.SynonymsFrom | src/services/icons/providers/LucideIconProvider.ts:242-247 | Every added synonym comes from the table entry of some segment. |
| LucideIcons.SynonymsCover | src/services/icons/providers/LucideIconProvider.ts:242-247 | Every table synonym of every segment is added. |
| LucideIcons.MatchScore | src/services/icons/providers/LucideIconProvider.ts:261-294 | A score is one of the nine tiers 0 to 8. |
| LucideIcons.MatchScoreTiers | src/services/icons/providers/LucideIconProvider.ts:261-294 | A score of at most 2 means an exact match of the id, a non-empty display name or a keyword. At most 5 means a prefix match of one of them. No score means no substring match anywhere. |
| LucideIcons.ScoreIcon | src/services/icons/providers/LucideIconProvider.ts:87-108 | The loop body scores one id and builds its match. |
| LucideIcons.CollectMatches | src/services/icons/providers/LucideIconProvider.ts:86-109 | The loop collects the matches of the ids, in order. |
| LucideIcons.MatchesScored | src/services/icons/providers/LucideIconProvider.ts:86-109 | Every match is an input id with its score and its definition. |
| LucideIcons.MatchesComplete | src/services/icons/providers/LucideIconProvider.ts:86-109 | Every id with a score is matched. |
| LucideIcons.SortMatches | src/services/icons/providers/LucideIconProvider.ts:112-126 | The matches are sorted in place by score, then name, then id. |
| LucideIcons.MatchOrderFlips | src/services/icons/providers/LucideIconProvider.ts:112-126 | Swapping two matches flips the sign of the comparison. |
| LucideIcons.MatchOrderChains | src/services/icons/providers/LucideIconProvider.ts:112-126 | "Not greater" between matches is transitive. |
| LucideIcons.MatchOrderConsistent | src/services/icons/providers/LucideIconProvider.ts:112-126 | Score, then name, then id is a consistent comparator whenever `localeCompare` is. |
| LucideIcons.Icons | src/services/icons/providers/LucideIconProvider.ts:129 | The icons of the matches, in order. |
| LucideIcons.Take | src/services/icons/providers/LucideIconProvider.ts:129 | `slice(0, 50)` keeps a prefix of at most fifty results, or all of them when there are fewer. |
| LucideIcons.SearchResults | src/services/icons/providers/LucideIconProvider.ts:75-130 | At most fifty results; a query that is blank after trimming gives none. |
| LucideIcons.Search | src/services/icons/providers/LucideIconProvider.ts:75-130 | The method computes the search results. |
| LucideIcons.ResultFromMatch | src/services/icons/providers/LucideIconProvider.ts:129 | Every result comes from a match. |
| LucideIcons.SearchResultsScored | src/services/icons/providers/LucideIconProvider.ts:75-130 | Every result is the definition of an input id that scores for the normalised query. |
| LucideIcons.MatchInResults | src/services/icons/providers/LucideIconProvider.ts:129 | With at most fifty matches, none is cut off. |
| LucideIcons.SearchResultsComplete | src/services/icons/providers/LucideIconProvider.ts:75-130 | When at most fifty ids match, every matching id's definition is among the results. |
| LucideIcons.SearchResultsOrdered | src/services/icons/providers/LucideIconProvider.ts:75-130 | The results are the first fifty ranked matches. They come in ascending score, then ascending display name, then ascending id. |
| LucideIcons.AllIcons | src/services/icons/providers/LucideIconProvider.ts:137-145 | One definition per id in the host's order, with the id's Title Case name and its keywords. |
| EmojiUtils.IsValidEmojiSpec | src/utils/emojiUtils.ts:38-62 | A blank string is not an emoji, and neither is one containing an ASCII letter or digit. Otherwise a string is an emoji exactly when its trimmed form has a code point in the emoji ranges. |
| EmojiUtils.EmojiPrefix | src/utils/emojiUtils.ts:87 | The leading run is the longest prefix made of emoji-sequence code points. |
| EmojiUtils.EmojiNotAlphanumeric | src/utils/emojiUtils.ts:51-59 | No emoji code point is an ASCII letter or digit. |
| EmojiUtils.EmojiRunIsValid | src/utils/emojiUtils.ts:87-90 | A run of emoji-sequence code points starting with an emoji code point is itself a valid emoji. |
| EmojiUtils.ExtractFirstEmojiSpec | src/utils/emojiUtils.ts:74-94 | Empty input gives nothing. A trimmed input that is a valid emoji is returned whole. Otherwise the leading emoji run is returned, if there is one. Anything returned is non-empty and a valid emoji. |
| EmojiUtils.ValidEmojiExtracts | src/utils/emojiUtils.ts:74-83 | A valid emoji always extracts to its trimmed self. |
| EmojiProvider.FirstMatch | src/services/icons/providers/EmojiIconProvider.ts:107-111 | A found keyword matches and sits at a position before which no keyword matches, so it is the first match. Nothing is found exactly when no keyword matches. |
| EmojiProvider.Capped | src/services/icons/providers/EmojiIconProvider.ts:122 | At most fifty results, a prefix of all of them. |
| EmojiProvider.SearchResults | src/services/icons/providers/EmojiIconProvider.ts:75-123 | At most fifty results. |
| EmojiProvider.CollectKeywordMatches | src/services/icons/providers/EmojiIconProvider.ts:98-119 | The loop collects the keyword results of the library entries, in order. |
| EmojiProvider.Search | src/services/icons/providers/EmojiIconProvider.ts:75-123 | The method computes the search results. |
| EmojiProvider.GetAll | src/services/icons/providers/EmojiIconProvider.ts:130-134 | The provider lists no emojis. |
| EmojiProvider.BlankQuery | src/services/icons/providers/EmojiIconProvider.ts:76-78 | A blank query finds nothing. |
| EmojiProvider.EmojiQuery | src/services/icons/providers/EmojiIconProvider.ts:80-95 | A query from which an emoji can be extracted gives exactly that emoji. A valid-emoji query always extracts, so the raw query is never offered instead. |
| EmojiProvider.KeywordResultsSpec | src/services/icons/providers/EmojiIconProvider.ts:102-119 | Every keyword result is a library entry with a matching keyword, named by its first matching keyword. |
| EmojiProvider.KeywordResultsComplete | src/services/icons/providers/EmojiIconProvider.ts:102-119 | Every entry with a matching keyword gives a result. |
| EmojiProvider.KeywordSearch | src/services/icons/providers/EmojiIconProvider.ts:97-122 | A query that yields no emoji gives the first fifty keyword results in library order. Each comes from an entry with a keyword containing the lower-cased query, and is named by the first such keyword. |
| PhosphorIcons.StripPrefix | src/services/icons/providers/PhosphorIconProvider.ts:63 | One leading `ph-` is removed, and only when present. |
| PhosphorIcons.PhosphorIconProvider.constructor | src/services/icons/providers/PhosphorIconProvider.ts:16-18 | A provider starts without icon data. |
| PhosphorIcons.PhosphorIconProvider.ParseMetadata | src/services/icons/providers/PhosphorIconProvider.ts:24-59 | Metadata that is not an array clears the icon data. Otherwise the definitions and the lookup become those of the usable entries. |
| PhosphorIcons.PhosphorIconProvider.SetIconData | src/services/icons/providers/PhosphorIconProvider.ts:54 | The icon data becomes the given definitions and lookup. |
| PhosphorIcons.PhosphorIconProvider.ClearIconData | src/services/icons/providers/PhosphorIconProvider.ts:57 | The icon data becomes empty. |
| PhosphorIcons.BuildIconData | src/services/icons/providers/PhosphorIconProvider.ts:30-52 | The loop builds the definitions and the lookup of the usable entries. |
| PhosphorIcons.AddLowered | src/services/icons/providers/PhosphorIconProvider.ts:37-38 | Adding lower-cased words to the keyword set keeps first occurrences only. |
| PhosphorIcons.CollectKeywords | src/services/icons/providers/PhosphorIconProvider.ts:35-38 | The keyword set is the id, then the lower-cased keywords, then the lower-cased categories. |
| PhosphorIcons.EntryKeywordsSpec | src/services/icons/providers/PhosphorIconProvider.ts:35-38 | The keywords are distinct and start with the id as written. They are exactly the id plus the lower-cased keywords and categories. |
| PhosphorIcons.DisplayNameSpec | src/services/icons/providers/PhosphorIconProvider.ts:40 | The display name is the metadata's name when it has one. Otherwise it is the id without a leading `ph-`, in Title Case. |
| PhosphorIcons.DefinitionsSpec | src/services/icons/providers/PhosphorIconProvider.ts:30-47 | Each definition comes from a usable entry, each usable entry gives one, and every definition has a non-empty id and no preview. |
| PhosphorIcons.LookupKeys | src/services/icons/providers/PhosphorIconProvider.ts:48-51 | The lookup has exactly the ids of the usable entries. |
| PhosphorIcons.LookupLastWins | src/services/icons/providers/PhosphorIconProvider.ts:48-51 | An id maps to the glyph and keywords of the last usable entry with that id. |
| PhosphorIcons.DefinitionsMatchLookup | src/services/icons/providers/PhosphorIconProvider.ts:30-52 | Every definition's id has a glyph, and every looked-up id has a definition. |
| ReleaseCheck.ReleaseCheckService.constructor | src/services/ReleaseCheckService.ts:48-55 | A new service has no pending notice, no check under way, and the plugin's settings and version. |
| ReleaseCheck.ReleaseCheckService.GetPendingNotice | src/services/ReleaseCheckService.ts:60-62 | Returns the pending notice. |
| ReleaseCheck.ReleaseCheckService.ClearPendingNotice | src/services/ReleaseCheckService.ts:67-69 | Forgets the notice and changes nothing else. |
| ReleaseCheck.ReleaseCheckService.BeginCheck | src/services/ReleaseCheckService.ts:75-88 | A check goes ahead exactly when none is under way and one is due. Otherwise the pending notice is returned and nothing changes. |
| ReleaseCheck.ReleaseCheckService.FinishCheck | src/services/ReleaseCheckService.ts:89-134 | A thrown fetch leaves the notice, the settings and the saves alone. A returned fetch applies the completed check. Either way the check is over. |
| ReleaseCheck.ReleaseCheckService.CheckForUpdates | src/services/ReleaseCheckService.ts:75-135 | The checking flag ends as it began. A check under way or not due changes nothing. A due check whose fetch returns updates the settings, the notice and the saves as the completed check says. A thrown fetch changes nothing. |
| ReleaseCheck.NormalizeVersionTrimmed | src/services/ReleaseCheckService.ts:179-181 | A normalised version has no whitespace at either end. |
| ReleaseCheck.NormalizeVersionStable | src/services/ReleaseCheckService.ts:179-181 | Normalising twice is normalising once, unless the version itself starts with another `v`. |
| ReleaseCheck.NormalizeVersionDropsV | src/services/ReleaseCheckService.ts:180 | Exactly one leading `v` or `V` is dropped before trimming. |
| ReleaseCheck.NormalizeVersionNoV | src/services/ReleaseCheckService.ts:180 | A tag without a leading `v` is only trimmed. |
| ReleaseCheck.FetchLatestReleaseFound | src/services/ReleaseCheckService.ts:141-174 | A release is found exactly when the response is a 200 with a body that is neither a draft nor a prerelease, and its tag normalises to a non-empty version. The notice carries that version, the publication date (empty when missing) and the URL. |
| ReleaseCheck.FetchLatestReleaseThrows | src/services/ReleaseCheckService.ts:141-181 | The fetch throws exactly when the request fails or a publishable body has no tag. |
| ReleaseCheck.RateLimited | src/services/ReleaseCheckService.ts:81-86 | Within six hours of a recorded check an unforced check is not due, and a forced one is. |
| ReleaseCheck.CompleteCheckSpec | src/services/ReleaseCheckService.ts:90-127 | The check time becomes now. The latest known release becomes the fetched version, and the announced release is untouched. A notice is pending exactly when the fetched version is newer than the running one and not yet announced. The settings are saved exactly when the known release or the check time changed. |
| ReleaseCheck.NoRepeatAnnouncement | src/services/ReleaseCheckService.ts:107 | A release already announced is never announced again. |
| ContentRegistry.ContentProviderRegistry.Providers | src/services/content/ContentProviderRegistry.ts:42 | The providers in the map's insertion order, one per registered type. |
| ContentRegistry.ContentProviderRegistry.constructor | src/services/content/ContentProviderRegistry.ts:28 | A new registry has no providers and has made no calls. |
| ContentRegistry.ContentProviderRegistry.RegisterProvider | src/services/content/ContentProviderRegistry.ts:34-36 | The provider replaces any provider of its type. A new type goes to the end of the order, and a replaced one keeps its place. |
| ContentRegistry.RegisterReplaces | src/services/content/ContentProviderRegistry.ts:34-36 | Registering changes the provider of its own type only. |
| ContentRegistry.ContentProviderRegistry.GetAllProviders | src/services/content/ContentProviderRegistry.ts:41-43 | All providers, in registration order. |
| ContentRegistry.ContentProviderRegistry.GetProvider | src/services/content/ContentProviderRegistry.ts:48-50 | A provider is found exactly when one of that type is registered, and it is that one. |
| ContentRegistry.ContentProviderRegistry.GetAllRelevantSettings | src/services/content/ContentProviderRegistry.ts:55-64 | The settings are gathered from the providers in order. |
| ContentRegistry.CollectRelevantSettings | src/services/content/ContentProviderRegistry.ts:58-61 | The loop computes the gathered settings. |
| ContentRegistry.AddEach | src/services/content/ContentProviderRegistry.ts:60 | Adding each setting to the set keeps first occurrences only. |
| ContentRegistry.RelevantSettingsSpec | src/services/content/ContentProviderRegistry.ts:55-64 | The settings are distinct, and they are exactly those some provider declares relevant. |
| ContentRegistry.ContentProviderRegistry.HandleSettingsChange | src/services/content/ContentProviderRegistry.ts:72-95 | The providers are unchanged, and the calls made are the settings-change calls. |
| ContentRegistry.NotifySettingsChange | src/services/content/ContentProviderRegistry.ts:77-86 | The loop makes the settings-change calls. |
| ContentRegistry.SettingsChangeCallsSpec | src/services/content/ContentProviderRegistry.ts:77-86 | A provider is cleared exactly when it says its content must be regenerated. Every provider is told of the new settings. No other call is made. |
| ContentRegistry.ContentProviderRegistry.QueueFilesForAllProviders | src/services/content/ContentProviderRegistry.ts:103-128 | The providers are unchanged, and the calls made are the queueing calls. |
| ContentRegistry.DispatchFiles | src/services/content/ContentProviderRegistry.ts:111-127 | The loop makes the queueing calls. |
| ContentRegistry.QueueCallsSpec | src/services/content/ContentProviderRegistry.ts:103-128 | A provider gets the files and is started exactly when its type passes the include and exclude filters. No other call is made. |
| ContentRegistry.ContentProviderRegistry.StopAllProcessing | src/services/content/ContentProviderRegistry.ts:133-137 | The providers are unchanged, and the calls made are the stop calls. |
| ContentRegistry.StopEach | src/services/content/ContentProviderRegistry.ts:134-136 | The loop makes the stop calls. |
| ContentRegistry.StopCallsSpec | src/services/content/ContentProviderRegistry.ts:133-137 | Each provider is stopped once, in order. |
| ContentRegistry.StopOncePerType | src/services/content/ContentProviderRegistry.ts:133-137 | Each registered type is stopped exactly once. |

## Left out
- `excludeFromTopicTree` in `src/utils/topicGraph.ts` is a stub in the source. It returns its tree unchanged, so there is nothing to model.
- TopicGraph queries: each takes a ghost rank that orders every child below its parents, and it lets the recursive queries terminate. The build itself can produce a cycle: two topics that name each other in `subset` become each other's parent (`TopicBuild.BuildTopicGraph` and `TopicService.TopicService.UpdateTopicGraph` accept and hold such graphs). Only a query that walks from a topic that reaches a cycle recurses forever in the source. The model requires a rank over the whole store instead, so a query on a graph that has a cycle anywhere, even one the query never reaches, is outside the model.
- TopicBuild.TopicStore.CollectParentTopics: the natural-number `fuel` stands for the call stack. Running out of it stands for the `RangeError` that `buildTopicGraph` catches and logs. The actual stack size of the JavaScript engine is not modelled.
- RootTopicOrder.IndexMap: `createIndexMap` is not part of this model. Its last-index-wins behaviour for a repeated name is assumed; the hook only passes it duplicate-free normalised orders, where the choice does not matter (`NormalizedPrefix`, `IndexMapOfNoDup`).
- TopicBuild.BuildTopicGraph: `stackDepth` is the same stand-in for the engine's stack, passed down to the second pass. The console logging of the caught error is not modelled.
- MetadataService.UpdateNestedPaths: requires that neither path lies under the other. The host never renames a folder into itself or onto one of its ancestors, and the model does not describe that case.
- RecentStorage.LoadIcons: a stored array is read as an empty record. The source would read the array's indices as keys, which gives a different result only when the array holds arrays.
- JavaScript `Set` and `Map` iteration order is modelled as insertion-ordered sequences without duplicates.
- `naturalCompare`, `localeCompare` and `compareVersions` are parameters. Properties that need them to be consistent comparators say so in their preconditions.
- `Array.prototype.sort` is modelled as a stable insertion sort. The engine's own algorithm is not modelled; any stable sort gives the same result for a consistent comparator.
- `areStringArraysEqual` is sequence equality.
- The Obsidian vault, the metadata cache, the note database and the settings store are data given to the operations.
- Timers, `runWhenIdle`, promises and `async` ordering are not modelled. The persistence timers are explicit timer-fired methods.
- `saveSettingsAndUpdate` and the save queue are reduced to a save counter or a recorded write. Save failures are not modelled.
- `RECENT_NOTES_DEFAULT_COUNT` is a constructor parameter, because its value lives in the settings defaults, which are not part of this model.
- Case mapping is ASCII only. Strings are sequences of Unicode code points rather than UTF-16 units, so the emoji character classes are ranges of code points.
- JavaScript numbers are modelled as unbounded integers (timestamps, counts, limits).
- Icon rendering (`render`), `isAvailable`, the lazy icon cache and `getCssClass` are not modelled: they only touch the DOM and the font.
- LucideIcons.KeywordsSpec: the synonym table is looked up as a map. In the source, `getKeywords` throws a `TypeError` for an icon name with a segment named like an `Object.prototype` property (`constructor` or `toString`, say). The lookup at src/services/icons/providers/LucideIconProvider.ts:243-245 finds the inherited function, which is truthy, and spreading it into `push` fails. The model gives such a segment no synonyms and does not capture the exception.
- The emoji library and Obsidian's icon list are parameters.
- PhosphorIcons.PhosphorIconProvider.ParseMetadata: JSON parsing is an optional input. `None` stands for text that does not parse as an array, and `logParseError` is not modelled.
- The base font icon provider class, which loads the font and the metadata file, is not part of this model.
- The selection passed to the list-pane appearance hook is three selection kinds with their optional names. The React hook and its memoisation are not modelled.
- ReleaseCheck: `Date.now` and `requestUrl` are parameters, and `isChecking` spans `BeginCheck` and `FinishCheck`. A second check that starts while the first awaits the network is modelled by calling `BeginCheck` in between.
- ContentRegistry: the provider objects are reduced to their content type, their relevant settings and a log of the calls made to them. `shouldRegenerate` is a function of the content type. Waiting on `Promise.all` for the clears is not modelled.

=== FILE: content_registry.dfy ===
/**
 * The content provider registry: one provider per content type, kept in
 * registration order, and the calls the registry makes on the providers
 * when settings change, files are queued or processing stops.
 */
module ContentRegistry {
  import opened Wrappers
  import opened OrderedSets

  /** A content type (`'preview'`, `'featureImage'`, ...). */
  type ContentType = string

  /** The name of a plugin setting. */
  type SettingKey = string

  /** A content provider, as the registry sees it: its type and the settings it depends on. */
  datatype Provider = Provider(contentType: ContentType, relevantSettings: seq<SettingKey>)

  /** A call the registry makes on the provider of a content type. */
  datatype ProviderCall =
    | ClearContent(target: ContentType)
    | OnSettingsChanged(target: ContentType)
    | QueueFiles(target: ContentType, files: seq<string>)
    | StartProcessing(target: ContentType)
    | StopProcessing(target: ContentType)

  /** Whether some provider in `ps` has content type `t`. */
  predicate HasType(ps: seq<Provider>, t: ContentType) {
    exists p :: p in ps && p.contentType == t
  }

  /** The duplicate-free union of the providers' relevant settings, in first-seen order. */
  function RelevantSettings(ps: seq<Provider>): seq<SettingKey>
    decreases |ps|
  {
    if |ps| == 0 then [] else AddAll(RelevantSettings(ps[..|ps| - 1]), ps[|ps| - 1].relevantSettings)
  }

  /** The calls of `handleSettingsChange`, provider by provider: a clear if it must regenerate, then the notification. */
  function SettingsChangeCalls(ps: seq<Provider>, shouldRegenerate: ContentType -> bool): seq<ProviderCall>
    decreases |ps|
  {
    if |ps| == 0 then []
    else
      var t := ps[|ps| - 1].contentType;
      SettingsChangeCalls(ps[..|ps| - 1], shouldRegenerate)
        + (if shouldRegenerate(t) then [ClearContent(t)] else []) + [OnSettingsChanged(t)]
  }

  /** A type passes the filter when it is in `include` (if given) and not in `exclude` (if given). */
  predicate Selected(t: ContentType, includeTypes: Option<seq<ContentType>>, excludeTypes: Option<seq<ContentType>>) {
    (includeTypes.None? || t in includeTypes.value) && (excludeTypes.None? || t !in excludeTypes.value)
  }

  /** The calls of `queueFilesForAllProviders`: queue and start every selected provider. */
  function QueueCalls(ps: seq<Provider>, files: seq<string>, includeTypes: Option<seq<ContentType>>,
                      excludeTypes: Option<seq<ContentType>>): seq<ProviderCall>
    decreases |ps|
  {
    if |ps| == 0 then []
    else
      var t := ps[|ps| - 1].contentType;
      QueueCalls(ps[..|ps| - 1], files, includeTypes, excludeTypes)
        + if Selected(t, includeTypes, excludeTypes) then [QueueFiles(t, files), StartProcessing(t)] else []
  }

  /** The calls of `stopAllProcessing`. */
  function StopCalls(ps: seq<Provider>): seq<ProviderCall>
    decreases |ps|
  {
    if |ps| == 0 then [] else StopCalls(ps[..|ps| - 1]) + [StopProcessing(ps[|ps| - 1].contentType)]
  }

  /** `ContentProviderRegistry` */
  class ContentProviderRegistry {
    /** The content types in the order they were first registered (the `Map`'s key order). */
    var order: seq<ContentType>
    /** The `providers` map. */
    var providers: map<ContentType, Provider>
    /** Every call made on a provider so far, in order. */
    var calls: seq<ProviderCall>

    /** The registry's invariant: the order lists each key of the map once, and each provider sits under its own type. */
    ghost predicate Valid()
      reads this
    {
      && NoDup(order)
      && (forall t :: t in providers <==> t in order)
      && (forall t :: t in providers ==> providers[t].contentType == t)
    }

    /** `providers.values()`, in key order. */
    function Providers(): (ps: seq<Provider>)
      requires Valid()
      reads this
      ensures |ps| == |order| && forall i :: 0 <= i < |order| ==> ps[i] == providers[order[i]]
    {
      seq(|order|, i requires 0 <= i < |order| && Valid() reads this => providers[order[i]])
    }

    constructor ()
      ensures Valid() && order == [] && providers == map[] && calls == []
    {
      order := [];
      providers := map[];
      calls := [];
    }

    /**
     * `registerProvider(provider)`: the provider replaces any earlier one of
     * its type, which keeps its place in the order; a new type goes last.
     */
    method RegisterProvider(provider: Provider)
      requires Valid()
      modifies this
      ensures Valid()
      ensures providers == old(providers)[provider.contentType := provider]
      ensures order == AddUnique(old(order), provider.contentType)
      ensures calls == old(calls)
    {
      order := AddUnique(order, provider.contentType);
      providers := providers[provider.contentType := provider];
    }

    /** `getAllProviders()` */
    method GetAllProviders() returns (all: seq<Provider>)
      requires Valid()
      ensures all == Providers()
    {
      all := Providers();
    }

    /** `getProvider(type)`: the provider last registered for the type, if any. */
    method GetProvider(t: ContentType) returns (found: Option<Provider>)
      requires Valid()
      ensures found.Some? <==> HasType(Providers(), t)
      ensures found.Some? ==> found.value == providers[t] && found.value.contentType == t
    {
      if t in providers {
        found := Some(providers[t]);
        var i :| 0 <= i < |order| && order[i] == t;
        assert Providers()[i] == providers[t];
      } else {
        found := None;
        assert !HasType(Providers(), t);
      }
    }

    /** `getAllRelevantSettings()` */
    method GetAllRelevantSettings() returns (all: seq<SettingKey>)
      requires Valid()
      ensures all == RelevantSettings(Providers())
    {
      all := CollectRelevantSettings(Providers());
    }

    /**
     * `handleSettingsChange(old, new)`, with the providers' `shouldRegenerate`
     * answers for the two settings given as a function of the content type.
     */
    method HandleSettingsChange(shouldRegenerate: ContentType -> bool)
      requires Valid()
      modifies this
      ensures Valid() && order == old(order) && providers == old(providers)
      ensures calls == old(calls) + SettingsChangeCalls(Providers(), shouldRegenerate)
    {
      var ps := Providers();
      var made := NotifySettingsChange(ps, shouldRegenerate);
      calls := calls + made;
      assert Providers() == ps;
    }

    /** `queueFilesForAllProviders(files, settings, { include, exclude })` */
    method QueueFilesForAllProviders(files: seq<string>, includeTypes: Option<seq<ContentType>>,
                                     excludeTypes: Option<seq<ContentType>>)
      requires Valid()
      modifies this
      ensures Valid() && order == old(order) && providers == old(providers)
      ensures calls == old(calls) + QueueCalls(Providers(), files, includeTypes, excludeTypes)
    {
      var ps := Providers();
      var made := DispatchFiles(ps, files, includeTypes, excludeTypes);
      calls := calls + made;
      assert Providers() == ps;
    }

    /** `stopAllProcessing()` */
    method StopAllProcessing()
      requires Valid()
      modifies this
      ensures Valid() && order == old(order) && providers == old(providers)
      ensures calls == old(calls) + StopCalls(Providers())
    {
      var ps := Providers();
      var made := StopEach(ps);
      calls := calls + made;
      assert Providers() == ps;
    }
  }

  /** The loop of `getAllRelevantSettings`: each provider's settings added to one `Set`. */
  method CollectRelevantSettings(ps: seq<Provider>) returns (all: seq<SettingKey>)
    ensures all == RelevantSettings(ps)
  {
    all := [];
    var i := 0;
    while i < |ps|
      invariant i <= |ps|
      invariant all == RelevantSettings(ps[..i])
    {
      assert ps[..i + 1][..i] == ps[..i];
      all := AddEach(all, ps[i].relevantSettings);
      i := i + 1;
    }
    assert ps[..i] == ps;
  }

  /** `settings.forEach(setting => allSettings.add(setting))` */
  method AddEach(acc: seq<SettingKey>, settings: seq<SettingKey>) returns (r: seq<SettingKey>)
    ensures r == AddAll(acc, settings)
  {
    r := acc;
    var i := 0;
    while i < |settings|
      invariant i <= |settings|
      invariant AddAll(r, settings[i..]) == AddAll(acc, settings)
    {
      AddAllStep(r, settings, i);
      r := AddUnique(r, settings[i]);
      i := i + 1;
    }
    AddAllDone(r, settings);
  }

  /** The loop of `handleSettingsChange`. */
  method NotifySettingsChange(ps: seq<Provider>, shouldRegenerate: ContentType -> bool) returns (made: seq<ProviderCall>)
    ensures made == SettingsChangeCalls(ps, shouldRegenerate)
  {
    made := [];
    var i := 0;
    while i < |ps|
      invariant i <= |ps|
      invariant made == SettingsChangeCalls(ps[..i], shouldRegenerate)
    {
      assert ps[..i + 1][..i] == ps[..i];
      var t := ps[i].contentType;
      if shouldRegenerate(t) {
        made := made + [ClearContent(t)];
      }
      made := made + [OnSettingsChanged(t)];
      i := i + 1;
    }
    assert ps[..i] == ps;
  }

  /** The loop of `queueFilesForAllProviders`. */
  method DispatchFiles(ps: seq<Provider>, files: seq<string>, includeTypes: Option<seq<ContentType>>,
                       excludeTypes: Option<seq<ContentType>>) returns (made: seq<ProviderCall>)
    ensures made == QueueCalls(ps, files, includeTypes, excludeTypes)
  {
    made := [];
    var i := 0;
    while i < |ps|
      invariant i <= |ps|
      invariant made == QueueCalls(ps[..i], files, includeTypes, excludeTypes)
    {
      assert ps[..i + 1][..i] == ps[..i];
      var t := ps[i].contentType;
      i := i + 1;
      if includeTypes.Some? && t !in includeTypes.value {
        continue;
      }
      if excludeTypes.Some? && t in excludeTypes.value {
        continue;
      }
      made := made + [QueueFiles(t, files), StartProcessing(t)];
    }
    assert ps[..i] == ps;
  }

  /** The loop of `stopAllProcessing`. */
  method StopEach(ps: seq<Provider>) returns (made: seq<ProviderCall>)
    ensures made == StopCalls(ps)
  {
    made := [];
    var i := 0;
    while i < |ps|
      invariant i <= |ps|
      invariant made == StopCalls(ps[..i])
    {
      assert ps[..i + 1][..i] == ps[..i];
      made := made + [StopProcessing(ps[i].contentType)];
      i := i + 1;
    }
    assert ps[..i] == ps;
  }

  /** The relevant settings are duplicate-free and are exactly the settings some provider depends on. */
  lemma {:induction false} RelevantSettingsSpec(ps: seq<Provider>)
    ensures NoDup(RelevantSettings(ps))
    ensures forall k :: k in RelevantSettings(ps) <==> exists p :: p in ps && k in p.relevantSettings
    decreases |ps|
  {
    if |ps| > 0 {
      var init := ps[..|ps| - 1];
      RelevantSettingsSpec(init);
      assert ps == init + [ps[|ps| - 1]];
    }
  }

  /**
   * `handleSettingsChange` clears exactly the providers that must regenerate,
   * notifies every provider, and makes no other call.
   */
  lemma {:induction false} SettingsChangeCallsSpec(ps: seq<Provider>, shouldRegenerate: ContentType -> bool)
    ensures forall t :: ClearContent(t) in SettingsChangeCalls(ps, shouldRegenerate) <==> HasType(ps, t) && shouldRegenerate(t)
    ensures forall t :: OnSettingsChanged(t) in SettingsChangeCalls(ps, shouldRegenerate) <==> HasType(ps, t)
    ensures forall c :: c in SettingsChangeCalls(ps, shouldRegenerate) ==> c.ClearContent? || c.OnSettingsChanged?
    decreases |ps|
  {
    if |ps| > 0 {
      var init := ps[..|ps| - 1];
      SettingsChangeCallsSpec(init, shouldRegenerate);
      assert ps == init + [ps[|ps| - 1]];
      assert forall t :: HasType(ps, t) <==> HasType(init, t) || ps[|ps| - 1].contentType == t;
    }
  }

  /**
   * A provider is given the files and started exactly when its type passes
   * the include and exclude filters; nothing else is called.
   */
  lemma {:induction false} QueueCallsSpec(ps: seq<Provider>, files: seq<string>, includeTypes: Option<seq<ContentType>>,
                                          excludeTypes: Option<seq<ContentType>>)
    ensures forall t, f :: QueueFiles(t, f) in QueueCalls(ps, files, includeTypes, excludeTypes) <==>
      f == files && HasType(ps, t) && Selected(t, includeTypes, excludeTypes)
    ensures forall t :: StartProcessing(t) in QueueCalls(ps, files, includeTypes, excludeTypes) <==>
      HasType(ps, t) && Selected(t, includeTypes, excludeTypes)
    ensures forall c :: c in QueueCalls(ps, files, includeTypes, excludeTypes) ==> c.QueueFiles? || c.StartProcessing?
    decreases |ps|
  {
    if |ps| > 0 {
      var init := ps[..|ps| - 1];
      QueueCallsSpec(init, files, includeTypes, excludeTypes);
      assert ps == init + [ps[|ps| - 1]];
      assert forall t :: HasType(ps, t) <==> HasType(init, t) || ps[|ps| - 1].contentType == t;
    }
  }

  /** `stopAllProcessing` stops each provider once, in order. */
  lemma {:induction false} StopCallsSpec(ps: seq<Provider>)
    ensures |StopCalls(ps)| == |ps|
    ensures forall i :: 0 <= i < |ps| ==> StopCalls(ps)[i] == StopProcessing(ps[i].contentType)
    decreases |ps|
  {
    if |ps| > 0 {
      StopCallsSpec(ps[..|ps| - 1]);
    }
  }

  /** In a valid registry each registered type is stopped exactly once. */
  lemma StopOncePerType(r: ContentProviderRegistry)
    requires r.Valid()
    ensures forall t :: StopProcessing(t) in StopCalls(r.Providers()) <==> t in r.providers
    ensures NoDup(StopCalls(r.Providers()))
  {
    var ps := r.Providers();
    StopCallsSpec(ps);
    forall t | StopProcessing(t) in StopCalls(ps)
      ensures t in r.providers
    {
      var i :| 0 <= i < |ps| && StopCalls(ps)[i] == StopProcessing(t);
      assert ps[i] == r.providers[r.order[i]];
    }
    forall t | t in r.providers
      ensures StopProcessing(t) in StopCalls(ps)
    {
      var i :| 0 <= i < |r.order| && r.order[i] == t;
      assert StopCalls(ps)[i] == StopProcessing(t);
    }
  }

  /** Registering replaces the provider of its type and leaves every other type's provider as it was. */
  lemma RegisterReplaces(providers: map<ContentType, Provider>, p: Provider, t: ContentType)
    ensures var updated := providers[p.contentType := p];
      && updated[p.contentType] == p
      && (t != p.contentType ==> (t in updated <==> t in providers) && (t in providers ==> updated[t] == providers[t]))
  {
  }
}

=== FILE: emoji_provider.dfy ===
/**
 * The emoji icon provider: a query that is (or starts with) an emoji gives
 * that emoji; any other query searches the emoji library's keywords.
 */
module EmojiProvider {
  import opened Wrappers
  import opened Text
  import opened IconTypes
  import opened EmojiUtils

  /** The number of results `search` returns at most. */
  const MAX_RESULTS: nat := 50

  /**
   * One entry of the emoji library, in its iteration order: the emoji and
   * its keywords, `None` when the entry's value is not an array.
   */
  datatype LibraryEntry = LibraryEntry(emoji: string, keywords: Option<seq<string>>)

  /** The definition an emoji is offered as: the emoji is its id, name and preview. */
  function EmojiDefinition(emoji: string): IconDefinition {
    IconDefinition(emoji, emoji, Some(emoji), None)
  }

  /** `keyword.toLowerCase().includes(searchLower)` */
  predicate KeywordMatches(keyword: string, searchLower: string) {
    Contains(ToLower(keyword), searchLower)
  }

  /**
   * `keywords.find(k => k.toLowerCase().includes(searchLower))`: the keyword
   * at the first position that matches.
   */
  function FirstMatch(keywords: seq<string>, searchLower: string): (found: Option<string>)
    ensures found.Some? ==> found.value in keywords && KeywordMatches(found.value, searchLower)
    ensures found.Some? ==>
      exists i :: (0 <= i < |keywords| && keywords[i] == found.value
        && forall j :: 0 <= j < i ==> !KeywordMatches(keywords[j], searchLower))
    ensures found.None? <==> forall k :: k in keywords ==> !KeywordMatches(k, searchLower)
    decreases |keywords|
  {
    if |keywords| == 0 then None
    else if KeywordMatches(keywords[0], searchLower) then Some(keywords[0])
    else
      assert forall k :: k in keywords ==> k == keywords[0] || k in keywords[1..];
      FirstMatch(keywords[1..], searchLower)
  }

  /** The result for one library entry, if its keywords match. */
  function EntryResult(entry: LibraryEntry, searchLower: string): Option<IconDefinition> {
    if entry.keywords.None? then None
    else
      var found := FirstMatch(entry.keywords.value, searchLower);
      if found.None? then None
      else
        var bestKeyword := if found.value != "" then found.value else entry.keywords.value[0];
        Some(IconDefinition(entry.emoji, bestKeyword, Some(entry.emoji), None))
  }

  /**
   * `r` is the result for entry `e`: the entry has keywords, one of them
   * matches, and `r` is the entry's emoji named by its first matching keyword.
   */
  predicate FromEntry(r: IconDefinition, e: LibraryEntry, searchLower: string) {
    && e.keywords.Some?
    && FirstMatch(e.keywords.value, searchLower).Some?
    && r == IconDefinition(e.emoji, FirstMatch(e.keywords.value, searchLower).value, Some(e.emoji), None)
  }

  /** The keyword results of the library entries, in order. */
  function KeywordResults(library: seq<LibraryEntry>, searchLower: string): seq<IconDefinition>
    decreases |library|
  {
    if |library| == 0 then []
    else
      var r := EntryResult(library[|library| - 1], searchLower);
      KeywordResults(library[..|library| - 1], searchLower) + if r.Some? then [r.value] else []
  }

  /** The emoji the query stands for, `""` for none (`extractedEmoji || (isValid ? query : null)`). */
  function QueryEmoji(query: string): string {
    var extracted := ExtractFirstEmoji(query);
    if extracted.Some? && extracted.value != "" then extracted.value
    else if IsValidEmoji(query) then query
    else ""
  }

  /** `results.slice(0, 50)`: the first fifty results, in order. */
  function Capped(all: seq<IconDefinition>): (r: seq<IconDefinition>)
    ensures |r| <= MAX_RESULTS && |r| <= |all| && r == all[..|r|]
    ensures |all| <= MAX_RESULTS ==> r == all
  {
    if |all| <= MAX_RESULTS then all else all[..MAX_RESULTS]
  }

  /** `search(query)` over the library. */
  function SearchResults(query: string, library: seq<LibraryEntry>): (results: seq<IconDefinition>)
    ensures |results| <= MAX_RESULTS
  {
    if |query| == 0 || |Trim(query)| == 0 then []
    else
      var emoji := QueryEmoji(query);
      if emoji != "" then [EmojiDefinition(emoji)]
      else
        Capped(KeywordResults(library, ToLower(query)))
  }

  /** The loop of `search`: every library entry whose keywords match, in library order. */
  method CollectKeywordMatches(library: seq<LibraryEntry>, searchLower: string) returns (found: seq<IconDefinition>)
    ensures found == KeywordResults(library, searchLower)
  {
    found := [];
    var i := 0;
    while i < |library|
      invariant i <= |library|
      invariant found == KeywordResults(library[..i], searchLower)
    {
      assert library[..i + 1][..i] == library[..i];
      var entry := library[i];
      i := i + 1;
      if entry.keywords.None? {
        continue;
      }
      var bestKeyword := FirstMatch(entry.keywords.value, searchLower);
      if bestKeyword.Some? {
        var name := if bestKeyword.value != "" then bestKeyword.value else entry.keywords.value[0];
        found := found + [IconDefinition(entry.emoji, name, Some(entry.emoji), None)];
      }
    }
    assert library[..i] == library;
  }

  /** `search(query)`: the emoji itself, or the first fifty keyword matches. */
  method Search(query: string, library: seq<LibraryEntry>) returns (results: seq<IconDefinition>)
    ensures results == SearchResults(query, library)
  {
    if |query| == 0 || |Trim(query)| == 0 {
      return [];
    }
    var emoji := QueryEmoji(query);
    if emoji != "" {
      return [EmojiDefinition(emoji)];
    }
    var found := CollectKeywordMatches(library, ToLower(query));
    results := Capped(found);
  }

  /** `getAll()`: the provider lists no emojis; they must be searched or typed. */
  function GetAll(): (all: seq<IconDefinition>)
    ensures |all| == 0
  {
    []
  }

  /** A blank query finds nothing. */
  lemma BlankQuery(query: string, library: seq<LibraryEntry>)
    requires forall i :: 0 <= i < |query| ==> IsWhitespace(query[i])
    ensures SearchResults(query, library) == []
  {
  }

  /**
   * A query from which an emoji can be extracted gives exactly that emoji;
   * and a query that is a valid emoji always lets one be extracted, so the
   * query itself is never offered in place of the extracted emoji.
   */
  lemma EmojiQuery(query: string, library: seq<LibraryEntry>)
    requires |Trim(query)| > 0 && ExtractFirstEmoji(query).Some?
    ensures SearchResults(query, library) == [EmojiDefinition(ExtractFirstEmoji(query).value)]
    ensures IsValidEmoji(query) ==> ExtractFirstEmoji(query) == Some(Trim(query))
  {
    ExtractFirstEmojiSpec(query);
    if IsValidEmoji(query) {
      ValidEmojiExtracts(query);
    }
  }

  /** Every keyword result is a library entry with a matching keyword, named by its first matching keyword. */
  lemma {:induction false} KeywordResultsSpec(library: seq<LibraryEntry>, searchLower: string)
    requires searchLower != ""
    ensures forall r :: r in KeywordResults(library, searchLower) ==> exists e :: e in library && FromEntry(r, e, searchLower)
    decreases |library|
  {
    if |library| > 0 {
      var init := library[..|library| - 1];
      var last := library[|library| - 1];
      KeywordResultsSpec(init, searchLower);
      forall r | r in KeywordResults(library, searchLower)
        ensures exists e :: e in library && FromEntry(r, e, searchLower)
      {
        if r in KeywordResults(init, searchLower) {
          var e :| e in init && FromEntry(r, e, searchLower);
          assert e in library;
        } else {
          var found := FirstMatch(last.keywords.value, searchLower);
          assert found.value != "" by {
            if found.value == "" {
              EmptyContainsOnlyEmpty(searchLower);
            }
          }
          assert last in library && FromEntry(r, last, searchLower);
        }
      }
    }
  }

  /** Only the empty string occurs in the empty string. */
  lemma EmptyContainsOnlyEmpty(p: string)
    ensures Contains("", p) <==> p == ""
  {
  }

  /** Every entry with a matching keyword gives a result. */
  lemma {:induction false} KeywordResultsComplete(library: seq<LibraryEntry>, searchLower: string, e: LibraryEntry)
    requires e in library && e.keywords.Some? && exists k :: k in e.keywords.value && KeywordMatches(k, searchLower)
    ensures exists r :: r in KeywordResults(library, searchLower) && r.id == e.emoji
    decreases |library|
  {
    var init := library[..|library| - 1];
    if e == library[|library| - 1] {
      assert EntryResult(e, searchLower).value in KeywordResults(library, searchLower);
    } else {
      assert e in init;
      KeywordResultsComplete(init, searchLower, e);
      var r :| r in KeywordResults(init, searchLower) && r.id == e.emoji;
      assert r in KeywordResults(library, searchLower);
    }
  }

  /**
   * A query that yields no emoji gives the first fifty keyword results in
   * library order; every one comes from an entry with a keyword containing
   * the lower-cased query and is named by the first such keyword.
   */
  lemma KeywordSearch(query: string, library: seq<LibraryEntry>)
    requires |Trim(query)| > 0 && QueryEmoji(query) == ""
    ensures SearchResults(query, library) == Capped(KeywordResults(library, ToLower(query)))
    ensures forall r :: r in SearchResults(query, library) ==> exists e :: e in library && FromEntry(r, e, ToLower(query))
  {
    var all := KeywordResults(library, ToLower(query));
    assert SearchResults(query, library) == Capped(all);
    assert ToLower(query) != "";
    KeywordResultsSpec(library, ToLower(query));
    forall r | r in Capped(all)
      ensures r in all
    {
    }
  }
}

=== FILE: emoji_utils.dfy ===
/**
 * Emoji recognition on strings of Unicode code points: a permissive test
 * for "this is an emoji" and the extraction of a leading emoji from pasted
 * text.
 */
module EmojiUtils {
  import opened Wrappers
  import opened Text

  /** The code points the emoji character class accepts: U+1F000–1FAFF, U+2000–3300, U+FE00–FE0F. */
  predicate IsEmojiCodePoint(c: char) {
    ('\U{1F000}' <= c <= '\U{1FAFF}') || ('\U{2000}' <= c <= '\U{3300}') || ('\U{FE00}' <= c <= '\U{FE0F}')
  }

  /** The class the extraction accepts: the emoji code points and the zero-width joiner U+200D. */
  predicate IsEmojiSequenceCodePoint(c: char) {
    IsEmojiCodePoint(c) || c == '\U{200D}'
  }

  /** `[a-zA-Z0-9]` */
  predicate IsAsciiAlphanumeric(c: char) {
    ('a' <= c <= 'z') || ('A' <= c <= 'Z') || ('0' <= c <= '9')
  }

  /** `isValidEmoji(str)` */
  predicate IsValidEmoji(str: string) {
    if |str| == 0 then false
    else
      var trimmed := Trim(str);
      if |trimmed| == 0 then false
      else if exists i | 0 <= i < |trimmed| :: IsAsciiAlphanumeric(trimmed[i]) then false
      else exists i | 0 <= i < |trimmed| :: IsEmojiCodePoint(trimmed[i])
  }

  /**
   * A string is a valid emoji exactly when its trimmed form is non-empty,
   * has no ASCII letter or digit, and has a code point in the emoji ranges.
   */
  lemma IsValidEmojiSpec(str: string)
    ensures (forall i :: 0 <= i < |str| ==> IsWhitespace(str[i])) ==> !IsValidEmoji(str)
    ensures (exists i :: 0 <= i < |Trim(str)| && IsAsciiAlphanumeric(Trim(str)[i])) ==> !IsValidEmoji(str)
    ensures (forall i :: 0 <= i < |Trim(str)| ==> !IsAsciiAlphanumeric(Trim(str)[i])) ==>
      (IsValidEmoji(str) <==> exists i :: 0 <= i < |Trim(str)| && IsEmojiCodePoint(Trim(str)[i]))
  {
  }

  /** The longest prefix of `s` made of emoji-sequence code points. */
  function EmojiPrefix(s: string): (p: string)
    ensures |p| <= |s| && p == s[..|p|]
    ensures forall i :: 0 <= i < |p| ==> IsEmojiSequenceCodePoint(p[i])
    ensures |p| == |s| || !IsEmojiSequenceCodePoint(s[|p|])
    decreases |s|
  {
    if |s| == 0 || !IsEmojiSequenceCodePoint(s[0]) then ""
    else [s[0]] + EmojiPrefix(s[1..])
  }

  /** `extractFirstEmoji(str)` */
  function ExtractFirstEmoji(str: string): Option<string> {
    if |str| == 0 then None
    else
      var trimmed := Trim(str);
      if IsValidEmoji(trimmed) then Some(trimmed)
      else
        var prefix := EmojiPrefix(trimmed);
        if |prefix| > 0 then Some(prefix) else None
  }

  /** No code point of the emoji classes is an ASCII letter or digit. */
  lemma EmojiNotAlphanumeric(c: char)
    requires IsEmojiSequenceCodePoint(c)
    ensures !IsAsciiAlphanumeric(c) && IsEmojiCodePoint(c)
  {
  }

  /** A string starting with an emoji code point and made of emoji-sequence code points is a valid emoji. */
  lemma EmojiRunIsValid(p: string)
    requires |p| > 0 && IsEmojiCodePoint(p[0]) && !IsWhitespace(p[0])
    requires forall i :: 0 <= i < |p| ==> IsEmojiSequenceCodePoint(p[i])
    ensures IsValidEmoji(p)
  {
    assert TrimStart(p) == p;
    var trimmed := Trim(p);
    assert trimmed == TrimEnd(p);
    assert trimmed != "";
    assert trimmed == p[..|trimmed|];
    assert trimmed[0] == p[0];
    forall i | 0 <= i < |trimmed|
      ensures !IsAsciiAlphanumeric(trimmed[i])
    {
      assert trimmed[i] == p[i];
      EmojiNotAlphanumeric(p[i]);
    }
  }

  /**
   * `extractFirstEmoji`: nothing for empty input; the trimmed input when that
   * is a valid emoji; otherwise the leading run of emoji code points, if any.
   * Whatever it returns is non-empty and itself a valid emoji.
   */
  lemma ExtractFirstEmojiSpec(str: string)
    ensures |str| == 0 ==> ExtractFirstEmoji(str).None?
    ensures |str| > 0 && IsValidEmoji(Trim(str)) ==> ExtractFirstEmoji(str) == Some(Trim(str))
    ensures |str| > 0 && !IsValidEmoji(Trim(str)) ==>
      ExtractFirstEmoji(str) == if EmojiPrefix(Trim(str)) == "" then None else Some(EmojiPrefix(Trim(str)))
    ensures ExtractFirstEmoji(str).Some? ==>
      ExtractFirstEmoji(str).value != "" && IsValidEmoji(ExtractFirstEmoji(str).value)
  {
    if |str| > 0 {
      var trimmed := Trim(str);
      var prefix := EmojiPrefix(trimmed);
      if !IsValidEmoji(trimmed) && |prefix| > 0 {
        assert prefix[0] == trimmed[0];
        EmojiNotAlphanumeric(prefix[0]);
        EmojiRunIsValid(prefix);
      }
    }
  }

  /** A string that is a valid emoji always yields an emoji to extract. */
  lemma ValidEmojiExtracts(str: string)
    requires IsValidEmoji(str)
    ensures ExtractFirstEmoji(str) == Some(Trim(str))
  {
    TrimIdempotent(str);
  }
}

=== FILE: icon_types.dfy ===
/**
 * What the icon providers share: the icon definition record, and the
 * kebab-case to Title Case display names both font providers derive from
 * icon ids.
 */
module IconTypes {
  import opened Wrappers
  import opened Text

  /** `IconDefinition`: `preview` and `keywords` are optional. */
  datatype IconDefinition = IconDefinition(
    id: string,
    displayName: string,
    preview: Option<string>,
    keywords: Option<seq<string>>)

  /** `words.map(word => word.charAt(0).toUpperCase() + word.slice(1))` */
  function CapitalizeAll(words: seq<string>): (r: seq<string>)
    ensures |r| == |words| && forall i :: 0 <= i < |words| ==> r[i] == Capitalize(words[i])
  {
    seq(|words|, i requires 0 <= i < |words| => Capitalize(words[i]))
  }

  /** `words.map(word => word.toLowerCase())` */
  function LowerAll(words: seq<string>): (r: seq<string>)
    ensures |r| == |words| && forall i :: 0 <= i < |words| ==> r[i] == ToLower(words[i])
  {
    seq(|words|, i requires 0 <= i < |words| => ToLower(words[i]))
  }

  /** `s.split('-').map(capitalise).join(' ')` */
  function TitleCase(s: string): string {
    Join(CapitalizeAll(Split(s, '-')), " ")
  }

  /**
   * The Title Case of `s`, character by character: a dash becomes a space,
   * the first character and every character after a dash is upper-cased,
   * every other character is kept.
   */
  function TitleCaseChars(s: string): (r: string)
    ensures |r| == |s|
  {
    seq(|s|, i requires 0 <= i < |s| =>
      if s[i] == '-' then ' ' else if i == 0 || s[i - 1] == '-' then UpperChar(s[i]) else s[i])
  }

  /** The same, read left to right; `atStart` says whether the previous character ended a word. */
  function Spell(s: string, atStart: bool): string
    decreases |s|
  {
    if |s| == 0 then ""
    else if s[0] == '-' then " " + Spell(s[1..], true)
    else [if atStart then UpperChar(s[0]) else s[0]] + Spell(s[1..], false)
  }

  /** The pieces joined, the first piece left as it is and the others capitalised. */
  function TitleCaseTail(s: string): string {
    var parts := Split(s, '-');
    Join([parts[0]] + CapitalizeAll(parts[1..]), " ")
  }

  /** Split, capitalise and join computes the left-to-right spelling. */
  lemma {:induction false} TitleCaseSpells(s: string)
    ensures TitleCase(s) == Spell(s, true)
    ensures TitleCaseTail(s) == Spell(s, false)
    decreases |s|
  {
    if |s| > 0 {
      var t := s[1..];
      var rest := Split(t, '-');
      TitleCaseSpells(t);
      if s[0] == '-' {
        assert Split(s, '-') == [""] + rest;
        assert CapitalizeAll([""] + rest) == [""] + CapitalizeAll(rest);
        JoinAfterEmpty(CapitalizeAll(rest), " ");
        assert ([""] + rest)[1..] == rest;
      } else {
        var parts := Split(s, '-');
        assert parts == [[s[0]] + rest[0]] + rest[1..];
        var tail := [rest[0]] + CapitalizeAll(rest[1..]);
        assert CapitalizeAll(parts) == [[UpperChar(s[0])] + rest[0]] + tail[1..];
        JoinOntoFirst(UpperChar(s[0]), tail, " ");
        assert parts[1..] == rest[1..];
        assert [parts[0]] + CapitalizeAll(parts[1..]) == [[s[0]] + rest[0]] + tail[1..];
        JoinOntoFirst(s[0], tail, " ");
      }
    }
  }

  /** The character the spelling puts at position `i`. */
  function SpelledAt(s: string, atStart: bool, i: nat): char
    requires i < |s|
  {
    if s[i] == '-' then ' '
    else if (if i == 0 then atStart else s[i - 1] == '-') then UpperChar(s[i])
    else s[i]
  }

  /** The left-to-right spelling agrees with the character-by-character description. */
  lemma {:induction false} SpellChars(s: string, atStart: bool)
    ensures |Spell(s, atStart)| == |s|
    ensures forall i :: 0 <= i < |s| ==> Spell(s, atStart)[i] == SpelledAt(s, atStart, i)
    decreases |s|
  {
    if |s| > 0 {
      var t := s[1..];
      SpellChars(t, s[0] == '-');
      var r := Spell(s, atStart);
      assert r == (if s[0] == '-' then " " else [if atStart then UpperChar(s[0]) else s[0]]) + Spell(t, s[0] == '-');
      forall i | 0 <= i < |s|
        ensures r[i] == SpelledAt(s, atStart, i)
      {
        if i > 0 {
          assert r[i] == Spell(t, s[0] == '-')[i - 1];
          assert SpelledAt(t, s[0] == '-', i - 1) == SpelledAt(s, atStart, i);
        }
      }
    }
  }

  /**
   * `formatDisplayName`'s split, capitalise and join is the character-wise
   * Title Case: as long as the id, a space for each dash, and upper case
   * exactly at the start of each word.
   */
  lemma TitleCaseIsChars(s: string)
    ensures TitleCase(s) == TitleCaseChars(s)
  {
    TitleCaseSpells(s);
    SpellChars(s, true);
    assert forall i :: 0 <= i < |s| ==> SpelledAt(s, true, i) == TitleCaseChars(s)[i];
  }
}

=== FILE: list_pane_appearance.dfy ===
/**
 * The appearance of the file list for the current selection: per-folder and
 * per-tag overrides merged field by field over the global settings. Topics
 * read the tag overrides under the topic's name.
 */
module ListPaneAppearance {
  import opened Wrappers

  /** `FolderAppearance` (also `TagAppearance`, `TopicAppearance`): every field optional. */
  datatype Appearance = Appearance(
    titleRows: Option<int>,
    previewRows: Option<int>,
    showDate: Option<bool>,
    showPreview: Option<bool>,
    showImage: Option<bool>)

  /** The override with no field set (`|| {}`). */
  const NoOverride := Appearance(None, None, None, None, None)

  /** The settings the appearance is drawn from. */
  datatype AppearanceSettings = AppearanceSettings(
    folderAppearances: map<string, Appearance>,
    tagAppearances: map<string, Appearance>,
    fileNameRows: int,
    previewRows: int,
    showFileDate: bool,
    showFilePreview: bool,
    showFeatureImage: bool)

  /** The effective appearance: every field set. */
  datatype EffectiveAppearance = EffectiveAppearance(
    titleRows: int,
    previewRows: int,
    showDate: bool,
    showPreview: bool,
    showImage: bool)

  /** The kind of item selected in the navigation pane. */
  datatype SelectionType = FolderSelection | TagSelection | TopicSelection

  /** The global settings alone. */
  function Defaults(settings: AppearanceSettings): EffectiveAppearance {
    EffectiveAppearance(settings.fileNameRows, settings.previewRows, settings.showFileDate,
                        settings.showFilePreview, settings.showFeatureImage)
  }

  /** `m?.[key] || {}`: the entry under `key`, or the empty override. */
  function OverrideAt(m: map<string, Appearance>, key: string): Appearance {
    if key in m then m[key] else NoOverride
  }

  /** Each field: the override's value when set (`??`), else the global setting. */
  function Merge(o: Appearance, settings: AppearanceSettings): EffectiveAppearance {
    EffectiveAppearance(
      o.titleRows.GetOr(settings.fileNameRows),
      o.previewRows.GetOr(settings.previewRows),
      o.showDate.GetOr(settings.showFileDate),
      o.showPreview.GetOr(settings.showFilePreview),
      o.showImage.GetOr(settings.showFeatureImage))
  }

  /** The override a selection reads: the folder's by path, the tag's or the topic's from the tag overrides. */
  function SelectedOverride(settings: AppearanceSettings, selectionType: SelectionType,
                            selectedFolder: Option<string>, selectedTag: Option<string>,
                            selectedTopic: Option<string>): Option<Appearance>
  {
    if selectionType == FolderSelection && selectedFolder.Some? then
      Some(OverrideAt(settings.folderAppearances, selectedFolder.value))
    else if selectionType == TagSelection && selectedTag.Some? && selectedTag.value != "" then
      Some(OverrideAt(settings.tagAppearances, selectedTag.value))
    else if selectionType == TopicSelection && selectedTopic.Some? && selectedTopic.value != "" then
      Some(OverrideAt(settings.tagAppearances, selectedTopic.value))
    else None
  }

  /** `useListPaneAppearance()` for the given settings and selection. */
  function ListPaneAppearance(settings: AppearanceSettings, selectionType: SelectionType,
                              selectedFolder: Option<string>, selectedTag: Option<string>,
                              selectedTopic: Option<string>): EffectiveAppearance
  {
    var o := SelectedOverride(settings, selectionType, selectedFolder, selectedTag, selectedTopic);
    if o.Some? then Merge(o.value, settings) else Defaults(settings)
  }

  /** Merging the empty override gives the global settings. */
  lemma MergeNothing(settings: AppearanceSettings)
    ensures Merge(NoOverride, settings) == Defaults(settings)
  {
  }

  /** A fully set override is taken as it is. */
  lemma MergeFull(o: Appearance, settings: AppearanceSettings)
    requires o.titleRows.Some? && o.previewRows.Some? && o.showDate.Some? && o.showPreview.Some? && o.showImage.Some?
    ensures Merge(o, settings) ==
      EffectiveAppearance(o.titleRows.value, o.previewRows.value, o.showDate.value, o.showPreview.value, o.showImage.value)
  {
  }

  /**
   * With a folder selected, a field set in the folder's override wins and an
   * unset field (or a missing override) falls back to the global setting.
   */
  lemma FolderAppearance(settings: AppearanceSettings, folder: string, tag: Option<string>, topic: Option<string>)
    ensures var r := ListPaneAppearance(settings, FolderSelection, Some(folder), tag, topic);
      && (folder in settings.folderAppearances ==> r == Merge(settings.folderAppearances[folder], settings))
      && (folder !in settings.folderAppearances ==> r == Defaults(settings))
  {
  }

  /** With a non-empty tag selected, the tag's override is merged; a missing one gives the globals. */
  lemma TagAppearance(settings: AppearanceSettings, folder: Option<string>, tag: string, topic: Option<string>)
    requires tag != ""
    ensures var r := ListPaneAppearance(settings, TagSelection, folder, Some(tag), topic);
      && (tag in settings.tagAppearances ==> r == Merge(settings.tagAppearances[tag], settings))
      && (tag !in settings.tagAppearances ==> r == Defaults(settings))
  {
  }

  /** A topic looks exactly like the tag of the same name. */
  lemma TopicLikeTag(settings: AppearanceSettings, folder: Option<string>, tag: Option<string>, topic: string)
    ensures ListPaneAppearance(settings, TopicSelection, folder, tag, Some(topic))
         == ListPaneAppearance(settings, TagSelection, None, Some(topic), None)
  {
  }

  /**
   * Without a usable selection (no folder, an empty or missing tag or topic
   * name) the result is exactly the five global settings.
   */
  lemma NoSelectionDefaults(settings: AppearanceSettings, selectionType: SelectionType,
                            folder: Option<string>, tag: Option<string>, topic: Option<string>)
    requires selectionType == FolderSelection ==> folder.None?
    requires selectionType == TagSelection ==> tag.None? || tag.value == ""
    requires selectionType == TopicSelection ==> topic.None? || topic.value == ""
    ensures ListPaneAppearance(settings, selectionType, folder, tag, topic) == Defaults(settings)
  {
  }

  /** Every field of the result is the selected override's field when set, else the global one. */
  lemma AppearanceFields(settings: AppearanceSettings, selectionType: SelectionType,
                         folder: Option<string>, tag: Option<string>, topic: Option<string>)
    ensures var r := ListPaneAppearance(settings, selectionType, folder, tag, topic);
      var o := SelectedOverride(settings, selectionType, folder, tag, topic).GetOr(NoOverride);
      && r.titleRows == o.titleRows.GetOr(settings.fileNameRows)
      && r.previewRows == o.previewRows.GetOr(settings.previewRows)
      && r.showDate == o.showDate.GetOr(settings.showFileDate)
      && r.showPreview == o.showPreview.GetOr(settings.showFilePreview)
      && r.showImage == o.showImage.GetOr(settings.showFeatureImage)
  {
  }
}

=== FILE: lucide_icons.dfy ===
/**
 * The Lucide icon provider: display names and search keywords derived from
 * kebab-case icon ids, the tiered match score, and the search that ranks the
 * matching icons and returns the best fifty.
 */
module LucideIcons {
  import opened Wrappers
  import opened Text
  import opened Sorting
  import opened IconTypes

  /** The number of results `search` returns at most. */
  const MAX_RESULTS: nat := 50

  /** `formatDisplayName(iconId)`: `file-text` becomes `File Text`. */
  function FormatDisplayName(iconId: string): (name: string)
    ensures name == TitleCaseChars(iconId)
  {
    TitleCaseIsChars(iconId);
    TitleCase(iconId)
  }

  /**
   * The synonyms `getKeywords` adds for an id segment: the provider's own
   * `keywordMap` table (LucideIconProvider.ts:182-240), entry for entry.
   */
  const KEYWORD_MAP: map<string, seq<string>> := map[
    "folder" := ["directory", "container"],
    "file" := ["document", "page"],
    "tag" := ["label", "category"],
    "search" := ["find", "query"],
    "star" := ["favorite", "bookmark"],
    "heart" := ["love", "like", "favorite"],
    "home" := ["house", "main"],
    "settings" := ["config", "preferences", "gear"],
    "user" := ["person", "account", "profile"],
    "calendar" := ["date", "schedule"],
    "clock" := ["time", "watch"],
    "mail" := ["email", "message", "envelope"],
    "phone" := ["call", "mobile"],
    "trash" := ["delete", "bin", "remove"],
    "edit" := ["modify", "change", "pencil"],
    "plus" := ["add", "new", "create"],
    "check" := ["done", "complete", "tick"],
    "x" := ["close", "cancel", "remove"],
    "arrow" := ["direction", "pointer"],
    "chevron" := ["expand", "collapse"],
    "grid" := ["layout", "dashboard"],
    "list" := ["items", "menu"],
    "image" := ["picture", "photo"],
    "video" := ["movie", "film"],
    "music" := ["audio", "sound"],
    "book" := ["read", "library"],
    "bookmark" := ["save", "mark"],
    "download" := ["save", "get"],
    "upload" := ["send", "put"],
    "share" := ["send", "distribute"],
    "link" := ["url", "connection"],
    "lock" := ["secure", "private"],
    "unlock" := ["open", "public"],
    "eye" := ["view", "see", "visible"],
    "alert" := ["warning", "attention"],
    "info" := ["information", "help"],
    "question" := ["help", "ask"],
    "zap" := ["lightning", "fast", "energy"],
    "sun" := ["light", "day", "bright"],
    "moon" := ["night", "dark"],
    "cloud" := ["weather", "storage"],
    "globe" := ["world", "internet", "web"],
    "map" := ["location", "navigate"],
    "pin" := ["location", "mark", "attach"],
    "flag" := ["mark", "country", "report"],
    "bell" := ["notification", "alert", "ring"],
    "message" := ["chat", "talk", "comment"],
    "code" := ["programming", "develop"],
    "terminal" := ["console", "command"],
    "database" := ["storage", "data"],
    "server" := ["host", "backend"],
    "cpu" := ["processor", "computer"],
    "wifi" := ["internet", "wireless", "network"],
    "battery" := ["power", "charge"],
    "printer" := ["print", "document"],
    "camera" := ["photo", "capture"],
    "mic" := ["microphone", "audio", "record"]
  ]

  /** The synonyms of one segment (none for a segment the table does not list). */
  function SynonymsOf(segment: string): seq<string> {
    if segment in KEYWORD_MAP then KEYWORD_MAP[segment] else []
  }

  /** The synonyms of every segment, in segment order. */
  function Synonyms(segments: seq<string>): seq<string>
    decreases |segments|
  {
    if |segments| == 0 then []
    else Synonyms(segments[..|segments| - 1]) + SynonymsOf(segments[|segments| - 1])
  }

  /** The keywords of an id: its segments, then their synonyms. */
  function KeywordsOf(iconId: string): seq<string> {
    Split(iconId, '-') + Synonyms(Split(iconId, '-'))
  }

  /** `getKeywords(iconId)` */
  method GetKeywords(iconId: string) returns (keywords: seq<string>)
    ensures keywords == KeywordsOf(iconId)
  {
    var segments := Split(iconId, '-');
    var additionalKeywords: seq<string> := [];
    var i := 0;
    while i < |segments|
      invariant i <= |segments|
      invariant additionalKeywords == Synonyms(segments[..i])
    {
      assert segments[..i + 1][..i] == segments[..i];
      if segments[i] in KEYWORD_MAP {
        additionalKeywords := additionalKeywords + KEYWORD_MAP[segments[i]];
      }
      i := i + 1;
    }
    assert segments[..i] == segments;
    keywords := segments + additionalKeywords;
  }

  /** A synonym in the list comes from one of the segments. */
  lemma {:induction false} SynonymsFrom(segments: seq<string>)
    ensures forall k :: k in Synonyms(segments) ==> exists s :: s in segments && s in KEYWORD_MAP && k in KEYWORD_MAP[s]
    decreases |segments|
  {
    if |segments| > 0 {
      var init := segments[..|segments| - 1];
      SynonymsFrom(init);
      forall k | k in Synonyms(segments)
        ensures exists s :: s in segments && s in KEYWORD_MAP && k in KEYWORD_MAP[s]
      {
        if k in Synonyms(init) {
          var s :| s in init && s in KEYWORD_MAP && k in KEYWORD_MAP[s];
          assert s in segments;
        } else {
          assert segments[|segments| - 1] in segments;
        }
      }
    }
  }

  /**
   * The keywords start with the id's segments in order; every other keyword
   * is a listed synonym of one of them, and every listed synonym of every
   * segment is among them.
   */
  lemma KeywordsSpec(iconId: string)
    ensures var segments, keywords := Split(iconId, '-'), KeywordsOf(iconId);
      && keywords[..|segments|] == segments
      && (forall k :: k in keywords[|segments|..] ==> exists s :: s in segments && s in KEYWORD_MAP && k in KEYWORD_MAP[s])
      && (forall s, k :: s in segments && s in KEYWORD_MAP && k in KEYWORD_MAP[s] ==> k in keywords)
  {
    var segments := Split(iconId, '-');
    var keywords := KeywordsOf(iconId);
    assert keywords[|segments|..] == Synonyms(segments);
    SynonymsFrom(segments);
    forall s, k | s in segments && s in KEYWORD_MAP && k in KEYWORD_MAP[s]
      ensures k in keywords
    {
      SynonymsCover(segments, s, k);
    }
  }

  lemma {:induction false} SynonymsCover(segments: seq<string>, s: string, k: string)
    requires s in segments && s in KEYWORD_MAP && k in KEYWORD_MAP[s]
    ensures k in Synonyms(segments)
    decreases |segments|
  {
    var init := segments[..|segments| - 1];
    if s in init {
      SynonymsCover(init, s, k);
    } else {
      assert s == segments[|segments| - 1];
    }
  }

  /**
   * `resolveMatchScore`: the first tier that holds, in the order exact id,
   * exact display name, exact keyword, id prefix, display-name prefix,
   * keyword prefix, id substring, display-name substring, keyword substring;
   * no score when none holds. An empty display name takes part in no tier.
   */
  function MatchScore(query: string, iconId: string, displayName: string, keywords: seq<string>): (score: Option<nat>)
    ensures score.Some? ==> score.value <= 8
  {
    if iconId == query then Some(0)
    else if displayName != "" && displayName == query then Some(1)
    else if query in keywords then Some(2)
    else if StartsWith(iconId, query) then Some(3)
    else if displayName != "" && StartsWith(displayName, query) then Some(4)
    else if exists k :: k in keywords && StartsWith(k, query) then Some(5)
    else if Contains(iconId, query) then Some(6)
    else if displayName != "" && Contains(displayName, query) then Some(7)
    else if exists k :: k in keywords && Contains(k, query) then Some(8)
    else None
  }

  /**
   * The tiers nest: a score of at most 2 means an exact match somewhere, at
   * most 5 a prefix match somewhere, and a score at all a substring match
   * somewhere.
   */
  lemma MatchScoreTiers(query: string, iconId: string, displayName: string, keywords: seq<string>)
    ensures var score := MatchScore(query, iconId, displayName, keywords);
      && (score.Some? && score.value <= 2 <==>
        iconId == query || (displayName != "" && displayName == query) || query in keywords)
      && (score.Some? && score.value <= 5 <==>
        || StartsWith(iconId, query) || (displayName != "" && StartsWith(displayName, query))
        || exists k :: k in keywords && StartsWith(k, query))
      && (score.None? <==>
        && !Contains(iconId, query) && !(displayName != "" && Contains(displayName, query))
        && forall k :: k in keywords ==> !Contains(k, query))
  {
    assert StartsWith(query, query);
    assert forall k :: StartsWith(k, query) ==> Contains(k, query);
  }

  /** The score of an icon id for a normalised query. */
  function ScoreOf(query: string, iconId: string): Option<nat> {
    MatchScore(query, ToLower(iconId), ToLower(FormatDisplayName(iconId)), LowerAll(KeywordsOf(iconId)))
  }

  /** A scored icon awaiting the sort. */
  datatype Match = Match(icon: IconDefinition, score: nat, name: string, id: string)

  /** The definition `search` and `getAll` give for an id. */
  function Definition(iconId: string): IconDefinition {
    IconDefinition(iconId, FormatDisplayName(iconId), None, Some(KeywordsOf(iconId)))
  }

  /** What one id contributes to the matches: nothing when it has no score. */
  function Candidate(query: string, iconId: string): Option<Match> {
    var score := ScoreOf(query, iconId);
    var normalizedDisplay := ToLower(FormatDisplayName(iconId));
    if score.None? then None
    else Some(Match(Definition(iconId), score.value, if normalizedDisplay != "" then normalizedDisplay else ToLower(iconId), iconId))
  }

  /** The matches of the ids in order. */
  function Matches(query: string, ids: seq<string>): seq<Match>
    decreases |ids|
  {
    if |ids| == 0 then []
    else
      var c := Candidate(query, ids[|ids| - 1]);
      Matches(query, ids[..|ids| - 1]) + if c.Some? then [c.value] else []
  }

  /** Lower score first, then the normalised display name, then the id. */
  function MatchOrder(localeCompare: (string, string) -> int): (Match, Match) -> int {
    (a: Match, b: Match) =>
      if a.score != b.score then a.score - b.score
      else
        var nameCompare := localeCompare(a.name, b.name);
        if nameCompare != 0 then nameCompare else localeCompare(a.id, b.id)
  }

  /** `matches.map(match => match.icon)` */
  function Icons(ms: seq<Match>): (icons: seq<IconDefinition>)
    ensures |icons| == |ms| && forall i :: 0 <= i < |ms| ==> icons[i] == ms[i].icon
  {
    seq(|ms|, i requires 0 <= i < |ms| => ms[i].icon)
  }

  /** `slice(0, MAX_RESULTS)` */
  function Take<T>(s: seq<T>, n: nat): (r: seq<T>)
    ensures |r| <= n && |r| <= |s| && r == s[..|r|]
    ensures |s| <= n ==> r == s
  {
    if |s| <= n then s else s[..n]
  }

  /** The normalised query: lower-cased, then trimmed. */
  function NormalizeQuery(query: string): string {
    Trim(ToLower(query))
  }

  /** `search(query)` over the host's icon ids. */
  function SearchResults(query: string, ids: seq<string>, localeCompare: (string, string) -> int): (results: seq<IconDefinition>)
    ensures |results| <= MAX_RESULTS
    ensures NormalizeQuery(query) == "" ==> results == []
  {
    var q := NormalizeQuery(query);
    if q == "" then []
    else Take(Icons(SortBy(Matches(q, ids), MatchOrder(localeCompare))), MAX_RESULTS)
  }

  /** The body of the search loop for one id. */
  method ScoreIcon(normalizedQuery: string, id: string) returns (candidate: Option<Match>)
    ensures candidate == Candidate(normalizedQuery, id)
  {
    var keywords := GetKeywords(id);
    var displayName := FormatDisplayName(id);
    var normalizedDisplay := ToLower(displayName);
    var score := MatchScore(normalizedQuery, ToLower(id), normalizedDisplay, LowerAll(keywords));
    if score.None? {
      return None;
    }
    var name := if normalizedDisplay != "" then normalizedDisplay else ToLower(id);
    candidate := Some(Match(IconDefinition(id, displayName, None, Some(keywords)), score.value, name, id));
  }

  /** The search loop: the scored ids, in order. */
  method CollectMatches(normalizedQuery: string, ids: seq<string>) returns (matches: seq<Match>)
    ensures matches == Matches(normalizedQuery, ids)
  {
    matches := [];
    var i := 0;
    while i < |ids|
      invariant i <= |ids|
      invariant matches == Matches(normalizedQuery, ids[..i])
    {
      assert ids[..i + 1][..i] == ids[..i];
      var candidate := ScoreIcon(normalizedQuery, ids[i]);
      if candidate.Some? {
        matches := matches + [candidate.value];
      }
      i := i + 1;
    }
    assert ids[..i] == ids;
  }

  /** `search(query)`: scores every id, sorts the matches in place, keeps the first fifty. */
  method Search(query: string, ids: seq<string>, localeCompare: (string, string) -> int) returns (results: seq<IconDefinition>)
    ensures results == SearchResults(query, ids, localeCompare)
  {
    var normalizedQuery := NormalizeQuery(query);
    if normalizedQuery == "" {
      return [];
    }
    var matches := CollectMatches(normalizedQuery, ids);
    var ranked := SortMatches(matches, localeCompare);
    results := Take(Icons(ranked), MAX_RESULTS);
  }

  /** `matches.sort(…)`: the matches copied into an array and sorted in place. */
  method SortMatches(matches: seq<Match>, localeCompare: (string, string) -> int) returns (ranked: seq<Match>)
    ensures ranked == SortBy(matches, MatchOrder(localeCompare))
  {
    var sorted := new Match[|matches|](k requires 0 <= k < |matches| => matches[k]);
    assert sorted[..] == matches;
    SortInPlace(sorted, MatchOrder(localeCompare));
    ranked := sorted[..];
  }

  /** Every match is a scored id of the input, with that id's definition. */
  lemma {:induction false} MatchesScored(query: string, ids: seq<string>)
    ensures forall m :: m in Matches(query, ids) ==>
      m.id in ids && ScoreOf(query, m.id) == Some(m.score) && m.icon == Definition(m.id)
    decreases |ids|
  {
    if |ids| > 0 {
      MatchesScored(query, ids[..|ids| - 1]);
    }
  }

  /** Every scored id of the input is among the matches. */
  lemma {:induction false} MatchesComplete(query: string, ids: seq<string>, id: string)
    requires id in ids && ScoreOf(query, id).Some?
    ensures exists m :: m in Matches(query, ids) && m.id == id
    decreases |ids|
  {
    var last := ids[|ids| - 1];
    if id == last {
      assert Candidate(query, id).value in Matches(query, ids);
    } else {
      assert id in ids[..|ids| - 1];
      MatchesComplete(query, ids[..|ids| - 1], id);
      var m :| m in Matches(query, ids[..|ids| - 1]) && m.id == id;
      assert m in Matches(query, ids);
    }
  }

  /** A result of the cut, sorted list is the icon of one of the matches. */
  lemma ResultFromMatch(ms: seq<Match>, localeCompare: (string, string) -> int, r: IconDefinition)
    requires r in Take(Icons(SortBy(ms, MatchOrder(localeCompare))), MAX_RESULTS)
    ensures exists m :: m in ms && m.icon == r
  {
    var sorted := SortBy(ms, MatchOrder(localeCompare));
    SortByPermutes(ms, MatchOrder(localeCompare));
    var results := Take(Icons(sorted), MAX_RESULTS);
    var i :| 0 <= i < |results| && results[i] == r;
    assert sorted[i] in multiset(ms);
  }

  /** Every result is the definition of an id with a score for the normalised query. */
  lemma SearchResultsScored(query: string, ids: seq<string>, localeCompare: (string, string) -> int)
    ensures var results, q := SearchResults(query, ids, localeCompare), NormalizeQuery(query);
      forall r :: r in results ==> r.id in ids && ScoreOf(q, r.id).Some? && r == Definition(r.id)
  {
    var q := NormalizeQuery(query);
    MatchesScored(q, ids);
    forall r | r in SearchResults(query, ids, localeCompare)
      ensures r.id in ids && ScoreOf(q, r.id).Some? && r == Definition(r.id)
    {
      ResultFromMatch(Matches(q, ids), localeCompare, r);
    }
  }

  /** With at most fifty matches, every match's icon survives the cut. */
  lemma MatchInResults(ms: seq<Match>, localeCompare: (string, string) -> int, m: Match)
    requires m in ms && |ms| <= MAX_RESULTS
    ensures m.icon in Take(Icons(SortBy(ms, MatchOrder(localeCompare))), MAX_RESULTS)
  {
    var sorted := SortBy(ms, MatchOrder(localeCompare));
    SortByPermutes(ms, MatchOrder(localeCompare));
    assert m in multiset(sorted);
    var i :| 0 <= i < |sorted| && sorted[i] == m;
    assert Icons(sorted)[i] == m.icon;
  }

  /** When at most fifty ids match, every matching id is among the results. */
  lemma SearchResultsComplete(query: string, ids: seq<string>, localeCompare: (string, string) -> int, id: string)
    requires NormalizeQuery(query) != "" && |Matches(NormalizeQuery(query), ids)| <= MAX_RESULTS
    requires id in ids && ScoreOf(NormalizeQuery(query), id).Some?
    ensures Definition(id) in SearchResults(query, ids, localeCompare)
  {
    var q := NormalizeQuery(query);
    var ms := Matches(q, ids);
    MatchesComplete(q, ids, id);
    MatchesScored(q, ids);
    var m :| m in ms && m.id == id;
    MatchInResults(ms, localeCompare, m);
  }

  lemma MatchOrderFlips(localeCompare: (string, string) -> int, a: Match, b: Match)
    requires Comparator(localeCompare)
    ensures Sign(MatchOrder(localeCompare)(a, b)) == -Sign(MatchOrder(localeCompare)(b, a))
  {
    assert Sign(localeCompare(a.name, b.name)) == -Sign(localeCompare(b.name, a.name));
    assert Sign(localeCompare(a.id, b.id)) == -Sign(localeCompare(b.id, a.id));
  }

  lemma MatchOrderChains(localeCompare: (string, string) -> int, a: Match, b: Match, c: Match)
    requires Comparator(localeCompare)
    ensures MatchOrder(localeCompare)(a, b) <= 0 && MatchOrder(localeCompare)(b, c) <= 0 ==>
      MatchOrder(localeCompare)(a, c) <= 0
  {
    TiesChain(localeCompare, a.name, b.name, c.name);
    if a.score == b.score == c.score && localeCompare(a.name, b.name) == 0 && localeCompare(b.name, c.name) == 0 {
      assert localeCompare(a.id, b.id) <= 0 && localeCompare(b.id, c.id) <= 0 ==> localeCompare(a.id, c.id) <= 0;
    }
  }

  /** Score, then name, then id is a consistent comparator when the locale comparison is. */
  lemma MatchOrderConsistent(localeCompare: (string, string) -> int)
    requires Comparator(localeCompare)
    ensures Comparator(MatchOrder(localeCompare))
  {
    forall a, b ensures Sign(MatchOrder(localeCompare)(a, b)) == -Sign(MatchOrder(localeCompare)(b, a)) {
      MatchOrderFlips(localeCompare, a, b);
    }
    forall a, b, c | MatchOrder(localeCompare)(a, b) <= 0 && MatchOrder(localeCompare)(b, c) <= 0
      ensures MatchOrder(localeCompare)(a, c) <= 0
    {
      MatchOrderChains(localeCompare, a, b, c);
    }
  }

  /**
   * The results come in ascending score; equal scores in ascending display
   * name, equal names in ascending id (both by the locale comparison).
   */
  lemma SearchResultsOrdered(query: string, ids: seq<string>, localeCompare: (string, string) -> int)
    requires Comparator(localeCompare)
    ensures var q := NormalizeQuery(query);
      var ranked := SortBy(Matches(q, ids), MatchOrder(localeCompare));
      && (q != "" ==> SearchResults(query, ids, localeCompare) == Take(Icons(ranked), MAX_RESULTS))
      && forall i, j :: 0 <= i < j < |ranked| ==>
        && ranked[i].score <= ranked[j].score
        && (ranked[i].score == ranked[j].score ==> localeCompare(ranked[i].name, ranked[j].name) <= 0)
        && (ranked[i].score == ranked[j].score && localeCompare(ranked[i].name, ranked[j].name) == 0 ==>
              localeCompare(ranked[i].id, ranked[j].id) <= 0)
  {
    var q := NormalizeQuery(query);
    MatchOrderConsistent(localeCompare);
    SortBySorted(Matches(q, ids), MatchOrder(localeCompare));
  }

  /** `getAll()`: every id's definition, in the host's order. */
  function AllIcons(ids: seq<string>): (icons: seq<IconDefinition>)
    ensures |icons| == |ids|
    ensures forall i :: 0 <= i < |ids| ==>
      icons[i].id == ids[i] && icons[i].displayName == TitleCaseChars(ids[i]) && icons[i].keywords == Some(KeywordsOf(ids[i]))
  {
    seq(|ids|, i requires 0 <= i < |ids| => Definition(ids[i]))
  }
}

=== FILE: metadata_service.dfy ===
/**
 * The metadata service: colours, background colours, icons and sort overrides
 * kept per folder, tag or file path in records of the settings, plus the
 * record maintenance run when paths are cleaned up, renamed or deleted.
 */
module MetadataService {
  import opened Wrappers
  import opened Text

  // ----- colours -----

  predicate IsHexDigit(ch: char) {
    ('0' <= ch <= '9') || ('a' <= ch <= 'f') || ('A' <= ch <= 'F')
  }

  predicate IsAsciiLetter(ch: char) {
    ('a' <= ch <= 'z') || ('A' <= ch <= 'Z')
  }

  /**
   * `validateColor`: the whole string is `#` and 3 to 8 hex digits, one of the
   * bare openings `rgb(`, `rgba(`, `hsl(`, `hsla(`, or a run of ASCII letters.
   */
  predicate ValidateColor(color: string) {
    || (4 <= |color| <= 9 && color[0] == '#' && forall i :: 1 <= i < |color| ==> IsHexDigit(color[i]))
    || color == "rgb(" || color == "rgba(" || color == "hsl(" || color == "hsla("
    || (|color| > 0 && forall i :: 0 <= i < |color| ==> IsAsciiLetter(color[i]))
  }

  /** Hex colours and named colours pass; a complete `rgb(...)` call does not. */
  lemma ValidateColorExamples()
    ensures ValidateColor("#fff") && ValidateColor("#A0b1C2d3") && ValidateColor("red")
    ensures ValidateColor("rgb(")
    ensures !ValidateColor("#ff") && !ValidateColor("#ffffffff0")
    ensures !ValidateColor("rgb(1,2,3)") && !ValidateColor("")
  {
    assert "rgb(1,2,3)"[3] == '(';
    assert "#ff"[0] == '#';
    assert "#ffffffff0"[0] == '#';
  }

  datatype EntityType = Folder | Tag | File
  datatype ColorVariant = Color | Background

  /** The settings records this service writes. */
  datatype RecordKey =
    | FolderIcons | FolderColors | FolderBackgroundColors | FolderSortOverrides
    | FileIcons | FileColors
    | TagIcons | TagColors | TagBackgroundColors | TagSortOverrides

  /** `getColorRecordKey`: where a colour of the given variant is kept. */
  function ColorRecordKey(entity: EntityType, variant: ColorVariant): (key: RecordKey)
    ensures key in {FolderColors, FolderBackgroundColors, TagColors, TagBackgroundColors, FileColors}
  {
    match entity
    case Folder => if variant == Color then FolderColors else FolderBackgroundColors
    case Tag => if variant == Color then TagColors else TagBackgroundColors
    case File => FileColors
  }

  /**
   * Folders and tags keep each variant in a record of its own; a file keeps
   * both variants in `fileColors`.
   */
  lemma ColorRecordKeySeparates(e1: EntityType, v1: ColorVariant, e2: EntityType, v2: ColorVariant)
    ensures e1 != File && e2 != File ==>
      (ColorRecordKey(e1, v1) == ColorRecordKey(e2, v2) <==> e1 == e2 && v1 == v2)
    ensures ColorRecordKey(File, v1) == ColorRecordKey(File, v2) == FileColors
    ensures ColorRecordKey(e1, v1) == FileColors <==> e1 == File
  {
  }

  /** `getEntityIcon` and `setEntityIcon`: where an icon is kept. */
  function IconRecordKey(entity: EntityType): RecordKey {
    match entity
    case Folder => FolderIcons
    case Tag => TagIcons
    case File => FileIcons
  }

  /** `setEntitySortOverride`: folders use their own record, everything else the tag record. */
  function SortRecordKey(entity: EntityType): RecordKey {
    if entity == Folder then FolderSortOverrides else TagSortOverrides
  }

  /** `record?.[path]`: the value stored for `path`, if the record and the entry exist. */
  function Lookup(records: map<RecordKey, map<string, string>>, key: RecordKey, path: string): (value: Option<string>)
    ensures value.Some? <==> key in records && path in records[key]
  {
    if key in records && path in records[key] then Some(records[key][path]) else None
  }

  /** A JavaScript truthiness test on a looked-up string: present and non-empty. */
  predicate Truthy(value: Option<string>) {
    value.Some? && value.value != ""
  }

  /** The record at `key`, or a fresh empty one (`ensureColorRecord`). */
  function RecordOrEmpty(records: map<RecordKey, map<string, string>>, key: RecordKey): map<string, string> {
    if key in records then records[key] else map[]
  }

  /** Every record and entry other than (`key`, `path`) is as it was. */
  ghost predicate OthersUnchanged(before: map<RecordKey, map<string, string>>, after: map<RecordKey, map<string, string>>, key: RecordKey, path: string) {
    forall k, p :: (k != key || p != path) ==> Lookup(after, k, p) == Lookup(before, k, p)
  }

  /**
   * The settings records the service works on. Writes take effect at once;
   * the serialising save queue is not modelled.
   */
  class MetadataService {
    var records: map<RecordKey, map<string, string>>

    constructor(records: map<RecordKey, map<string, string>>)
      ensures this.records == records
    {
      this.records := records;
    }

    /** Sets `record[path]`, creating the record when it is missing. */
    method Put(key: RecordKey, path: string, value: string)
      modifies this
      ensures records == old(records)[key := RecordOrEmpty(old(records), key)[path := value]]
      ensures Lookup(records, key, path) == Some(value)
      ensures OthersUnchanged(old(records), records, key, path)
    {
      records := records[key := RecordOrEmpty(records, key)[path := value]];
    }

    /** `delete record[path]` when the record exists. */
    method Delete(key: RecordKey, path: string)
      modifies this
      ensures key in old(records) ==> records == old(records)[key := old(records)[key] - {path}]
      ensures key !in old(records) ==> records == old(records)
      ensures Lookup(records, key, path) == None
      ensures OthersUnchanged(old(records), records, key, path)
    {
      if key in records {
        records := records[key := records[key] - {path}];
      }
    }

    /** `setEntityColorVariant`: an invalid colour changes nothing. */
    method SetEntityColorVariant(entity: EntityType, path: string, color: string, variant: ColorVariant)
      modifies this
      ensures !ValidateColor(color) ==> records == old(records)
      ensures ValidateColor(color) ==> Lookup(records, ColorRecordKey(entity, variant), path) == Some(color)
      ensures OthersUnchanged(old(records), records, ColorRecordKey(entity, variant), path)
    {
      if !ValidateColor(color) {
        return;
      }
      Put(ColorRecordKey(entity, variant), path, color);
    }

    /** `removeEntityColorVariant`: a no-op when the record or the entry is missing. */
    method RemoveEntityColorVariant(entity: EntityType, path: string, variant: ColorVariant)
      modifies this
      ensures Lookup(old(records), ColorRecordKey(entity, variant), path).None? ==> records == old(records)
      ensures Lookup(records, ColorRecordKey(entity, variant), path) == None
      ensures OthersUnchanged(old(records), records, ColorRecordKey(entity, variant), path)
    {
      var key := ColorRecordKey(entity, variant);
      if key !in records || path !in records[key] {
        return;
      }
      Delete(key, path);
    }

    /** `getEntityColorVariant` */
    method GetEntityColorVariant(entity: EntityType, path: string, variant: ColorVariant) returns (color: Option<string>)
      ensures color == Lookup(records, ColorRecordKey(entity, variant), path)
    {
      var key := ColorRecordKey(entity, variant);
      color := if key in records && path in records[key] then Some(records[key][path]) else None;
    }

    method SetEntityColor(entity: EntityType, path: string, color: string)
      modifies this
      ensures !ValidateColor(color) ==> records == old(records)
      ensures ValidateColor(color) ==> Lookup(records, ColorRecordKey(entity, Color), path) == Some(color)
      ensures OthersUnchanged(old(records), records, ColorRecordKey(entity, Color), path)
    {
      SetEntityColorVariant(entity, path, color, Color);
    }

    method SetEntityBackgroundColor(entity: EntityType, path: string, color: string)
      modifies this
      ensures !ValidateColor(color) ==> records == old(records)
      ensures ValidateColor(color) ==> Lookup(records, ColorRecordKey(entity, Background), path) == Some(color)
      ensures OthersUnchanged(old(records), records, ColorRecordKey(entity, Background), path)
    {
      SetEntityColorVariant(entity, path, color, Background);
    }

    method RemoveEntityColor(entity: EntityType, path: string)
      modifies this
      ensures Lookup(records, ColorRecordKey(entity, Color), path) == None
      ensures OthersUnchanged(old(records), records, ColorRecordKey(entity, Color), path)
    {
      RemoveEntityColorVariant(entity, path, Color);
    }

    method RemoveEntityBackgroundColor(entity: EntityType, path: string)
      modifies this
      ensures Lookup(records, ColorRecordKey(entity, Background), path) == None
      ensures OthersUnchanged(old(records), records, ColorRecordKey(entity, Background), path)
    {
      RemoveEntityColorVariant(entity, path, Background);
    }

    method GetEntityColor(entity: EntityType, path: string) returns (color: Option<string>)
      ensures color == Lookup(records, ColorRecordKey(entity, Color), path)
    {
      color := GetEntityColorVariant(entity, path, Color);
    }

    method GetEntityBackgroundColor(entity: EntityType, path: string) returns (color: Option<string>)
      ensures color == Lookup(records, ColorRecordKey(entity, Background), path)
    {
      color := GetEntityColorVariant(entity, path, Background);
    }

    /** `setEntityIcon`: each entity type has its own icon record. */
    method SetEntityIcon(entity: EntityType, path: string, iconId: string)
      modifies this
      ensures Lookup(records, IconRecordKey(entity), path) == Some(iconId)
      ensures OthersUnchanged(old(records), records, IconRecordKey(entity), path)
    {
      Put(IconRecordKey(entity), path, iconId);
    }

    /**
     * `removeEntityIcon`: deletes only an entry whose value is truthy, so an
     * icon stored as the empty string stays.
     */
    method RemoveEntityIcon(entity: EntityType, path: string)
      modifies this
      ensures !Truthy(Lookup(old(records), IconRecordKey(entity), path)) ==> records == old(records)
      ensures Truthy(Lookup(old(records), IconRecordKey(entity), path)) ==>
        Lookup(records, IconRecordKey(entity), path) == None
      ensures OthersUnchanged(old(records), records, IconRecordKey(entity), path)
    {
      var key := IconRecordKey(entity);
      if key in records && path in records[key] && records[key][path] != "" {
        Delete(key, path);
      }
    }

    /** `getEntityIcon` */
    method GetEntityIcon(entity: EntityType, path: string) returns (iconId: Option<string>)
      ensures iconId == Lookup(records, IconRecordKey(entity), path)
    {
      var key := IconRecordKey(entity);
      iconId := if key in records && path in records[key] then Some(records[key][path]) else None;
    }

    /** `setEntitySortOverride`: a file's override goes to the tag record. */
    method SetEntitySortOverride(entity: EntityType, path: string, sortOption: string)
      modifies this
      ensures Lookup(records, SortRecordKey(entity), path) == Some(sortOption)
      ensures entity != Folder ==> Lookup(records, TagSortOverrides, path) == Some(sortOption)
      ensures OthersUnchanged(old(records), records, SortRecordKey(entity), path)
    {
      Put(SortRecordKey(entity), path, sortOption);
    }

    /**
     * `removeEntitySortOverride`: deletes a truthy folder or tag entry; for a
     * file it does nothing.
     */
    method RemoveEntitySortOverride(entity: EntityType, path: string)
      modifies this
      ensures entity == File ==> records == old(records)
      ensures !Truthy(Lookup(old(records), SortRecordKey(entity), path)) ==> records == old(records)
      ensures entity != File && Truthy(Lookup(old(records), SortRecordKey(entity), path)) ==>
        Lookup(records, SortRecordKey(entity), path) == None
      ensures OthersUnchanged(old(records), records, SortRecordKey(entity), path)
    {
      if entity == File {
        return;
      }
      var key := SortRecordKey(entity);
      if key in records && path in records[key] && records[key][path] != "" {
        Delete(key, path);
      }
    }

    /** `getEntitySortOverride`: folders read their own record, everything else the tag record. */
    method GetEntitySortOverride(entity: EntityType, path: string) returns (sortOption: Option<string>)
      ensures sortOption == Lookup(records, SortRecordKey(entity), path)
    {
      var key := SortRecordKey(entity);
      sortOption := if key in records && path in records[key] then Some(records[key][path]) else None;
    }
  }

  // ----- record maintenance -----

  /** `path` is `prefix` itself or lies beneath it. */
  predicate Under(path: string, prefix: string) {
    path == prefix || StartsWith(path, prefix + "/")
  }

  /** A path under two prefixes means one prefix lies under the other. */
  lemma UnderBoth(k: string, a: string, b: string)
    requires Under(k, a) && Under(k, b)
    ensures Under(a, b) || Under(b, a)
  {
    if |a| < |b| {
      assert k != a;
      assert b[..|a|] == k[..|a|] == a;
      assert b[|a|] == k[|a|] == '/';
      assert b[..|a| + 1] == a + "/";
    } else if |b| < |a| {
      assert k != b;
      assert a[..|b|] == k[..|b|] == b;
      assert a[|b|] == k[|b|] == '/';
      assert a[..|b| + 1] == b + "/";
    } else {
      assert a == k[..|a|] == b;
    }
  }

  /** The record filtered by `validator` (`cleanupMetadata`). */
  method CleanupMetadata<T>(metadata: Option<map<string, T>>, validator: string -> bool)
    returns (cleaned: Option<map<string, T>>, hasChanges: bool)
    ensures metadata.None? ==> cleaned.None? && !hasChanges
    ensures metadata.Some? ==>
      && cleaned.Some?
      && (forall k :: k in cleaned.value <==> k in metadata.value && validator(k))
      && (forall k :: k in cleaned.value ==> cleaned.value[k] == metadata.value[k])
      && (hasChanges <==> exists k :: k in metadata.value && !validator(k))
  {
    if metadata.None? {
      return None, false;
    }
    var m := metadata.value;
    var result := m;
    var keys := m.Keys;
    hasChanges := false;
    while keys != {}
      invariant keys <= m.Keys
      invariant forall k :: k in result <==> k in m && (k in keys || validator(k))
      invariant forall k :: k in result ==> result[k] == m[k]
      invariant hasChanges <==> exists k :: k in m && k !in keys && !validator(k)
      decreases keys
    {
      var path :| path in keys;
      if !validator(path) {
        result := result - {path};
        hasChanges := true;
      }
      keys := keys - {path};
    }
    cleaned := Some(result);
  }

  /** `deleteNestedPaths`: drops `pathPrefix` and every key beneath it. */
  method DeleteNestedPaths<T>(metadata: Option<map<string, T>>, pathPrefix: string)
    returns (updated: Option<map<string, T>>, hasChanges: bool)
    ensures metadata.None? ==> updated.None? && !hasChanges
    ensures metadata.Some? ==>
      && updated.Some?
      && (forall k :: k in updated.value <==> k in metadata.value && !Under(k, pathPrefix))
      && (forall k :: k in updated.value ==> updated.value[k] == metadata.value[k])
      && (hasChanges <==> exists k :: k in metadata.value && Under(k, pathPrefix))
  {
    if metadata.None? {
      return None, false;
    }
    var m := metadata.value;
    var result := m;
    var keys := m.Keys;
    hasChanges := false;
    while keys != {}
      invariant keys <= m.Keys
      invariant forall k :: k in result <==> k in m && (k in keys || !Under(k, pathPrefix))
      invariant forall k :: k in result ==> result[k] == m[k]
      invariant hasChanges <==> exists k :: k in m && k !in keys && Under(k, pathPrefix)
      decreases keys
    {
      var path :| path in keys;
      if path == pathPrefix || StartsWith(path, pathPrefix + "/") {
        result := result - {path};
        hasChanges := true;
      }
      keys := keys - {path};
    }
    updated := Some(result);
  }

  /** Where a key under `oldPath` moves to. */
  function Relocate(path: string, oldPath: string, newPath: string): (moved: string)
    requires Under(path, oldPath)
    ensures Under(moved, newPath)
  {
    var moved := newPath + path[|oldPath|..];
    assert path != oldPath ==> path[|oldPath|] == (oldPath + "/")[|oldPath|];
    assert moved[..|newPath|] == newPath;
    assert path != oldPath ==> moved[..|newPath| + 1] == newPath + "/";
    moved
  }

  /** Where a key under `newPath` came from. */
  function Origin(path: string, oldPath: string, newPath: string): (origin: string)
    requires Under(path, newPath)
    ensures Under(origin, oldPath)
  {
    Relocate(path, newPath, oldPath)
  }

  /** Moving and moving back are inverse. */
  lemma RelocateOrigin(path: string, oldPath: string, newPath: string)
    requires Under(path, oldPath)
    ensures Origin(Relocate(path, oldPath, newPath), oldPath, newPath) == path
  {
    assert path == oldPath + path[|oldPath|..];
  }

  /** When neither path lies under the other, no key lies under both. */
  lemma Disjoint(oldPath: string, newPath: string)
    requires !Under(newPath, oldPath) && !Under(oldPath, newPath)
    ensures forall k :: Under(k, oldPath) ==> !Under(k, newPath)
  {
    forall k | Under(k, oldPath) && Under(k, newPath)
      ensures false
    {
      UnderBoth(k, oldPath, newPath);
    }
  }

  datatype Update<T> = Update(oldPath: string, newPath: string, value: T)

  /** The keys the updates move away from. */
  function Olds<T>(updates: seq<Update<T>>): set<string> {
    set j | 0 <= j < |updates| :: updates[j].oldPath
  }

  lemma OldsSnoc<T>(updates: seq<Update<T>>, u: Update<T>)
    ensures Olds(updates + [u]) == Olds(updates) + {u.oldPath}
  {
    var us := updates + [u];
    assert forall j :: 0 <= j < |updates| ==> us[j] == updates[j];
    assert us[|updates|] == u;
  }

  /** The renamed record: moved entries override entries already at their new key. */
  ghost predicate Renamed<T>(m: map<string, T>, r: map<string, T>, oldPath: string, newPath: string) {
    && (forall k :: k in r <==>
          (k in m && !Under(k, oldPath)) || (Under(k, newPath) && Origin(k, oldPath, newPath) in m))
    && (forall k :: k in r ==>
          r[k] == if Under(k, newPath) && Origin(k, oldPath, newPath) in m
                  then m[Origin(k, oldPath, newPath)] else m[k])
  }

  /** The updates applied so far: the entries of `done` have moved. */
  ghost predicate MovedSoFar<T>(m: map<string, T>, r: map<string, T>, oldPath: string, newPath: string, done: set<string>)
    requires forall o :: o in done ==> o in m
  {
    && (forall k :: k in r <==>
          (k in m && k !in done) || (Under(k, newPath) && Origin(k, oldPath, newPath) in done))
    && (forall k :: k in r ==>
          r[k] == if Under(k, newPath) && Origin(k, oldPath, newPath) in done
                  then m[Origin(k, oldPath, newPath)] else m[k])
  }

  /**
   * `updateNestedPaths`: moves `oldPath` to `newPath` and every `oldPath/rest`
   * to `newPath/rest`, keeping the values, when neither path lies under the
   * other.
   */
  method UpdateNestedPaths<T>(metadata: Option<map<string, T>>, oldPath: string, newPath: string)
    returns (updated: Option<map<string, T>>, moved: bool)
    requires !Under(newPath, oldPath) && !Under(oldPath, newPath)
    ensures metadata.None? ==> updated.None? && !moved
    ensures metadata.Some? ==> updated.Some? && Renamed(metadata.value, updated.value, oldPath, newPath)
    ensures metadata.Some? ==> (moved <==> exists k :: k in metadata.value && Under(k, oldPath))
  {
    if metadata.None? {
      return None, false;
    }
    var m := metadata.value;
    var updates := CollectUpdates(m, oldPath, newPath);
    var result := m;
    var i := 0;
    while i < |updates|
      invariant i <= |updates|
      invariant forall o :: o in Olds(updates[..i]) ==> o in m
      invariant MovedSoFar(m, result, oldPath, newPath, Olds(updates[..i]))
    {
      var u := updates[i];
      assert updates[..i + 1] == updates[..i] + [u];
      OldsSnoc(updates[..i], u);
      assert u.oldPath !in Olds(updates[..i]);
      ApplyUpdate(m, result, oldPath, newPath, Olds(updates[..i]), u.oldPath);
      result := result[u.newPath := u.value] - {u.oldPath};
      i := i + 1;
    }
    assert updates[..i] == updates;
    AllMovedIsRenamed(m, result, oldPath, newPath, Olds(updates));
    updated := Some(result);
    moved := |updates| > 0;
    if moved {
      assert updates[0] in updates;
    }
  }

  /** One applied update keeps `MovedSoFar`. */
  lemma ApplyUpdate<T>(m: map<string, T>, r: map<string, T>, oldPath: string, newPath: string, done: set<string>, o: string)
    requires !Under(newPath, oldPath) && !Under(oldPath, newPath)
    requires forall d :: d in done ==> d in m
    requires o in m && Under(o, oldPath) && o !in done
    requires MovedSoFar(m, r, oldPath, newPath, done)
    ensures MovedSoFar(m, r[Relocate(o, oldPath, newPath) := m[o]] - {o}, oldPath, newPath, done + {o})
  {
    var n := Relocate(o, oldPath, newPath);
    var r' := r[n := m[o]] - {o};
    var done' := done + {o};
    RelocateOrigin(o, oldPath, newPath);
    Disjoint(oldPath, newPath);
    assert n != o;
    forall k
      ensures k in r' <==> (k in m && k !in done') || (Under(k, newPath) && Origin(k, oldPath, newPath) in done')
      ensures k in r' ==> r'[k] == if Under(k, newPath) && Origin(k, oldPath, newPath) in done'
                                   then m[Origin(k, oldPath, newPath)] else m[k]
    {
      if k != n && k != o && Under(k, newPath) {
        RelocateOrigin(k, newPath, oldPath);
      }
    }
  }

  /**
   * The updates `updateNestedPaths` collects: `oldPath` first if present, then
   * every key beneath it, each with its new key and its value.
   */
  method CollectUpdates<T>(m: map<string, T>, oldPath: string, newPath: string) returns (updates: seq<Update<T>>)
    ensures forall j :: 0 <= j < |updates| ==>
      var u := updates[j];
      u.oldPath in m && Under(u.oldPath, oldPath)
      && u.newPath == Relocate(u.oldPath, oldPath, newPath) && u.value == m[u.oldPath]
    ensures forall j :: 0 <= j < |updates| ==> updates[j].oldPath !in Olds(updates[..j])
    ensures forall k :: k in Olds(updates) <==> k in m && Under(k, oldPath)
  {
    updates := [];
    if oldPath in m {
      updates := [Update(oldPath, newPath, m[oldPath])];
      assert updates[0].oldPath == oldPath;
    }
    assert Olds(updates) == if oldPath in m then {oldPath} else {};
    var keys := m.Keys;
    var oldPrefix := oldPath + "/";
    while keys != {}
      invariant keys <= m.Keys
      invariant UpdatesFrom(m, oldPath, newPath, updates, keys)
      decreases keys
    {
      var path :| path in keys;
      CollectStep(m, oldPath, newPath, updates, keys, path);
      if StartsWith(path, oldPrefix) {
        updates := updates + [Update(path, newPath + "/" + path[|oldPrefix|..], m[path])];
      }
      keys := keys - {path};
    }
  }

  /**
   * The loop invariant of `CollectUpdates`: each update moves a key under
   * `oldPath` already visited (or `oldPath` itself), no key twice, and the
   * moved keys are exactly those under `oldPath` outside `keys`.
   */
  ghost predicate UpdatesFrom<T>(m: map<string, T>, oldPath: string, newPath: string, updates: seq<Update<T>>, keys: set<string>) {
    && (forall j :: 0 <= j < |updates| ==>
          var u := updates[j];
          u.oldPath in m && Under(u.oldPath, oldPath) && (u.oldPath == oldPath || u.oldPath !in keys)
          && u.newPath == Relocate(u.oldPath, oldPath, newPath) && u.value == m[u.oldPath])
    && (forall j :: 0 <= j < |updates| ==> updates[j].oldPath !in Olds(updates[..j]))
    && (forall k :: k in Olds(updates) <==> k in m && Under(k, oldPath) && (k == oldPath || k !in keys))
  }

  /** Visiting one more key keeps the invariant, appending its update when it lies beneath `oldPath`. */
  lemma CollectStep<T>(m: map<string, T>, oldPath: string, newPath: string, updates: seq<Update<T>>, keys: set<string>, path: string)
    requires keys <= m.Keys && path in keys
    requires UpdatesFrom(m, oldPath, newPath, updates, keys)
    ensures !StartsWith(path, oldPath + "/") ==> UpdatesFrom(m, oldPath, newPath, updates, keys - {path})
    ensures StartsWith(path, oldPath + "/") ==>
      UpdatesFrom(m, oldPath, newPath, updates + [Update(path, newPath + "/" + path[|oldPath + "/"|..], m[path])], keys - {path})
  {
    var oldPrefix := oldPath + "/";
    if StartsWith(path, oldPrefix) {
      assert path != oldPath;
      assert path[|oldPath|..] == "/" + path[|oldPrefix|..];
      var u := Update(path, newPath + "/" + path[|oldPrefix|..], m[path]);
      OldsSnoc(updates, u);
      assert (updates + [u])[..|updates|] == updates;
      assert forall j :: 0 <= j < |updates| ==> (updates + [u])[..j] == updates[..j];
    }
  }

  /** With every update applied, the record is renamed. */
  lemma AllMovedIsRenamed<T>(m: map<string, T>, r: map<string, T>, oldPath: string, newPath: string, done: set<string>)
    requires !Under(newPath, oldPath) && !Under(oldPath, newPath)
    requires forall o :: o in done <==> o in m && Under(o, oldPath)
    requires MovedSoFar(m, r, oldPath, newPath, done)
    ensures Renamed(m, r, oldPath, newPath)
  {
  }

  /** A key beneath neither path keeps its value through a rename. */
  lemma RenamedKeepsOthers<T>(m: map<string, T>, r: map<string, T>, oldPath: string, newPath: string, k: string)
    requires Renamed(m, r, oldPath, newPath)
    requires !Under(k, oldPath) && !Under(k, newPath)
    ensures k in r <==> k in m
    ensures k in m ==> r[k] == m[k]
  {
  }
}

=== FILE: ordered_sets.dfy ===
/**
 * Insertion-ordered sets as duplicate-free sequences: the model of a JavaScript `Set`
 * (or of the keys of a `Map`), whose iteration order is the order of first insertion.
 */
module OrderedSets {

  predicate NoDup<T(==)>(s: seq<T>) {
    forall i, j :: 0 <= i < j < |s| ==> s[i] != s[j]
  }

  /** `set.add(x)`: appends `x` unless it is already present. */
  function AddUnique<T(==,!new)>(acc: seq<T>, x: T): (r: seq<T>)
    ensures NoDup(acc) ==> NoDup(r)
    ensures forall y :: y in r <==> y in acc || y == x
    ensures |acc| <= |r| && r[..|acc|] == acc
  {
    if x in acc then acc else acc + [x]
  }

  /** Adds the elements of `s` one by one, in order. */
  function AddAll<T(==,!new)>(acc: seq<T>, s: seq<T>): (r: seq<T>)
    ensures NoDup(acc) ==> NoDup(r)
    ensures forall y :: y in r <==> y in acc || y in s
    ensures |acc| <= |r| && r[..|acc|] == acc
    decreases |s|
  {
    if |s| == 0 then acc
    else
      var r := AddAll(AddUnique(acc, s[0]), s[1..]);
      PrefixTransitive(acc, AddUnique(acc, s[0]), r);
      assert forall y :: y in s <==> y == s[0] || y in s[1..];
      r
  }

  /** `Array.from(new Set(s))`: the first occurrence of each element, in order. */
  function Dedup<T(==,!new)>(s: seq<T>): (r: seq<T>)
    ensures NoDup(r)
    ensures forall y :: y in r <==> y in s
  {
    AddAll([], s)
  }

  /** Adding elements that are new and distinct appends them all, in order. */
  lemma {:induction false} AddAllFresh<T(!new)>(acc: seq<T>, s: seq<T>)
    requires NoDup(s) && forall x :: x in s ==> x !in acc
    ensures AddAll(acc, s) == acc + s
    decreases |s|
  {
    if |s| > 0 {
      var acc' := acc + [s[0]];
      assert AddUnique(acc, s[0]) == acc';
      FreshTail(acc, s);
      AddAllFresh(acc', s[1..]);
      ConsAppend(acc, s);
    }
  }

  /** The tail of a duplicate-free sequence of new elements is new to the accumulator extended by the head. */
  lemma FreshTail<T>(acc: seq<T>, s: seq<T>)
    requires |s| > 0 && NoDup(s) && forall x :: x in s ==> x !in acc
    ensures NoDup(s[1..]) && forall x :: x in s[1..] ==> x !in acc + [s[0]]
  {
    assert forall i :: 0 <= i < |s[1..]| ==> s[1..][i] == s[i + 1];
    assert forall i :: 1 <= i < |s| ==> s[i] != s[0];
  }

  /** Adding elements that are all present already changes nothing. */
  lemma {:induction false} AddAllPresent<T(!new)>(acc: seq<T>, s: seq<T>)
    requires forall x :: x in s ==> x in acc
    ensures AddAll(acc, s) == acc
    decreases |s|
  {
    if |s| > 0 {
      AddAllPresent(acc, s[1..]);
    }
  }

  lemma ConsAppend<T>(acc: seq<T>, s: seq<T>)
    requires |s| > 0
    ensures acc + [s[0]] + s[1..] == acc + s
  {
    assert s == [s[0]] + s[1..];
  }

  /** One step of a loop that adds `s[j..]` element by element. */
  lemma AddAllStep<T(!new)>(acc: seq<T>, s: seq<T>, j: nat)
    requires j < |s|
    ensures AddAll(acc, s[j..]) == AddAll(AddUnique(acc, s[j]), s[j + 1..])
  {
    assert s[j..][1..] == s[j + 1..];
  }

  lemma AddAllDone<T(!new)>(acc: seq<T>, s: seq<T>)
    ensures AddAll(acc, s[|s|..]) == acc
  {
    assert s[|s|..] == [];
  }

  /** A prefix of a prefix is a prefix. */
  lemma PrefixTransitive<T>(a: seq<T>, b: seq<T>, c: seq<T>)
    requires |a| <= |b| && b[..|a|] == a
    requires |b| <= |c| && c[..|b|] == b
    ensures |a| <= |c| && c[..|a|] == a
  {
    assert c[..|a|] == c[..|b|][..|a|];
  }
}

=== FILE: phosphor_icons.dfy ===
/**
 * The Phosphor icon font provider's metadata parsing: the icon list and
 * the id-to-glyph lookup are rebuilt from the font's metadata file.
 */
module PhosphorIcons {
  import opened Wrappers
  import opened Text
  import opened OrderedSets
  import opened IconTypes

  /**
   * One entry of the metadata file. A missing `name` is `""`; `keywords`
   * and `categories` are `None` when absent.
   */
  datatype MetadataEntry = MetadataEntry(
    id: string,
    name: string,
    unicode: string,
    keywords: Option<seq<string>>,
    categories: Option<seq<string>>)

  /** What the lookup keeps for an icon id: its glyph and its keywords. */
  datatype Glyph = Glyph(unicode: string, keywords: seq<string>)

  /** An entry is used only when it is present and has a non-empty id and unicode. */
  predicate Usable(entry: Option<MetadataEntry>) {
    entry.Some? && entry.value.id != "" && entry.value.unicode != ""
  }

  /** `entry.keywords ?? []` */
  function ListOrEmpty(words: Option<seq<string>>): seq<string> {
    if words.Some? then words.value else []
  }

  /** The keyword set: the id, then the lower-cased keywords, then the lower-cased categories, first occurrences only. */
  function EntryKeywords(entry: MetadataEntry): seq<string> {
    AddAll(AddAll([entry.id], LowerAll(ListOrEmpty(entry.keywords))), LowerAll(ListOrEmpty(entry.categories)))
  }

  /** `id.replace(/^ph-/, '')` */
  function StripPrefix(id: string): (r: string)
    ensures StartsWith(id, "ph-") ==> id == "ph-" + r
    ensures !StartsWith(id, "ph-") ==> r == id
  {
    if StartsWith(id, "ph-") then id[3..] else id
  }

  /** `entry.name || formatDisplayName(entry.id)` */
  function DisplayName(entry: MetadataEntry): string {
    if entry.name != "" then entry.name else TitleCase(StripPrefix(entry.id))
  }

  /** The definition a usable entry contributes. */
  function EntryDefinition(entry: MetadataEntry): IconDefinition {
    IconDefinition(entry.id, DisplayName(entry), None, Some(EntryKeywords(entry)))
  }

  /** The glyph a usable entry contributes to the lookup. */
  function EntryGlyph(entry: MetadataEntry): Glyph {
    Glyph(entry.unicode, EntryKeywords(entry))
  }

  /** The definitions of the usable entries, in file order (duplicates kept). */
  function Definitions(entries: seq<Option<MetadataEntry>>): seq<IconDefinition>
    decreases |entries|
  {
    if |entries| == 0 then []
    else
      var last := entries[|entries| - 1];
      Definitions(entries[..|entries| - 1]) + if Usable(last) then [EntryDefinition(last.value)] else []
  }

  /** The lookup of the usable entries: a later entry with the same id replaces an earlier one. */
  function Lookup(entries: seq<Option<MetadataEntry>>): map<string, Glyph>
    decreases |entries|
  {
    if |entries| == 0 then map[]
    else
      var last := entries[|entries| - 1];
      var before := Lookup(entries[..|entries| - 1]);
      if Usable(last) then before[last.value.id := EntryGlyph(last.value)]
      else before
  }

  /** The icon font provider's parsed state. */
  class PhosphorIconProvider {
    var definitions: seq<IconDefinition>
    var lookup: map<string, Glyph>

    /** A provider before any metadata is loaded. */
    constructor ()
      ensures definitions == [] && lookup == map[]
    {
      definitions := [];
      lookup := map[];
    }

    /**
     * `parseMetadata(raw)`: `None` stands for metadata that does not parse
     * as an array, which clears the icon data.
     */
    method ParseMetadata(parsed: Option<seq<Option<MetadataEntry>>>)
      modifies this
      ensures parsed.None? ==> definitions == [] && lookup == map[]
      ensures parsed.Some? ==> definitions == Definitions(parsed.value) && lookup == Lookup(parsed.value)
    {
      if parsed.None? {
        ClearIconData();
        return;
      }
      var defs, table := BuildIconData(parsed.value);
      SetIconData(defs, table);
    }

    /** `setIconData(definitions, lookup)` */
    method SetIconData(defs: seq<IconDefinition>, table: map<string, Glyph>)
      modifies this
      ensures definitions == defs && lookup == table
    {
      definitions := defs;
      lookup := table;
    }

    /** `clearIconData()` */
    method ClearIconData()
      modifies this
      ensures definitions == [] && lookup == map[]
    {
      definitions := [];
      lookup := map[];
    }
  }

  /** The `forEach` over the parsed entries, building the definitions and the lookup. */
  method BuildIconData(entries: seq<Option<MetadataEntry>>) returns (defs: seq<IconDefinition>, table: map<string, Glyph>)
    ensures defs == Definitions(entries) && table == Lookup(entries)
  {
    defs := [];
    table := map[];
    var i := 0;
    while i < |entries|
      invariant i <= |entries|
      invariant defs == Definitions(entries[..i]) && table == Lookup(entries[..i])
    {
      assert entries[..i + 1][..i] == entries[..i];
      var entry := entries[i];
      i := i + 1;
      if entry.None? || entry.value.id == "" || entry.value.unicode == "" {
        continue;
      }
      var keywords := CollectKeywords(entry.value);
      var displayName := if entry.value.name != "" then entry.value.name else TitleCase(StripPrefix(entry.value.id));
      defs := defs + [IconDefinition(entry.value.id, displayName, None, Some(keywords))];
      table := table[entry.value.id := Glyph(entry.value.unicode, keywords)];
      assert Glyph(entry.value.unicode, keywords) == EntryGlyph(entry.value);
    }
    assert entries[..i] == entries;
  }

  /** `keywords.add(x)` for each of `words`, lower-cased, in order. */
  method AddLowered(acc: seq<string>, words: seq<string>) returns (keywords: seq<string>)
    ensures keywords == AddAll(acc, LowerAll(words))
  {
    var lowered := LowerAll(words);
    keywords := acc;
    var i := 0;
    while i < |words|
      invariant i <= |words|
      invariant AddAll(keywords, lowered[i..]) == AddAll(acc, lowered)
    {
      AddAllStep(keywords, lowered, i);
      keywords := AddUnique(keywords, ToLower(words[i]));
      i := i + 1;
    }
    AddAllDone(keywords, lowered);
  }

  /** The keyword `Set` of one entry. */
  method CollectKeywords(entry: MetadataEntry) returns (keywords: seq<string>)
    ensures keywords == EntryKeywords(entry)
  {
    keywords := [entry.id];
    keywords := AddLowered(keywords, ListOrEmpty(entry.keywords));
    keywords := AddLowered(keywords, ListOrEmpty(entry.categories));
  }

  /**
   * An icon's keywords are distinct, start with its id (as written), and are
   * exactly the id and the lower-cased keywords and categories.
   */
  lemma EntryKeywordsSpec(entry: MetadataEntry)
    ensures var ks := EntryKeywords(entry);
      && NoDup(ks) && |ks| >= 1 && ks[0] == entry.id
      && forall k :: k in ks <==>
        k == entry.id || k in LowerAll(ListOrEmpty(entry.keywords)) || k in LowerAll(ListOrEmpty(entry.categories))
  {
    var first := AddAll([entry.id], LowerAll(ListOrEmpty(entry.keywords)));
    assert first[..1] == [entry.id];
    assert EntryKeywords(entry)[..|first|] == first;
  }

  /**
   * The display name is the metadata's name when it has one; otherwise the id
   * without one leading `ph-`, in Title Case: a space for each dash and upper
   * case at the start of each word.
   */
  lemma DisplayNameSpec(entry: MetadataEntry)
    ensures entry.name != "" ==> DisplayName(entry) == entry.name
    ensures entry.name == "" ==> DisplayName(entry) == TitleCaseChars(StripPrefix(entry.id))
  {
    TitleCaseIsChars(StripPrefix(entry.id));
  }

  /** Each definition comes from a usable entry, and each usable entry gives one, in file order. */
  lemma {:induction false} DefinitionsSpec(entries: seq<Option<MetadataEntry>>)
    ensures |Definitions(entries)| <= |entries|
    ensures forall d :: d in Definitions(entries) ==> exists e :: e in entries && Usable(e) && d == EntryDefinition(e.value)
    ensures forall e :: e in entries && Usable(e) ==> EntryDefinition(e.value) in Definitions(entries)
    ensures forall d :: d in Definitions(entries) ==> d.id != "" && d.preview.None?
    decreases |entries|
  {
    if |entries| > 0 {
      var init := entries[..|entries| - 1];
      DefinitionsSpec(init);
      assert entries == init + [entries[|entries| - 1]];
    }
  }

  /** The lookup has exactly the ids of the usable entries. */
  lemma {:induction false} LookupKeys(entries: seq<Option<MetadataEntry>>)
    ensures forall id :: id in Lookup(entries) <==> exists e :: e in entries && Usable(e) && e.value.id == id
    decreases |entries|
  {
    if |entries| > 0 {
      var init := entries[..|entries| - 1];
      LookupKeys(init);
      assert entries == init + [entries[|entries| - 1]];
    }
  }

  /** `entries[i]` is usable and no later usable entry has its id. */
  predicate LastWithId(entries: seq<Option<MetadataEntry>>, i: int)
    requires 0 <= i < |entries|
  {
    Usable(entries[i]) &&
    forall j :: i < j < |entries| && Usable(entries[j]) ==> entries[j].value.id != entries[i].value.id
  }

  /** Each id maps to the glyph and keywords of the LAST usable entry with that id. */
  lemma {:induction false} LookupLastWins(entries: seq<Option<MetadataEntry>>, i: int)
    requires 0 <= i < |entries| && LastWithId(entries, i)
    ensures entries[i].value.id in Lookup(entries)
    ensures Lookup(entries)[entries[i].value.id] == EntryGlyph(entries[i].value)
    decreases |entries|
  {
    var n := |entries| - 1;
    if i < n {
      var init := entries[..n];
      assert init[i] == entries[i];
      assert forall j :: i < j < |init| ==> init[j] == entries[j];
      assert LastWithId(init, i);
      LookupLastWins(init, i);
    }
  }

  /** Every definition's id has a glyph in the lookup, and every looked-up id has a definition. */
  lemma DefinitionsMatchLookup(entries: seq<Option<MetadataEntry>>)
    ensures forall d :: d in Definitions(entries) ==> d.id in Lookup(entries)
    ensures forall id :: id in Lookup(entries) ==> exists d :: d in Definitions(entries) && d.id == id
  {
    DefinitionsSpec(entries);
    LookupKeys(entries);
    forall id | id in Lookup(entries)
      ensures exists d :: d in Definitions(entries) && d.id == id
    {
      var e :| e in entries && Usable(e) && e.value.id == id;
      assert EntryDefinition(e.value) in Definitions(entries);
    }
  }
}

=== FILE: recent_storage.dfy ===
/**
 * The recent-items store: the most recently used notes, and per icon provider
 * the most recently used icons. Both live in memory, are normalised on every
 * write, and are copied to local storage only when they differ from the last
 * copy written.
 */
module RecentStorage {
  import opened Wrappers
  import opened OrderedSets

  /** `RECENT_ICONS_PER_PROVIDER_LIMIT` */
  const RECENT_ICONS_PER_PROVIDER_LIMIT: nat := 15

  /** An untyped value read back from local storage. */
  datatype Value = Str(s: string) | Arr(items: seq<Value>) | Obj(fields: map<string, Value>) | Other

  /** A list of strings as a stored value. */
  function Strs(xs: seq<string>): (vs: seq<Value>)
    ensures |vs| == |xs| && forall i :: 0 <= i < |xs| ==> vs[i] == Str(xs[i])
  {
    seq(|xs|, i requires 0 <= i < |xs| => Str(xs[i]))
  }

  /** The items of an array, or nothing for any other value (`Array.isArray(v) ? v : []`). */
  function ItemsOf(v: Value): seq<Value> {
    if v.Arr? then v.items else []
  }

  /** The string items, in order (`filter(item => typeof item === 'string')`). */
  function AllStrings(vs: seq<Value>): (xs: seq<string>)
    ensures |xs| <= |vs|
  {
    if |vs| == 0 then []
    else
      var rest := AllStrings(vs[1..]);
      if vs[0].Str? then [vs[0].s] + rest else rest
  }

  /** The non-empty string items, in order. */
  function NonEmptyStrings(vs: seq<Value>): (xs: seq<string>)
    ensures |xs| <= |vs|
  {
    if |vs| == 0 then []
    else
      var rest := NonEmptyStrings(vs[1..]);
      if vs[0].Str? && vs[0].s != "" then [vs[0].s] + rest else rest
  }

  /** The non-empty string items are exactly the non-empty strings among the items. */
  lemma {:induction false} NonEmptyStringsMembers(vs: seq<Value>)
    ensures forall x :: x in NonEmptyStrings(vs) <==> x != "" && Str(x) in vs
    decreases |vs|
  {
    if |vs| > 0 {
      NonEmptyStringsMembers(vs[1..]);
      assert forall v :: v in vs <==> v == vs[0] || v in vs[1..];
    }
  }

  /**
   * The normalised list: the first occurrence of each non-empty string item,
   * in order, cut after `limit` entries.
   */
  function NormalizeRecent(vs: seq<Value>, limit: int): seq<string> {
    var all := Dedup(NonEmptyStrings(vs));
    if |all| <= limit || limit < 0 then all else all[..limit]
  }

  /**
   * The normalised list has no duplicates, no empty entries, at most `limit`
   * entries, keeps items in their first-seen order, and drops an item only
   * when the limit is reached.
   */
  lemma NormalizeRecentFacts(vs: seq<Value>, limit: int)
    requires limit >= 1
    ensures var r, all := NormalizeRecent(vs, limit), Dedup(NonEmptyStrings(vs));
      && NoDup(r)
      && |r| <= limit
      && (forall x :: x in r ==> x != "" && Str(x) in vs)
      && r == all[..|r|]
      && (|r| < limit ==> forall x :: x != "" && Str(x) in vs ==> x in r)
  {
    var all := Dedup(NonEmptyStrings(vs));
    NonEmptyStringsMembers(vs);
    if |all| > limit {
      CutKeepsNoDup(all, limit);
    }
  }

  /** A cut of a list without duplicates has none, and holds only elements of the list. */
  lemma CutKeepsNoDup<T>(all: seq<T>, n: nat)
    requires NoDup(all) && n <= |all|
    ensures NoDup(all[..n]) && forall x :: x in all[..n] ==> x in all
  {
    assert forall i :: 0 <= i < n ==> all[..n][i] == all[i];
  }

  /** What the cache invariant needs of a normalised list. */
  lemma NormalizeRecentValid(vs: seq<Value>, limit: int)
    requires limit >= 1
    ensures var r := NormalizeRecent(vs, limit); NoDup(r) && "" !in r && |r| <= limit
  {
    NormalizeRecentFacts(vs, limit);
  }

  /** A clean list is normalised by cutting it to the limit. */
  lemma NormalizeCleanList(xs: seq<string>, limit: int)
    requires limit >= 1 && NoDup(xs) && "" !in xs
    ensures NormalizeRecent(Strs(xs), limit) == if |xs| <= limit then xs else xs[..limit]
  {
    NonEmptyStringsOfClean(xs);
    AddAllFresh([], xs);
  }

  lemma PrefixClean(xs: seq<string>, n: nat)
    requires n <= |xs| && NoDup(xs) && "" !in xs
    ensures NoDup(xs[..n]) && "" !in xs[..n]
  {
    assert forall i :: 0 <= i < n ==> xs[..n][i] == xs[i];
  }

  lemma NonEmptyStringsOfClean(xs: seq<string>)
    requires "" !in xs
    ensures NonEmptyStrings(Strs(xs)) == xs
    decreases |xs|
  {
    if |xs| > 0 {
      assert Strs(xs)[1..] == Strs(xs[1..]);
      NonEmptyStringsOfClean(xs[1..]);
      assert xs == [xs[0]] + xs[1..];
    }
  }

  /** Normalising a normalised list with the same limit changes nothing. */
  lemma NormalizeRecentIdempotent(vs: seq<Value>, limit: int)
    requires limit >= 1
    ensures var r := NormalizeRecent(vs, limit); NormalizeRecent(Strs(r), limit) == r
  {
    var r := NormalizeRecent(vs, limit);
    NormalizeRecentFacts(vs, limit);
    assert "" !in r;
    NonEmptyStringsOfClean(r);
    AddAllFresh([], r);
  }

  /** The list after looking at one more item. */
  function Next(acc: seq<string>, v: Value): seq<string> {
    if v.Str? && v.s != "" then AddUnique(acc, v.s) else acc
  }

  /** Looking at item `i` moves it from the items still to add to the list. */
  lemma Advance(acc: seq<string>, vs: seq<Value>, i: nat)
    requires i < |vs| && Progress(vs, acc, i)
    ensures Progress(vs, Next(acc, vs[i]), i + 1)
    ensures Next(acc, vs[i]) == if vs[i].Str? && vs[i].s != "" && vs[i].s !in acc then acc + [vs[i].s] else acc
  {
    assert vs[i..][1..] == vs[i + 1..];
    var rest := NonEmptyStrings(vs[i + 1..]);
    if vs[i].Str? && vs[i].s != "" {
      assert ([vs[i].s] + rest)[1..] == rest;
    }
  }

  /** `normalizeRecentNotes(notes, limit)` (also each provider's list in `normalizeRecentIconsMap`). */
  method NormalizeRecentNotes(notes: seq<Value>, limit: int) returns (normalized: seq<string>)
    requires limit >= 1
    ensures normalized == NormalizeRecent(notes, limit)
  {
    var unique: set<string> := {};
    normalized := [];
    var i := 0;
    Started(notes);
    while i < |notes|
      invariant i <= |notes|
      invariant |normalized| < limit
      invariant forall x :: x in unique <==> x in normalized
      invariant Progress(notes, normalized, i)
    {
      var value := notes[i];
      Advance(normalized, notes, i);
      i := i + 1;
      if !value.Str? || |value.s| == 0 {
        continue;
      }
      if value.s in unique {
        continue;
      }
      unique := unique + {value.s};
      normalized := normalized + [value.s];
      if |normalized| >= limit {
        StoppedAtLimit(notes, normalized, i, limit);
        return;
      }
    }
    Finished(notes, normalized, limit);
  }

  /** After the first `i` items the list is what `Dedup` holds once the rest is added. */
  ghost predicate Progress(notes: seq<Value>, normalized: seq<string>, i: nat) {
    i <= |notes| && NoDup(normalized) && AddAll(normalized, NonEmptyStrings(notes[i..])) == Dedup(NonEmptyStrings(notes))
  }

  lemma Started(notes: seq<Value>)
    ensures Progress(notes, [], 0)
  {
    assert notes[0..] == notes;
  }

  lemma StoppedAtLimit(notes: seq<Value>, normalized: seq<string>, i: nat, limit: int)
    requires Progress(notes, normalized, i) && |normalized| == limit
    ensures normalized == NormalizeRecent(notes, limit)
  {
  }

  lemma Finished(notes: seq<Value>, normalized: seq<string>, limit: int)
    requires Progress(notes, normalized, |notes|) && |normalized| < limit
    ensures normalized == NormalizeRecent(notes, limit)
  {
    AddAllDone(normalized, NonEmptyStrings(notes));
  }

  /** `getRecentNotesLimit()`: the configured count, or the default, and never below 1. */
  function RecentNotesLimit(recentNotesCount: Option<int>, defaultCount: int): (limit: int)
    ensures limit >= 1 && limit >= recentNotesCount.GetOr(defaultCount)
    ensures limit == 1 || limit == recentNotesCount.GetOr(defaultCount)
  {
    var value := recentNotesCount.GetOr(defaultCount);
    if value > 1 then value else 1
  }

  // ----- icons -----

  /** Non-empty provider ids mapped to non-empty, duplicate-free lists of at most 15 non-empty ids. */
  ghost predicate WellFormedIcons(icons: map<string, seq<string>>) {
    forall p :: p in icons ==>
      && p != ""
      && |icons[p]| > 0 && |icons[p]| <= RECENT_ICONS_PER_PROVIDER_LIMIT
      && NoDup(icons[p]) && "" !in icons[p]
  }

  /** `normalizeRecentIconsMap(source)` */
  function NormalizedIcons(source: map<string, Value>): (icons: map<string, seq<string>>)
    ensures forall p :: p in icons <==>
      p in source && p != "" && NormalizeRecent(ItemsOf(source[p]), RECENT_ICONS_PER_PROVIDER_LIMIT) != []
    ensures WellFormedIcons(icons)
  {
    var icons := map p | p in source && p != "" && NormalizeRecent(ItemsOf(source[p]), RECENT_ICONS_PER_PROVIDER_LIMIT) != []
      :: NormalizeRecent(ItemsOf(source[p]), RECENT_ICONS_PER_PROVIDER_LIMIT);
    assert forall p :: p in icons ==> icons[p] == NormalizeRecent(ItemsOf(source[p]), RECENT_ICONS_PER_PROVIDER_LIMIT);
    forall p | p in icons
      ensures NoDup(icons[p]) && "" !in icons[p] && |icons[p]| <= RECENT_ICONS_PER_PROVIDER_LIMIT
    {
      NormalizeRecentFacts(ItemsOf(source[p]), RECENT_ICONS_PER_PROVIDER_LIMIT);
    }
    icons
  }

  method NormalizeRecentIconsMap(source: map<string, Value>) returns (normalized: map<string, seq<string>>)
    ensures normalized == NormalizedIcons(source)
  {
    ghost var target := NormalizedIcons(source);
    normalized := map[];
    var keys := source.Keys;
    while keys != {}
      invariant keys <= source.Keys
      invariant forall p :: p in normalized <==> p in target && p !in keys
      invariant forall p :: p in normalized ==> normalized[p] == target[p]
      decreases keys
    {
      var providerId :| providerId in keys;
      keys := keys - {providerId};
      if |providerId| == 0 {
        continue;
      }
      var providerIcons := NormalizeRecentNotes(ItemsOf(source[providerId]), RECENT_ICONS_PER_PROVIDER_LIMIT);
      if |providerIcons| > 0 {
        normalized := normalized[providerId := providerIcons];
      }
    }
  }

  /** `sanitizeIconRecord(source)`: array values filtered to strings, under non-empty keys, if any remain. */
  function SanitizedIcons(source: map<string, Value>): (icons: map<string, seq<string>>)
    ensures forall p :: p in icons <==>
      p in source && p != "" && source[p].Arr? && AllStrings(source[p].items) != []
    ensures forall p :: p in icons ==> icons[p] == AllStrings(source[p].items) && icons[p] != []
  {
    map p | p in source && p != "" && source[p].Arr? && AllStrings(source[p].items) != [] :: AllStrings(source[p].items)
  }

  method SanitizeIconRecord(source: map<string, Value>) returns (sanitized: map<string, seq<string>>)
    ensures sanitized == SanitizedIcons(source)
  {
    sanitized := map[];
    var keys := source.Keys;
    while keys != {}
      invariant keys <= source.Keys
      invariant forall p :: p in sanitized <==> p in SanitizedIcons(source) && p !in keys
      invariant forall p :: p in sanitized ==> sanitized[p] == SanitizedIcons(source)[p]
      decreases keys
    {
      var key :| key in keys;
      keys := keys - {key};
      if |key| == 0 || !source[key].Arr? {
        continue;
      }
      var icons := FilterStrings(source[key].items);
      if |icons| > 0 {
        sanitized := sanitized[key := icons];
      }
    }
  }

  method FilterStrings(items: seq<Value>) returns (strings: seq<string>)
    ensures strings == AllStrings(items)
  {
    strings := [];
    var i := |items|;
    while i > 0
      invariant 0 <= i <= |items|
      invariant strings == AllStrings(items[i..])
    {
      i := i - 1;
      assert items[i..][1..] == items[i + 1..];
      if items[i].Str? {
        strings := [items[i].s] + strings;
      }
    }
  }

  /** A list of icons per provider as a stored value. */
  function AsRecord(icons: map<string, seq<string>>): map<string, Value> {
    map p | p in icons :: Arr(Strs(icons[p]))
  }

  /** A well-formed map is its own normalisation. */
  lemma NormalizedIconsOfWellFormed(icons: map<string, seq<string>>)
    requires WellFormedIcons(icons)
    ensures NormalizedIcons(AsRecord(icons)) == icons
  {
    forall p | p in icons
      ensures NormalizeRecent(Strs(icons[p]), RECENT_ICONS_PER_PROVIDER_LIMIT) == icons[p]
    {
      NonEmptyStringsOfClean(icons[p]);
      AddAllFresh([], icons[p]);
    }
  }

  // ----- comparisons -----

  /** `areArraysEqual(a, b)` */
  method AreArraysEqual(a: seq<string>, b: seq<string>) returns (equal: bool)
    ensures equal <==> a == b
  {
    if |a| != |b| {
      return false;
    }
    var index := 0;
    while index < |a|
      invariant index <= |a|
      invariant a[..index] == b[..index]
    {
      if a[index] != b[index] {
        return false;
      }
      index := index + 1;
    }
    assert a == a[..index] && b == b[..index];
    return true;
  }

  /**
   * `areIconMapsEqual(a, b)`: as many keys, and each list of `a` equal to the
   * list `b` has under that key, a missing key standing for the empty list.
   */
  predicate IconMapsEqual(a: map<string, seq<string>>, b: map<string, seq<string>>) {
    |a.Keys| == |b.Keys| && forall k :: k in a ==> a[k] == if k in b then b[k] else []
  }

  method AreIconMapsEqual(a: map<string, seq<string>>, b: map<string, seq<string>>) returns (equal: bool)
    ensures equal == IconMapsEqual(a, b)
  {
    if |a.Keys| != |b.Keys| {
      return false;
    }
    var keys := a.Keys;
    while keys != {}
      invariant keys <= a.Keys
      invariant forall k :: k in a && k !in keys ==> a[k] == if k in b then b[k] else []
      decreases keys
    {
      var key :| key in keys;
      var bList := if key in b then b[key] else [];
      var same := AreArraysEqual(a[key], bList);
      if !same {
        return false;
      }
      keys := keys - {key};
    }
    return true;
  }

  lemma SubsetSameSize<T>(a: set<T>, b: set<T>)
    requires a <= b && |a| == |b|
    ensures a == b
  {
    assert b == a + (b - a);
    assert |b - a| == 0;
  }

  /** On maps without empty lists, the comparison is equality. */
  lemma IconMapsEqualIsEquality(a: map<string, seq<string>>, b: map<string, seq<string>>)
    requires forall k :: k in a ==> a[k] != []
    ensures IconMapsEqual(a, b) <==> a == b
  {
    if IconMapsEqual(a, b) {
      assert a.Keys <= b.Keys;
      SubsetSameSize(a.Keys, b.Keys);
    }
  }

  /** `cloneIconMap(source)`: a copy with copied lists. */
  method CloneIconMap(source: map<string, seq<string>>) returns (clone: map<string, seq<string>>)
    ensures clone == source
  {
    clone := map[];
    var keys := source.Keys;
    while keys != {}
      invariant keys <= source.Keys
      invariant forall k :: k in clone <==> k in source && k !in keys
      invariant forall k :: k in clone ==> clone[k] == source[k]
      decreases keys
    {
      var key :| key in keys;
      clone := clone[key := source[key]];
      keys := keys - {key};
    }
  }

  /**
   * The notes half of hydration: the stored list normalised, and the stored
   * entry, rewritten only when normalising changed its string items.
   */
  method LoadNotes(stored: Value, limit: int) returns (normalized: seq<string>, written: Value)
    requires limit >= 1
    ensures normalized == NormalizeRecent(ItemsOf(stored), limit)
    ensures NoDup(normalized) && "" !in normalized && |normalized| <= limit
    ensures written == if normalized == AllStrings(ItemsOf(stored)) then stored else Arr(Strs(normalized))
  {
    var items := ItemsOf(stored);
    var storedList := FilterStrings(items);
    normalized := NormalizeRecentNotes(items, limit);
    NormalizeRecentValid(items, limit);
    var same := AreArraysEqual(normalized, storedList);
    written := if same then stored else Arr(Strs(normalized));
  }

  /**
   * The icon half of hydration: the stored record sanitised and normalised,
   * a copy of it, and the stored entry, rewritten only when normalising
   * changed the sanitised record.
   */
  method LoadIcons(stored: Value) returns (normalized: map<string, seq<string>>, clone: map<string, seq<string>>, written: Value)
    ensures var sanitized := SanitizedIcons(if stored.Obj? then stored.fields else map[]);
      && normalized == clone == NormalizedIcons(AsRecord(sanitized))
      && written == if IconMapsEqual(normalized, sanitized) then stored else Obj(AsRecord(normalized))
  {
    var storedRecord := if stored.Obj? then stored.fields else map[];
    var sanitized := SanitizeIconRecord(storedRecord);
    normalized := NormalizeRecentIconsMap(AsRecord(sanitized));
    clone := CloneIconMap(normalized);
    var same := AreIconMapsEqual(normalized, sanitized);
    written := if same then stored else Obj(AsRecord(normalized));
  }

  /**
   * The notes cache and its pending-write flag after the list `items` is set:
   * unchanged when it normalises to the cache, else the normalised list with a
   * write scheduled.
   */
  method UpdateNotes(cache: seq<string>, pending: bool, items: seq<Value>, limit: int)
    returns (cache': seq<string>, pending': bool)
    requires limit >= 1
    ensures var normalized := NormalizeRecent(items, limit);
      if normalized == cache then cache' == cache && pending' == pending
      else cache' == normalized && pending'
    ensures NoDup(cache') && "" !in cache' && |cache'| <= limit
  {
    var normalized := NormalizeRecentNotes(items, limit);
    NormalizeRecentValid(items, limit);
    var same := AreArraysEqual(normalized, cache);
    if same {
      return cache, pending;
    }
    return normalized, true;
  }

  /**
   * The notes cache and its pending-write flag after the cache is normalised
   * again under `limit`: a cache within the limit is kept, a longer one is cut
   * to its first `limit` entries with a write scheduled.
   */
  method ApplyLimit(cache: seq<string>, pending: bool, limit: int) returns (cache': seq<string>, pending': bool)
    requires limit >= 1 && NoDup(cache) && "" !in cache
    ensures NoDup(cache') && "" !in cache' && |cache'| <= limit
    ensures |cache| <= limit ==> cache' == cache && pending' == pending
    ensures |cache| > limit ==> cache' == cache[..limit] && pending'
  {
    NormalizeCleanList(cache, limit);
    if |cache| > limit {
      PrefixClean(cache, limit);
    }
    cache', pending' := UpdateNotes(cache, pending, Strs(cache), limit);
  }

  // ----- the service -----

  class RecentStorageService {
    var notesCache: seq<string>
    var iconsCache: map<string, seq<string>>
    /** Whether a delayed write of the notes (of the icons) is scheduled. */
    var notesPersistPending: bool
    var iconsPersistPending: bool
    var lastPersistedNotes: seq<string>
    var lastPersistedIcons: map<string, seq<string>>
    /** The local-storage entries for the recent notes and the recent icons. */
    var storedNotes: Value
    var storedIcons: Value
    /** `settings.recentNotesCount` when it is a number. */
    var recentNotesCount: Option<int>
    /** `RECENT_NOTES_DEFAULT_COUNT` */
    const defaultCount: int
    /** How many times `notifyChange` has been called. */
    var changeNotifications: nat

    ghost predicate Valid()
      reads this
    {
      && NoDup(notesCache) && "" !in notesCache
      && WellFormedIcons(iconsCache)
    }

    /** The icon half of the state: cache, pending flag, last write and stored entry. */
    function IconsSide(): (map<string, seq<string>>, bool, map<string, seq<string>>, Value)
      reads this
    {
      (iconsCache, iconsPersistPending, lastPersistedIcons, storedIcons)
    }

    /** The notes half of the state. */
    function NotesSide(): (seq<string>, bool, seq<string>, Value)
      reads this
    {
      (notesCache, notesPersistPending, lastPersistedNotes, storedNotes)
    }

    function Limit(): int
      reads this
    {
      RecentNotesLimit(recentNotesCount, defaultCount)
    }

    constructor(recentNotesCount: Option<int>, defaultCount: int, storedNotes: Value, storedIcons: Value)
      ensures Valid()
      ensures notesCache == [] && iconsCache == map[] && lastPersistedNotes == [] && lastPersistedIcons == map[]
      ensures !notesPersistPending && !iconsPersistPending && changeNotifications == 0
      ensures this.storedNotes == storedNotes && this.storedIcons == storedIcons
      ensures this.recentNotesCount == recentNotesCount && this.defaultCount == defaultCount
    {
      notesCache := [];
      iconsCache := map[];
      notesPersistPending := false;
      iconsPersistPending := false;
      lastPersistedNotes := [];
      lastPersistedIcons := map[];
      this.storedNotes := storedNotes;
      this.storedIcons := storedIcons;
      this.recentNotesCount := recentNotesCount;
      this.defaultCount := defaultCount;
      changeNotifications := 0;
    }

    /** `hydrateRecentNotes()`: loads the stored list, normalised, and writes it back if that changed it. */
    method HydrateRecentNotes()
      requires Valid()
      modifies this
      ensures Valid()
      ensures notesCache == lastPersistedNotes == NormalizeRecent(ItemsOf(old(storedNotes)), Limit())
      ensures storedNotes ==
        if notesCache == AllStrings(ItemsOf(old(storedNotes))) then old(storedNotes) else Arr(Strs(notesCache))
      ensures IconsSide() == old(IconsSide()) && notesPersistPending == old(notesPersistPending)
      ensures recentNotesCount == old(recentNotesCount) && changeNotifications == old(changeNotifications)
    {
      var limit := Limit();
      var normalized, written := LoadNotes(storedNotes, limit);
      notesCache, lastPersistedNotes, storedNotes := normalized, normalized, written;
      assert Limit() == limit;
    }

    /** `hydrateRecentIcons()`: loads the stored record, sanitised and normalised, and writes it back if that changed it. */
    method HydrateRecentIcons()
      requires Valid()
      modifies this
      ensures Valid()
      ensures var sanitized := SanitizedIcons(if old(storedIcons).Obj? then old(storedIcons).fields else map[]);
        && iconsCache == lastPersistedIcons == NormalizedIcons(AsRecord(sanitized))
        && storedIcons == if IconMapsEqual(iconsCache, sanitized) then old(storedIcons) else Obj(AsRecord(iconsCache))
      ensures NotesSide() == old(NotesSide()) && iconsPersistPending == old(iconsPersistPending)
      ensures recentNotesCount == old(recentNotesCount) && changeNotifications == old(changeNotifications)
    {
      var normalized, clone, written := LoadIcons(storedIcons);
      iconsCache := normalized;
      lastPersistedIcons := clone;
      storedIcons := written;
    }

    /** `hydrate()` */
    method Hydrate()
      requires Valid()
      modifies this
      ensures Valid()
      ensures notesCache == lastPersistedNotes == NormalizeRecent(ItemsOf(old(storedNotes)), Limit())
      ensures storedNotes ==
        if notesCache == AllStrings(ItemsOf(old(storedNotes))) then old(storedNotes) else Arr(Strs(notesCache))
      ensures var sanitized := SanitizedIcons(if old(storedIcons).Obj? then old(storedIcons).fields else map[]);
        && iconsCache == lastPersistedIcons == NormalizedIcons(AsRecord(sanitized))
        && storedIcons == if IconMapsEqual(iconsCache, sanitized) then old(storedIcons) else Obj(AsRecord(iconsCache))
      ensures notesPersistPending == old(notesPersistPending) && iconsPersistPending == old(iconsPersistPending)
      ensures recentNotesCount == old(recentNotesCount) && changeNotifications == old(changeNotifications)
    {
      HydrateRecentNotes();
      HydrateRecentIcons();
    }

    /** `getRecentNotes()` */
    method GetRecentNotes() returns (notes: seq<string>)
      ensures notes == notesCache
    {
      notes := notesCache;
    }

    /** `getRecentIcons()` */
    method GetRecentIcons() returns (icons: map<string, seq<string>>)
      ensures icons == iconsCache
    {
      icons := iconsCache;
    }

    /**
     * `setRecentNotes(recentNotes)`: an input whose normalisation equals the
     * cache changes nothing; otherwise the cache takes it and a write is scheduled.
     */
    method SetRecentNotes(recentNotes: seq<string>)
      requires Valid()
      modifies this
      ensures Valid()
      ensures var normalized := NormalizeRecent(Strs(recentNotes), Limit());
        if normalized == old(notesCache) then notesCache == old(notesCache) && notesPersistPending == old(notesPersistPending)
        else notesCache == normalized && notesPersistPending
      ensures |notesCache| <= Limit()
      ensures IconsSide() == old(IconsSide()) && lastPersistedNotes == old(lastPersistedNotes) && storedNotes == old(storedNotes)
      ensures recentNotesCount == old(recentNotesCount) && changeNotifications == old(changeNotifications)
    {
      var limit := Limit();
      var cache, pending := UpdateNotes(notesCache, notesPersistPending, Strs(recentNotes), limit);
      notesCache, notesPersistPending := cache, pending;
      assert Limit() == limit;
    }

    /** `setRecentIcons(recentIcons)`: the same for the icon map. */
    method SetRecentIcons(recentIcons: map<string, seq<string>>)
      requires Valid()
      modifies this
      ensures Valid()
      ensures var normalized := NormalizedIcons(AsRecord(recentIcons));
        if normalized == old(iconsCache) then iconsCache == old(iconsCache) && iconsPersistPending == old(iconsPersistPending)
        else iconsCache == normalized && iconsPersistPending
      ensures NotesSide() == old(NotesSide()) && lastPersistedIcons == old(lastPersistedIcons) && storedIcons == old(storedIcons)
      ensures recentNotesCount == old(recentNotesCount) && changeNotifications == old(changeNotifications)
    {
      var normalized := NormalizeRecentIconsMap(AsRecord(recentIcons));
      var same := AreIconMapsEqual(normalized, iconsCache);
      IconMapsEqualIsEquality(normalized, iconsCache);
      if same {
        return;
      }
      iconsCache := normalized;
      iconsPersistPending := true;
    }

    /** `applyRecentNotesLimit()`: re-normalises the cache against the current limit. */
    method ApplyRecentNotesLimit()
      requires Valid()
      modifies this
      ensures Valid()
      ensures |notesCache| <= Limit()
      ensures |notesCache| <= |old(notesCache)| && notesCache == old(notesCache)[..|notesCache|]
      ensures |old(notesCache)| <= Limit() ==> notesCache == old(notesCache) && notesPersistPending == old(notesPersistPending)
      ensures |old(notesCache)| > Limit() ==> notesCache == old(notesCache)[..Limit()] && notesPersistPending
      ensures IconsSide() == old(IconsSide()) && lastPersistedNotes == old(lastPersistedNotes) && storedNotes == old(storedNotes)
      ensures recentNotesCount == old(recentNotesCount) && changeNotifications == old(changeNotifications)
    {
      var limit := Limit();
      var cache, pending := ApplyLimit(notesCache, notesPersistPending, limit);
      notesCache, notesPersistPending := cache, pending;
      assert Limit() == limit;
    }

    /** `persistRecentNotesImmediately()`: writes only a cache that differs from the last write. */
    method PersistRecentNotesImmediately()
      modifies this
      ensures lastPersistedNotes == notesCache == old(notesCache)
      ensures storedNotes == if old(notesCache) == old(lastPersistedNotes) then old(storedNotes) else Arr(Strs(notesCache))
      ensures changeNotifications == old(changeNotifications) + if old(notesCache) == old(lastPersistedNotes) then 0 else 1
      ensures IconsSide() == old(IconsSide()) && notesPersistPending == old(notesPersistPending)
      ensures recentNotesCount == old(recentNotesCount)
    {
      var same := AreArraysEqual(notesCache, lastPersistedNotes);
      if same {
        return;
      }
      var snapshot := notesCache;
      storedNotes := Arr(Strs(snapshot));
      lastPersistedNotes := snapshot;
      changeNotifications := changeNotifications + 1;
    }

    /** `persistRecentIconsImmediately()` */
    method PersistRecentIconsImmediately()
      requires Valid()
      modifies this
      ensures lastPersistedIcons == iconsCache == old(iconsCache)
      ensures storedIcons == if old(iconsCache) == old(lastPersistedIcons) then old(storedIcons) else Obj(AsRecord(iconsCache))
      ensures changeNotifications == old(changeNotifications) + if old(iconsCache) == old(lastPersistedIcons) then 0 else 1
      ensures NotesSide() == old(NotesSide()) && iconsPersistPending == old(iconsPersistPending)
      ensures recentNotesCount == old(recentNotesCount)
    {
      var same := AreIconMapsEqual(iconsCache, lastPersistedIcons);
      IconMapsEqualIsEquality(iconsCache, lastPersistedIcons);
      if same {
        return;
      }
      var snapshot := CloneIconMap(iconsCache);
      storedIcons := Obj(AsRecord(snapshot));
      lastPersistedIcons := snapshot;
      changeNotifications := changeNotifications + 1;
    }

    /** The delayed notes write firing (the timer and the idle callback together). */
    method OnNotesPersistTimer()
      requires Valid() && notesPersistPending
      modifies this
      ensures Valid()
      ensures !notesPersistPending && lastPersistedNotes == notesCache == old(notesCache)
      ensures storedNotes == if old(notesCache) == old(lastPersistedNotes) then old(storedNotes) else Arr(Strs(notesCache))
      ensures changeNotifications == old(changeNotifications) + if old(notesCache) == old(lastPersistedNotes) then 0 else 1
      ensures IconsSide() == old(IconsSide()) && recentNotesCount == old(recentNotesCount)
    {
      notesPersistPending := false;
      PersistRecentNotesImmediately();
    }

    /** The delayed icons write firing. */
    method OnIconsPersistTimer()
      requires Valid() && iconsPersistPending
      modifies this
      ensures !iconsPersistPending && lastPersistedIcons == iconsCache == old(iconsCache)
      ensures Valid()
      ensures storedIcons == if old(iconsCache) == old(lastPersistedIcons) then old(storedIcons) else Obj(AsRecord(iconsCache))
      ensures changeNotifications == old(changeNotifications) + if old(iconsCache) == old(lastPersistedIcons) then 0 else 1
      ensures NotesSide() == old(NotesSide()) && recentNotesCount == old(recentNotesCount)
    {
      iconsPersistPending := false;
      PersistRecentIconsImmediately();
    }

    /** `flushPendingPersists()`: cancels both timers and writes whatever differs now. */
    method FlushPendingPersists()
      requires Valid()
      modifies this
      ensures Valid()
      ensures !notesPersistPending && !iconsPersistPending
      ensures lastPersistedNotes == notesCache == old(notesCache) && lastPersistedIcons == iconsCache == old(iconsCache)
      ensures storedNotes == if old(notesCache) == old(lastPersistedNotes) then old(storedNotes) else Arr(Strs(notesCache))
      ensures storedIcons == if old(iconsCache) == old(lastPersistedIcons) then old(storedIcons) else Obj(AsRecord(iconsCache))
      ensures changeNotifications == old(changeNotifications)
        + (if old(notesCache) == old(lastPersistedNotes) then 0 else 1)
        + (if old(iconsCache) == old(lastPersistedIcons) then 0 else 1)
      ensures recentNotesCount == old(recentNotesCount)
    {
      notesPersistPending := false;
      iconsPersistPending := false;
      PersistRecentNotesImmediately();
      PersistRecentIconsImmediately();
    }
  }

  /**
   * What hydration writes back reads back unchanged: hydrating the written
   * notes list again (with the same limit) writes nothing.
   */
  lemma HydratedNotesAreStable(stored: Value, limit: int)
    requires limit >= 1
    ensures var normalized := NormalizeRecent(ItemsOf(stored), limit);
      && NormalizeRecent(ItemsOf(Arr(Strs(normalized))), limit) == normalized
      && AllStrings(ItemsOf(Arr(Strs(normalized)))) == normalized
  {
    var normalized := NormalizeRecent(ItemsOf(stored), limit);
    NormalizeRecentIdempotent(ItemsOf(stored), limit);
    AllStringsOfStrs(normalized);
  }

  lemma AllStringsOfStrs(xs: seq<string>)
    ensures AllStrings(Strs(xs)) == xs
    decreases |xs|
  {
    if |xs| > 0 {
      assert Strs(xs)[1..] == Strs(xs[1..]);
      AllStringsOfStrs(xs[1..]);
      assert xs == [xs[0]] + xs[1..];
    }
  }
}

=== FILE: release_check.dfy ===
/**
 * The release check: at most once every six hours (unless forced) the
 * latest published release is fetched, remembered in the settings, and
 * announced when it is newer than the running version and not announced
 * before.
 */
module ReleaseCheck {
  import opened Wrappers
  import opened Text

  /** The minimum time between two checks: six hours, in milliseconds. */
  const CHECK_INTERVAL_MS: int := 6 * 60 * 60 * 1000

  /** `ReleaseUpdateNotice`: a newer release to announce. */
  datatype ReleaseNotice = ReleaseNotice(version: string, publishedAt: string, url: string)

  /** The settings the check reads and writes; `None` is an unset setting. */
  datatype ReleaseSettings = ReleaseSettings(
    lastReleaseCheckAt: Option<int>,
    latestKnownRelease: Option<string>,
    lastAnnouncedRelease: Option<string>)

  /** The release payload; a missing `tag_name` or `published_at` is `None`. */
  datatype ReleaseJson = ReleaseJson(
    tagName: Option<string>,
    htmlUrl: string,
    publishedAt: Option<string>,
    draft: bool,
    prerelease: bool)

  /** The HTTP response: its status and its JSON body, `None` when that is missing. */
  datatype HttpResponse = HttpResponse(status: int, json: Option<ReleaseJson>)

  /** What the request gave: a response, or an exception (no network, say). */
  datatype FetchOutcome = Responded(response: HttpResponse) | RequestFailed

  /** What `fetchLatestRelease` gives: a release or `null`, or an exception. */
  datatype FetchResult = Fetched(release: Option<ReleaseNotice>) | FetchThrew

  predicate IsV(ch: char) {
    ch == 'v' || ch == 'V'
  }

  /** `normalizeVersion(tag)`: one leading `v` or `V` removed, then trimmed. */
  function NormalizeVersion(tag: string): string {
    Trim(if |tag| > 0 && IsV(tag[0]) then tag[1..] else tag)
  }

  /** `fetchLatestRelease()` applied to the outcome of the request. */
  function FetchLatestRelease(outcome: FetchOutcome): FetchResult {
    if outcome.RequestFailed? then FetchThrew
    else if outcome.response.status != 200 || outcome.response.json.None? then Fetched(None)
    else
      var json := outcome.response.json.value;
      if json.draft || json.prerelease then Fetched(None)
      // `undefined.replace` throws
      else if json.tagName.None? then FetchThrew
      else
        var cleanVersion := NormalizeVersion(json.tagName.value);
        if cleanVersion == "" then Fetched(None)
        else Fetched(Some(ReleaseNotice(cleanVersion, json.publishedAt.GetOr(""), json.htmlUrl)))
  }

  /** `settings.lastReleaseCheckAt ?? 0` */
  function LastCheck(settings: ReleaseSettings): int {
    settings.lastReleaseCheckAt.GetOr(0)
  }

  /** Whether a check is due: forced, never checked (a last check of 0 counts as never), or six hours have passed. */
  predicate CheckDue(settings: ReleaseSettings, now: int, force: bool) {
    force || LastCheck(settings) == 0 || now - LastCheck(settings) >= CHECK_INTERVAL_MS
  }

  /** The new settings, the new notice and whether to save, after a check whose fetch returned. */
  datatype CheckResult = CheckResult(settings: ReleaseSettings, notice: Option<ReleaseNotice>, save: bool)

  /**
   * The part of `checkForUpdates` after the fetch returned `release`;
   * `lastCheck` is the last check time read before the fetch and `compare`
   * is `compareVersions`.
   */
  function CompleteCheck(settings: ReleaseSettings, lastCheck: int, now: int, release: Option<ReleaseNotice>,
                         compare: (string, string) -> int, currentVersion: string): CheckResult
  {
    var knownChanged := release.Some? && settings.latestKnownRelease != Some(release.value.version);
    var updated := ReleaseSettings(
      Some(now),
      if knownChanged then Some(release.value.version) else settings.latestKnownRelease,
      settings.lastAnnouncedRelease);
    var notice :=
      if release.Some? && compare(release.value.version, currentVersion) > 0
         && settings.lastAnnouncedRelease != Some(release.value.version)
      then release
      else None;
    CheckResult(updated, notice, knownChanged || now != lastCheck)
  }

  /** `ReleaseCheckService` */
  class ReleaseCheckService {
    var pendingNotice: Option<ReleaseNotice>
    var isChecking: bool
    /** The plugin settings the service uses. */
    var settings: ReleaseSettings
    /** The number of times the settings were saved. */
    var saves: nat
    /** The running plugin's version (`manifest.version`). */
    const currentVersion: string

    constructor (initial: ReleaseSettings, version: string)
      ensures pendingNotice == None && !isChecking && settings == initial && saves == 0
      ensures currentVersion == version
    {
      pendingNotice := None;
      isChecking := false;
      settings := initial;
      saves := 0;
      currentVersion := version;
    }

    /** `getPendingNotice()` */
    method GetPendingNotice() returns (notice: Option<ReleaseNotice>)
      ensures notice == pendingNotice
    {
      notice := pendingNotice;
    }

    /** `clearPendingNotice()`: forgets the notice and nothing else. */
    method ClearPendingNotice()
      modifies this
      ensures pendingNotice == None
      ensures isChecking == old(isChecking) && settings == old(settings) && saves == old(saves)
    {
      pendingNotice := None;
    }

    /**
     * The start of `checkForUpdates`, up to the fetch: a check already under
     * way or a check that is not due returns the pending notice; otherwise
     * the check starts and `proceed` is set.
     */
    method BeginCheck(now: int, force: bool) returns (proceed: bool, notice: Option<ReleaseNotice>)
      modifies this
      ensures proceed <==> !old(isChecking) && CheckDue(settings, now, force)
      ensures !proceed ==> notice == pendingNotice && isChecking == old(isChecking)
      ensures proceed ==> isChecking
      ensures pendingNotice == old(pendingNotice) && settings == old(settings) && saves == old(saves)
    {
      if isChecking {
        return false, pendingNotice;
      }
      var lastCheck := LastCheck(settings);
      if !force && lastCheck != 0 && now - lastCheck < CHECK_INTERVAL_MS {
        return false, pendingNotice;
      }
      isChecking := true;
      return true, None;
    }

    /**
     * The rest of `checkForUpdates`, once the fetch has finished: a thrown
     * fetch leaves the notice and the settings as they were; otherwise the
     * settings, the notice and the save follow `CompleteCheck`. Either way
     * the check is over.
     */
    method FinishCheck(lastCheck: int, now: int, fetched: FetchResult, compare: (string, string) -> int)
      returns (notice: Option<ReleaseNotice>)
      modifies this
      ensures !isChecking && notice == pendingNotice
      ensures fetched.FetchThrew? ==>
        pendingNotice == old(pendingNotice) && settings == old(settings) && saves == old(saves)
      ensures fetched.Fetched? ==>
        var r := CompleteCheck(old(settings), lastCheck, now, fetched.release, compare, currentVersion);
        && settings == r.settings && pendingNotice == r.notice
        && saves == old(saves) + (if r.save then 1 else 0)
    {
      if fetched.Fetched? {
        var r := CompleteCheck(settings, lastCheck, now, fetched.release, compare, currentVersion);
        settings := r.settings;
        pendingNotice := r.notice;
        if r.save {
          saves := saves + 1;
        }
      }
      isChecking := false;
      notice := pendingNotice;
    }

    /** `checkForUpdates(force)`, with the clock, the request and `compareVersions` as parameters. */
    method CheckForUpdates(now: int, force: bool, outcome: FetchOutcome, compare: (string, string) -> int)
      returns (notice: Option<ReleaseNotice>)
      modifies this
      ensures isChecking == old(isChecking)
      ensures old(isChecking) || !CheckDue(old(settings), now, force) ==>
        notice == pendingNotice == old(pendingNotice) && settings == old(settings) && saves == old(saves)
      ensures !old(isChecking) && CheckDue(old(settings), now, force) && FetchLatestRelease(outcome).Fetched? ==>
        var r := CompleteCheck(old(settings), LastCheck(old(settings)), now, FetchLatestRelease(outcome).release,
                               compare, currentVersion);
        && settings == r.settings && notice == pendingNotice == r.notice
        && saves == old(saves) + (if r.save then 1 else 0)
      ensures FetchLatestRelease(outcome).FetchThrew? ==>
        notice == pendingNotice == old(pendingNotice) && settings == old(settings) && saves == old(saves)
    {
      var proceed;
      proceed, notice := BeginCheck(now, force);
      if !proceed {
        return;
      }
      var lastCheck := LastCheck(settings);
      notice := FinishCheck(lastCheck, now, FetchLatestRelease(outcome), compare);
    }
  }

  /** A normalised version has no whitespace at either end. */
  lemma NormalizeVersionTrimmed(tag: string)
    ensures var r := NormalizeVersion(tag);
      r == "" || (!IsWhitespace(r[0]) && !IsWhitespace(r[|r| - 1]))
  {
  }

  /** Normalising again changes nothing, unless the version itself starts with another `v`. */
  lemma NormalizeVersionStable(tag: string)
    requires NormalizeVersion(tag) == "" || !IsV(NormalizeVersion(tag)[0])
    ensures NormalizeVersion(NormalizeVersion(tag)) == NormalizeVersion(tag)
  {
    TrimIdempotent(if |tag| > 0 && IsV(tag[0]) then tag[1..] else tag);
  }

  /** Exactly one leading `v` or `V` is dropped before trimming. */
  lemma NormalizeVersionDropsV(v: char, rest: string)
    requires IsV(v)
    ensures NormalizeVersion([v] + rest) == Trim(rest)
  {
    assert ([v] + rest)[1..] == rest;
  }

  /** A tag without a leading `v` or `V` is only trimmed. */
  lemma NormalizeVersionNoV(tag: string)
    requires |tag| == 0 || !IsV(tag[0])
    ensures NormalizeVersion(tag) == Trim(tag)
  {
  }

  /** The response gives a release to consider: a 200 with a body that is neither a draft nor a prerelease. */
  predicate Publishable(outcome: FetchOutcome) {
    && outcome.Responded? && outcome.response.status == 200 && outcome.response.json.Some?
    && !outcome.response.json.value.draft && !outcome.response.json.value.prerelease
  }

  /**
   * A release is found exactly when the response is publishable and its tag
   * normalises to a non-empty version; the notice carries that version, the
   * publication date (`""` when missing) and the page's URL.
   */
  lemma FetchLatestReleaseFound(outcome: FetchOutcome)
    ensures FetchLatestRelease(outcome).Fetched? && FetchLatestRelease(outcome).release.Some? <==>
      && Publishable(outcome) && outcome.response.json.value.tagName.Some?
      && NormalizeVersion(outcome.response.json.value.tagName.value) != ""
    ensures FetchLatestRelease(outcome).Fetched? && FetchLatestRelease(outcome).release.Some? ==>
      var json := outcome.response.json.value;
      FetchLatestRelease(outcome).release.value ==
        ReleaseNotice(NormalizeVersion(json.tagName.value), json.publishedAt.GetOr(""), json.htmlUrl)
  {
    if Publishable(outcome) && outcome.response.json.value.tagName.Some? {
      var json := outcome.response.json.value;
      var cleanVersion := NormalizeVersion(json.tagName.value);
      assert FetchLatestRelease(outcome) ==
        if cleanVersion == "" then Fetched(None)
        else Fetched(Some(ReleaseNotice(cleanVersion, json.publishedAt.GetOr(""), json.htmlUrl)));
    }
  }

  /** The fetch throws exactly when the request fails or a publishable body has no tag. */
  lemma FetchLatestReleaseThrows(outcome: FetchOutcome)
    ensures FetchLatestRelease(outcome).FetchThrew? <==>
      outcome.RequestFailed? || (Publishable(outcome) && outcome.response.json.value.tagName.None?)
  {
  }

  /** Within six hours of a recorded check, an unforced check is not due. */
  lemma RateLimited(settings: ReleaseSettings, now: int)
    requires settings.lastReleaseCheckAt.Some? && settings.lastReleaseCheckAt.value != 0
    requires now - settings.lastReleaseCheckAt.value < 21600000
    ensures !CheckDue(settings, now, false)
    ensures CheckDue(settings, now, true)
  {
  }

  /**
   * After a fetch that returned: the check time is `now`; the latest known
   * release becomes the fetched version when there is one; the announced
   * release is untouched; a notice is pending exactly when the fetched
   * version is newer than the running one and was not announced before; and
   * the settings are saved exactly when the known release or the check time
   * changed.
   */
  lemma CompleteCheckSpec(settings: ReleaseSettings, lastCheck: int, now: int, release: Option<ReleaseNotice>,
                          compare: (string, string) -> int, currentVersion: string)
    ensures var r := CompleteCheck(settings, lastCheck, now, release, compare, currentVersion);
      && r.settings.lastReleaseCheckAt == Some(now)
      && r.settings.latestKnownRelease == (if release.Some? then Some(release.value.version) else settings.latestKnownRelease)
      && r.settings.lastAnnouncedRelease == settings.lastAnnouncedRelease
      && (r.notice.Some? <==> release.Some? && compare(release.value.version, currentVersion) > 0
                              && settings.lastAnnouncedRelease != Some(release.value.version))
      && (r.notice.Some? ==> r.notice == release)
      && (r.save <==> r.settings.latestKnownRelease != settings.latestKnownRelease || now != lastCheck)
  {
  }

  /** A release already announced is never announced again. */
  lemma NoRepeatAnnouncement(settings: ReleaseSettings, lastCheck: int, now: int, release: ReleaseNotice,
                             compare: (string, string) -> int, currentVersion: string)
    requires settings.lastAnnouncedRelease == Some(release.version)
    ensures CompleteCheck(settings, lastCheck, now, Some(release), compare, currentVersion).notice.None?
  {
  }
}

=== FILE: root_topic_order.dfy ===
/**
 * The user's custom order of root topics, normalised against the roots that
 * currently exist: unknown names are reported as missing, and roots the order
 * does not mention yet are appended, sorted by the fallback comparator.
 */
module RootTopicOrder {
  import opened Wrappers
  import opened OrderedSets
  import opened Sorting
  import opened TopicGraph

  // ----- specification -----

  /** The names of the stored order that are kept: non-empty, first occurrence only, in order. */
  function KeptNames(existing: seq<string>): (kept: seq<string>)
    ensures NoDup(kept)
    ensures forall x :: x in kept <==> x in existing && x != ""
  {
    if |existing| == 0 then []
    else
      var kept := KeptNames(existing[..|existing| - 1]);
      var x := existing[|existing| - 1];
      assert forall y :: y in existing <==> y in existing[..|existing| - 1] || y == x;
      if x == "" || x in kept then kept else kept + [x]
  }

  /** The elements of `s` not in `names`, in order. */
  function Without(s: seq<string>, names: set<string>): (r: seq<string>)
    ensures forall x :: x in r <==> x in s && x !in names
  {
    if |s| == 0 then []
    else
      var r := Without(s[..|s| - 1], names);
      assert forall y :: y in s <==> y in s[..|s| - 1] || y == s[|s| - 1];
      if s[|s| - 1] in names then r else r + [s[|s| - 1]]
  }

  function NamesOf(nodes: seq<Node>): (names: set<string>)
    ensures forall i :: 0 <= i < |nodes| ==> nodes[i].name in names
  {
    set n | n in nodes :: n.name
  }

  /** The nodes whose names are not in `seen`, in order. */
  function Unseen(nodes: seq<Node>, seen: seq<string>): (r: seq<Node>)
    ensures forall n :: n in r <==> n in nodes && n.name !in seen
  {
    if |nodes| == 0 then []
    else
      var r := Unseen(nodes[..|nodes| - 1], seen);
      var n := nodes[|nodes| - 1];
      assert forall m :: m in nodes <==> m in nodes[..|nodes| - 1] || m == n;
      if n.name in seen then r else r + [n]
  }

  function Names(nodes: seq<Node>): (r: seq<string>)
    ensures |r| == |nodes| && forall i :: 0 <= i < |nodes| ==> r[i] == nodes[i].name
  {
    seq(|nodes|, i requires 0 <= i < |nodes| => nodes[i].name)
  }

  /** The order `normalizeRootTopicOrder` computes. */
  function NormalizedOrder(existing: seq<string>, nodes: seq<Node>, cmp: (Node, Node) -> int): seq<string> {
    var kept := KeptNames(existing);
    AddAll(kept, Names(SortBy(Unseen(nodes, kept), cmp)))
  }

  /** The missing names `normalizeRootTopicOrder` reports. */
  function MissingNames(existing: seq<string>, nodes: seq<Node>): seq<string> {
    Without(KeptNames(existing), NamesOf(nodes))
  }

  // ----- normalizeRootTopicOrder -----

  /** `normalizeRootTopicOrder(existingOrder, nodes, fallbackComparator)`. */
  method NormalizeRootTopicOrder(existingOrder: seq<string>, nodes: seq<Node>, cmp: (Node, Node) -> int)
    returns (normalizedOrder: seq<string>, missingNames: seq<string>)
    ensures normalizedOrder == NormalizedOrder(existingOrder, nodes, cmp)
    ensures missingNames == MissingNames(existingOrder, nodes)
  {
    var nodeNames := NodeNameSet(nodes);
    var seen: set<string>;
    normalizedOrder, missingNames, seen := KeepExisting(existingOrder, nodeNames);
    var appended := AppendedNodes(nodes, seen, cmp);
    normalizedOrder := AppendNew(normalizedOrder, seen, appended);
  }

  /** The keys of `nodeMap`. */
  method NodeNameSet(nodes: seq<Node>) returns (nodeNames: set<string>)
    ensures nodeNames == NamesOf(nodes)
  {
    nodeNames := {};
    var k := 0;
    while k < |nodes|
      invariant 0 <= k <= |nodes|
      invariant nodeNames == NamesOf(nodes[..k])
    {
      assert nodes[..k + 1] == nodes[..k] + [nodes[k]];
      nodeNames := nodeNames + {nodes[k].name};
      k := k + 1;
    }
    assert nodes[..k] == nodes;
  }

  /** The first loop: keeps the non-empty names of the stored order once each, noting those without a node. */
  method KeepExisting(existingOrder: seq<string>, nodeNames: set<string>)
    returns (normalizedOrder: seq<string>, missingNames: seq<string>, seen: set<string>)
    ensures normalizedOrder == KeptNames(existingOrder)
    ensures missingNames == Without(normalizedOrder, nodeNames)
    ensures forall x :: x in seen <==> x in normalizedOrder
  {
    seen := {};
    normalizedOrder := [];
    missingNames := [];
    var i := 0;
    while i < |existingOrder|
      invariant 0 <= i <= |existingOrder|
      invariant normalizedOrder == KeptNames(existingOrder[..i])
      invariant missingNames == Without(normalizedOrder, nodeNames)
      invariant forall x :: x in seen <==> x in normalizedOrder
    {
      var name := existingOrder[i];
      assert existingOrder[..i + 1][..i] == existingOrder[..i];
      if name != "" && name !in seen {
        seen := seen + {name};
        normalizedOrder := normalizedOrder + [name];
        if name !in nodeNames {
          missingNames := missingNames + [name];
        }
      }
      i := i + 1;
    }
    assert existingOrder[..i] == existingOrder;
  }

  /** The second loop: appends the name of each sorted node not seen yet. */
  method AppendNew(kept: seq<string>, seen: set<string>, appended: seq<Node>) returns (normalizedOrder: seq<string>)
    requires forall x :: x in seen <==> x in kept
    ensures normalizedOrder == AddAll(kept, Names(appended))
  {
    normalizedOrder := kept;
    var seen' := seen;
    ghost var names := Names(appended);
    var j := 0;
    while j < |appended|
      invariant 0 <= j <= |appended|
      invariant AddAll(normalizedOrder, names[j..]) == AddAll(kept, names)
      invariant forall x :: x in seen' <==> x in normalizedOrder
    {
      var name := appended[j].name;
      AddAllStep(normalizedOrder, names, j);
      if name !in seen' {
        seen' := seen' + {name};
        normalizedOrder := normalizedOrder + [name];
      }
      j := j + 1;
    }
    AddAllDone(normalizedOrder, names);
  }

  /** `nodes.filter(node => !seen.has(node.name)).slice().sort(fallbackComparator)`. */
  method AppendedNodes(nodes: seq<Node>, seen: set<string>, cmp: (Node, Node) -> int) returns (sorted: seq<Node>)
    ensures forall kept: seq<string> :: (forall x :: x in seen <==> x in kept) ==> sorted == SortBy(Unseen(nodes, kept), cmp)
  {
    var unseen: seq<Node> := [];
    var i := 0;
    while i < |nodes|
      invariant 0 <= i <= |nodes|
      invariant forall kept: seq<string> :: (forall x :: x in seen <==> x in kept) ==> unseen == Unseen(nodes[..i], kept)
    {
      assert nodes[..i + 1][..i] == nodes[..i];
      if nodes[i].name !in seen {
        unseen := unseen + [nodes[i]];
      }
      i := i + 1;
    }
    assert nodes[..i] == nodes;
    var a := new Node[|unseen|](k requires 0 <= k < |unseen| => unseen[k]);
    assert a[..] == unseen;
    SortInPlace(a, cmp);
    sorted := a[..];
  }

  // ----- properties of the normalised order -----

  /** The normalised order has no duplicates and starts with the kept names, none of them empty. */
  lemma NormalizedPrefix(existing: seq<string>, nodes: seq<Node>, cmp: (Node, Node) -> int)
    ensures var order, kept := NormalizedOrder(existing, nodes, cmp), KeptNames(existing);
      && NoDup(order)
      && |kept| <= |order| && order[..|kept|] == kept
      && forall i :: 0 <= i < |kept| ==> kept[i] != "" && kept[i] in existing
  {
    var kept := KeptNames(existing);
    assert forall i :: 0 <= i < |kept| ==> kept[i] in kept;
  }

  /** `missingNames` lists the kept names that no node carries, and nothing else. */
  lemma MissingNamesSpec(existing: seq<string>, nodes: seq<Node>)
    ensures forall x :: x in MissingNames(existing, nodes) <==>
      x in existing && x != "" && forall n :: n in nodes ==> n.name != x
  {
  }

  /** Every node's name appears in the normalised order. */
  lemma NormalizedCoversNodes(existing: seq<string>, nodes: seq<Node>, cmp: (Node, Node) -> int)
    ensures forall n :: n in nodes ==> n.name in NormalizedOrder(existing, nodes, cmp)
  {
    var kept := KeptNames(existing);
    var unseen := Unseen(nodes, kept);
    var sorted := SortBy(unseen, cmp);
    SortByPermutes(unseen, cmp);
    forall n | n in nodes && n.name !in kept
      ensures n.name in NormalizedOrder(existing, nodes, cmp)
    {
      assert n in multiset(sorted);
      var i :| 0 <= i < |sorted| && sorted[i] == n;
      assert Names(sorted)[i] == n.name;
    }
  }

  /** No two nodes share a name. */
  ghost predicate DistinctNames(nodes: seq<Node>) {
    forall i, j :: 0 <= i < j < |nodes| ==> nodes[i].name != nodes[j].name
  }

  lemma {:induction false} UnseenDistinct(nodes: seq<Node>, seen: seq<string>)
    requires DistinctNames(nodes)
    ensures DistinctNames(Unseen(nodes, seen))
    decreases |nodes|
  {
    if |nodes| > 0 {
      var init := nodes[..|nodes| - 1];
      assert DistinctNames(init) by {
        assert forall i :: 0 <= i < |init| ==> init[i] == nodes[i];
      }
      UnseenDistinct(init, seen);
      var n := nodes[|nodes| - 1];
      var r := Unseen(init, seen);
      forall m | m in r
        ensures m.name != n.name
      {
        var i :| 0 <= i < |init| && init[i] == m;
        assert nodes[i] == m;
      }
    }
  }

  /** An element found at two positions is counted twice. */
  lemma TwiceCounted<T>(s: seq<T>, i: nat, j: nat)
    requires i < j < |s| && s[i] == s[j]
    ensures multiset(s)[s[i]] >= 2
  {
    assert s == s[..j] + [s[j]] + s[j + 1..];
    assert s[i] in s[..j];
  }

  /** An element counted twice is found at two positions. */
  lemma CountedTwice<T>(s: seq<T>, x: T) returns (i: nat, j: nat)
    requires multiset(s)[x] >= 2
    ensures i < j < |s| && s[i] == x && s[j] == x
  {
    assert x in multiset(s);
    i :| 0 <= i < |s| && s[i] == x;
    assert s == s[..i] + [s[i]] + s[i + 1..];
    if x in s[..i] {
      var k :| 0 <= k < i && s[..i][k] == x;
      i, j := k, i;
    } else {
      assert x in multiset(s[i + 1..]);
      var k :| 0 <= k < |s[i + 1..]| && s[i + 1..][k] == x;
      j := i + 1 + k;
    }
  }

  /** Reordering keeps names distinct. */
  lemma PermutationDistinct(u: seq<Node>, v: seq<Node>)
    requires multiset(u) == multiset(v) && DistinctNames(u)
    ensures DistinctNames(v)
  {
    forall i, j | 0 <= i < j < |v|
      ensures v[i].name != v[j].name
    {
      if v[i] == v[j] {
        TwiceCounted(v, i, j);
        var p, q := CountedTwice(u, v[i]);
      } else {
        assert v[i] in multiset(u) && v[j] in multiset(u);
        var p :| 0 <= p < |u| && u[p] == v[i];
        var q :| 0 <= q < |u| && u[q] == v[j];
      }
    }
  }

  lemma NamesDistinct(nodes: seq<Node>)
    requires DistinctNames(nodes)
    ensures NoDup(Names(nodes))
  {
  }

  /**
   * With distinct node names, the normalised order is the kept names followed by
   * the names of the remaining nodes in the comparator's order.
   */
  lemma NormalizedAppendsSorted(existing: seq<string>, nodes: seq<Node>, cmp: (Node, Node) -> int)
    requires DistinctNames(nodes) && Comparator(cmp)
    ensures var kept := KeptNames(existing);
      var sorted := SortBy(Unseen(nodes, kept), cmp);
      && NormalizedOrder(existing, nodes, cmp) == kept + Names(sorted)
      && SortedBy(sorted, cmp)
      && multiset(sorted) == multiset(Unseen(nodes, kept))
  {
    var kept := KeptNames(existing);
    var unseen := Unseen(nodes, kept);
    var sorted := SortBy(unseen, cmp);
    SortByPermutes(unseen, cmp);
    SortBySorted(unseen, cmp);
    UnseenDistinct(nodes, kept);
    PermutationDistinct(unseen, sorted);
    NamesDistinct(sorted);
    forall x | x in Names(sorted)
      ensures x !in kept
    {
      var i :| 0 <= i < |sorted| && Names(sorted)[i] == x;
      assert sorted[i] in multiset(unseen);
    }
    AddAllFresh(kept, Names(sorted));
  }

  /** A duplicate-free order without empty names is kept whole. */
  lemma {:induction false} KeptNamesOfClean(s: seq<string>)
    requires NoDup(s) && "" !in s
    ensures KeptNames(s) == s
    decreases |s|
  {
    if |s| > 0 {
      var init := s[..|s| - 1];
      assert NoDup(init) && "" !in init by {
        assert forall i :: 0 <= i < |init| ==> init[i] == s[i];
      }
      KeptNamesOfClean(init);
      assert s[|s| - 1] !in init;
      assert init + [s[|s| - 1]] == s;
    }
  }

  /** With non-empty node names, the normalised order holds no empty name. */
  lemma NormalizedNoEmpty(existing: seq<string>, nodes: seq<Node>, cmp: (Node, Node) -> int)
    requires forall n :: n in nodes ==> n.name != ""
    ensures "" !in NormalizedOrder(existing, nodes, cmp)
  {
    var kept := KeptNames(existing);
    var sorted := SortBy(Unseen(nodes, kept), cmp);
    SortByPermutes(Unseen(nodes, kept), cmp);
    forall i | 0 <= i < |Names(sorted)|
      ensures Names(sorted)[i] != ""
    {
      assert sorted[i] in multiset(Unseen(nodes, kept));
    }
  }

  /** Once every node's name is seen, no node remains to append. */
  lemma NothingUnseen(nodes: seq<Node>, seen: seq<string>, cmp: (Node, Node) -> int)
    requires forall n :: n in nodes ==> n.name in seen
    ensures Names(SortBy(Unseen(nodes, seen), cmp)) == []
  {
    var u := Unseen(nodes, seen);
    assert forall n :: n !in u;
  }

  /** With non-empty node names, normalising a normalised order changes nothing. */
  lemma NormalizeIdempotent(existing: seq<string>, nodes: seq<Node>, cmp: (Node, Node) -> int)
    requires forall n :: n in nodes ==> n.name != ""
    ensures var order := NormalizedOrder(existing, nodes, cmp);
      NormalizedOrder(order, nodes, cmp) == order
  {
    var order := NormalizedOrder(existing, nodes, cmp);
    NormalizedPrefix(existing, nodes, cmp);
    NormalizedNoEmpty(existing, nodes, cmp);
    KeptNamesOfClean(order);
    NormalizedCoversNodes(existing, nodes, cmp);
    NothingUnseen(nodes, order, cmp);
    assert AddAll(order, []) == order;
  }

  // ----- the hook -----

  /** The nodes of the topic map that have no parents, in the map's order. */
  function RootTopicNodes(topicGraph: Option<seq<Node>>): (roots: seq<Node>)
    ensures forall n :: n in roots <==> topicGraph.Some? && n in topicGraph.value && n.parents == []
  {
    if topicGraph.None? then [] else ParentlessNodes(topicGraph.value)
  }

  function ParentlessNodes(nodes: seq<Node>): (r: seq<Node>)
    ensures forall n :: n in r <==> n in nodes && n.parents == []
    ensures |r| <= |nodes|
  {
    if |nodes| == 0 then []
    else
      var r := ParentlessNodes(nodes[..|nodes| - 1]);
      var n := nodes[|nodes| - 1];
      assert forall m :: m in nodes <==> m in nodes[..|nodes| - 1] || m == n;
      if n.parents == [] then r + [n] else r
  }

  /** The positions in `nodes` of its parentless nodes, in ascending order. */
  function ParentlessIndices(nodes: seq<Node>): (idx: seq<nat>)
    ensures forall i :: 0 <= i < |idx| ==> idx[i] < |nodes|
  {
    if |nodes| == 0 then []
    else
      var idx := ParentlessIndices(nodes[..|nodes| - 1]);
      if nodes[|nodes| - 1].parents == [] then idx + [|nodes| - 1] else idx
  }

  /**
   * The roots keep the map's order: they are the parentless nodes taken at
   * strictly increasing positions, and no parentless position is skipped.
   */
  lemma ParentlessKeepsOrder(nodes: seq<Node>)
    ensures var r, idx := ParentlessNodes(nodes), ParentlessIndices(nodes);
      && |idx| == |r|
      && (forall i :: 0 <= i < |idx| ==> nodes[idx[i]] == r[i])
      && (forall i, j :: 0 <= i < j < |idx| ==> idx[i] < idx[j])
      && (forall k :: 0 <= k < |nodes| && nodes[k].parents == [] ==> k in idx)
  {
    ParentlessAtIndices(nodes);
    ParentlessIndicesAscend(nodes);
    ParentlessIndicesComplete(nodes);
  }

  /** The `i`-th root is the node at the `i`-th parentless position. */
  lemma {:induction false} ParentlessAtIndices(nodes: seq<Node>)
    ensures |ParentlessIndices(nodes)| == |ParentlessNodes(nodes)|
    ensures forall i :: 0 <= i < |ParentlessIndices(nodes)| ==> nodes[ParentlessIndices(nodes)[i]] == ParentlessNodes(nodes)[i]
    decreases |nodes|
  {
    if |nodes| > 0 {
      var init, last := nodes[..|nodes| - 1], nodes[|nodes| - 1];
      ParentlessAtIndices(init);
      var r0, idx0 := ParentlessNodes(init), ParentlessIndices(init);
      var r, idx := ParentlessNodes(nodes), ParentlessIndices(nodes);
      forall i | 0 <= i < |idx|
        ensures nodes[idx[i]] == r[i]
      {
        if i < |idx0| {
          assert idx[i] == idx0[i] && r[i] == r0[i];
          assert init[idx0[i]] == nodes[idx0[i]];
        }
      }
    }
  }

  lemma {:induction false} ParentlessIndicesAscend(nodes: seq<Node>)
    ensures forall i, j :: 0 <= i < j < |ParentlessIndices(nodes)| ==> ParentlessIndices(nodes)[i] < ParentlessIndices(nodes)[j]
    decreases |nodes|
  {
    if |nodes| > 0 {
      ParentlessIndicesAscend(nodes[..|nodes| - 1]);
    }
  }

  lemma {:induction false} ParentlessIndicesComplete(nodes: seq<Node>)
    ensures forall k :: 0 <= k < |nodes| && nodes[k].parents == [] ==> k in ParentlessIndices(nodes)
    decreases |nodes|
  {
    if |nodes| > 0 {
      var init := nodes[..|nodes| - 1];
      ParentlessIndicesComplete(init);
      assert forall k :: 0 <= k < |init| ==> init[k] == nodes[k];
    }
  }

  /** A map of the roots whose parents are all empty is kept whole. */
  lemma {:induction false} ParentlessKeepsRoots(nodes: seq<Node>)
    requires forall n :: n in nodes ==> n.parents == []
    ensures ParentlessNodes(nodes) == nodes
    decreases |nodes|
  {
    if |nodes| > 0 {
      var init := nodes[..|nodes| - 1];
      ParentlessKeepsRoots(init);
      assert init + [nodes[|nodes| - 1]] == nodes;
    }
  }

  /**
   * The position of each name in `order`; a name found twice keeps its
   * last position.
   */
  function IndexMap(order: seq<string>): (m: map<string, nat>)
    ensures forall x :: x in m <==> x in order
    ensures forall x :: x in m ==> m[x] < |order| && order[m[x]] == x
    ensures forall i :: 0 <= i < |order| ==> order[i] in m && i <= m[order[i]]
  {
    if |order| == 0 then map[]
    else
      var m := IndexMap(order[..|order| - 1]);
      assert forall y :: y in order <==> y in order[..|order| - 1] || y == order[|order| - 1];
      m[order[|order| - 1] := |order| - 1]
  }

  /** Without duplicates, every name maps back to its own position. */
  lemma IndexMapOfNoDup(order: seq<string>)
    requires NoDup(order)
    ensures forall i :: 0 <= i < |order| ==> IndexMap(order)[order[i]] == i
  {
  }

  /**
   * What the hook exposes: the position of each root name, the stored names
   * that no longer exist, and the order written back to the settings, if any.
   */
  datatype RootTopicOrderState = RootTopicOrderState(
    rootTopicOrderMap: map<string, nat>,
    missingRootTopicNames: seq<string>,
    settingsWrite: Option<seq<string>>)

  /**
   * One evaluation of the hook for the stored order and the current roots.
   * An empty stored order means that no custom order is in use.
   */
  function UseRootTopicOrder(rootTopicOrder: seq<string>, topicGraph: Option<seq<Node>>, cmp: (Node, Node) -> int)
    : (state: RootTopicOrderState)
    ensures |rootTopicOrder| == 0 ==> state == RootTopicOrderState(map[], [], None)
    ensures state.settingsWrite.Some? ==> state.settingsWrite.value != rootTopicOrder
    ensures |rootTopicOrder| > 0 ==>
      var o := NormalizedOrder(rootTopicOrder, RootTopicNodes(topicGraph), cmp);
      && (state.settingsWrite.Some? <==> o != rootTopicOrder)
      && (state.settingsWrite.Some? ==> state.settingsWrite.value == o)
      && state.rootTopicOrderMap == IndexMap(o)
  {
    if |rootTopicOrder| == 0 then RootTopicOrderState(map[], [], None)
    else
      var roots := RootTopicNodes(topicGraph);
      var order := NormalizedOrder(rootTopicOrder, roots, cmp);
      RootTopicOrderState(
        IndexMap(order),
        MissingNames(rootTopicOrder, roots),
        if order == rootTopicOrder then None else Some(order))
  }

  /**
   * With a custom order, every root gets a position, positions are distinct,
   * only stored names and root names are placed, and the missing names are
   * the stored names no root carries.
   */
  lemma CustomOrderState(rootTopicOrder: seq<string>, topicGraph: Option<seq<Node>>, cmp: (Node, Node) -> int)
    requires |rootTopicOrder| > 0
    ensures var state, roots := UseRootTopicOrder(rootTopicOrder, topicGraph, cmp), RootTopicNodes(topicGraph);
      && (forall n :: n in roots ==> n.name in state.rootTopicOrderMap)
      && (forall x :: x in state.rootTopicOrderMap ==>
            (x in rootTopicOrder && x != "") || exists n :: n in roots && n.name == x)
      && (forall x, y :: x in state.rootTopicOrderMap && y in state.rootTopicOrderMap && x != y ==>
            state.rootTopicOrderMap[x] != state.rootTopicOrderMap[y])
      && (forall x :: x in state.missingRootTopicNames <==>
            x in rootTopicOrder && x != "" && forall n :: n in roots ==> n.name != x)
  {
    var roots := RootTopicNodes(topicGraph);
    var order := NormalizedOrder(rootTopicOrder, roots, cmp);
    NormalizedCoversNodes(rootTopicOrder, roots, cmp);
    NormalizedMembers(rootTopicOrder, roots, cmp);
    MissingNamesSpec(rootTopicOrder, roots);
  }

  /** Every name of the normalised order is a kept stored name or a node's name. */
  lemma NormalizedMembers(existing: seq<string>, nodes: seq<Node>, cmp: (Node, Node) -> int)
    ensures forall x :: x in NormalizedOrder(existing, nodes, cmp) ==>
      (x in existing && x != "") || exists n :: n in nodes && n.name == x
  {
    var kept := KeptNames(existing);
    var sorted := SortBy(Unseen(nodes, kept), cmp);
    SortByPermutes(Unseen(nodes, kept), cmp);
    forall x | x in NormalizedOrder(existing, nodes, cmp) && x !in kept
      ensures exists n :: n in nodes && n.name == x
    {
      var i :| 0 <= i < |Names(sorted)| && Names(sorted)[i] == x;
      assert sorted[i] in multiset(Unseen(nodes, kept));
    }
  }

  /**
   * Writing the normalised order back settles it: the next evaluation over the
   * same roots writes nothing, provided no root has an empty name.
   */
  lemma WriteBackSettles(rootTopicOrder: seq<string>, topicGraph: Option<seq<Node>>, cmp: (Node, Node) -> int)
    requires forall n :: n in RootTopicNodes(topicGraph) ==> n.name != ""
    requires UseRootTopicOrder(rootTopicOrder, topicGraph, cmp).settingsWrite.Some?
    ensures var written := UseRootTopicOrder(rootTopicOrder, topicGraph, cmp).settingsWrite.value;
      UseRootTopicOrder(written, topicGraph, cmp).settingsWrite.None?
  {
    var roots := RootTopicNodes(topicGraph);
    var written := UseRootTopicOrder(rootTopicOrder, topicGraph, cmp).settingsWrite.value;
    assert written == NormalizedOrder(rootTopicOrder, roots, cmp);
    NormalizeIdempotent(rootTopicOrder, roots, cmp);
  }
}

=== FILE: sort_utils.dfy ===
/**
 * Sorting of the file list: which sort option applies to the current
 * selection, the comparator each option stands for, the in-place sort, and
 * the icon and date field an option implies.
 */
module SortUtils {
  import opened Text
  import opened Sorting
  import opened Wrappers

  /** `SortOption` */
  datatype SortOption = ModifiedDesc | ModifiedAsc | CreatedDesc | CreatedAsc | TitleAsc | TitleDesc

  /** The option's settings string. */
  function OptionName(o: SortOption): string {
    match o
    case ModifiedDesc => "modified-desc"
    case ModifiedAsc => "modified-asc"
    case CreatedDesc => "created-desc"
    case CreatedAsc => "created-asc"
    case TitleAsc => "title-asc"
    case TitleDesc => "title-desc"
  }

  /** `SORT_OPTIONS`: the options in menu order. */
  const SORT_OPTIONS: seq<SortOption> := [ModifiedDesc, ModifiedAsc, CreatedDesc, CreatedAsc, TitleAsc, TitleDesc]

  /** The menu lists every option once, and the settings strings tell the options apart. */
  lemma SortOptionsComplete()
    ensures forall o :: o in SORT_OPTIONS
    ensures forall i, j :: 0 <= i < j < |SORT_OPTIONS| ==> SORT_OPTIONS[i] != SORT_OPTIONS[j]
    ensures forall o, p :: OptionName(o) == OptionName(p) ==> o == p
  {
    forall o ensures o in SORT_OPTIONS {
      match o
      case ModifiedDesc => assert SORT_OPTIONS[0] == o;
      case ModifiedAsc => assert SORT_OPTIONS[1] == o;
      case CreatedDesc => assert SORT_OPTIONS[2] == o;
      case CreatedAsc => assert SORT_OPTIONS[3] == o;
      case TitleAsc => assert SORT_OPTIONS[4] == o;
      case TitleDesc => assert SORT_OPTIONS[5] == o;
    }
  }

  /** The kind of item selected in the navigation pane. */
  datatype SelectionType = FolderSelection | TagSelection | TopicSelection

  /** The settings the effective sort depends on. */
  datatype SortSettings = SortSettings(
    folderSortOverrides: map<string, SortOption>,
    tagSortOverrides: map<string, SortOption>,
    defaultFolderSort: SortOption)

  /**
   * `getEffectiveSortOption`: the override for the selected folder path, tag
   * or topic, when there is one, else the default. A tag or topic name is
   * used only when non-empty; topics share the tag overrides.
   */
  function EffectiveSortOption(settings: SortSettings, selectionType: SelectionType,
                               selectedFolder: Option<string>, selectedTag: Option<string>,
                               selectedTopic: Option<string>): (option: SortOption)
  {
    if selectionType == FolderSelection && selectedFolder.Some? && selectedFolder.value in settings.folderSortOverrides then
      settings.folderSortOverrides[selectedFolder.value]
    else if selectionType == TagSelection && selectedTag.Some? && selectedTag.value != ""
            && selectedTag.value in settings.tagSortOverrides then
      settings.tagSortOverrides[selectedTag.value]
    else if selectionType == TopicSelection && selectedTopic.Some? && selectedTopic.value != ""
            && selectedTopic.value in settings.tagSortOverrides then
      settings.tagSortOverrides[selectedTopic.value]
    else settings.defaultFolderSort
  }

  /** The map whose entry decides the sort of a selection, and the key it is looked up under. */
  function OverrideSource(settings: SortSettings, selectionType: SelectionType,
                          selectedFolder: Option<string>, selectedTag: Option<string>,
                          selectedTopic: Option<string>): (source: Option<(map<string, SortOption>, string)>)
  {
    match selectionType
    case FolderSelection =>
      if selectedFolder.Some? then Some((settings.folderSortOverrides, selectedFolder.value)) else None
    case TagSelection =>
      if selectedTag.Some? && selectedTag.value != "" then Some((settings.tagSortOverrides, selectedTag.value)) else None
    case TopicSelection =>
      if selectedTopic.Some? && selectedTopic.value != "" then Some((settings.tagSortOverrides, selectedTopic.value)) else None
  }

  /**
   * The effective option is the entry of the selection's override map when
   * it has one, and the default exactly when it has none; a topic sorts like
   * the tag of the same name, and the other selections' names play no part.
   */
  lemma EffectiveSortOptionSpec(settings: SortSettings, selectionType: SelectionType,
                                selectedFolder: Option<string>, selectedTag: Option<string>,
                                selectedTopic: Option<string>)
    ensures var option := EffectiveSortOption(settings, selectionType, selectedFolder, selectedTag, selectedTopic);
      var source := OverrideSource(settings, selectionType, selectedFolder, selectedTag, selectedTopic);
      && (source.Some? && source.value.1 in source.value.0 ==> option == source.value.0[source.value.1])
      && (source.None? || source.value.1 !in source.value.0 ==> option == settings.defaultFolderSort)
    ensures EffectiveSortOption(settings, TopicSelection, selectedFolder, selectedTag, selectedTopic)
      == EffectiveSortOption(settings, TagSelection, None, selectedTopic, None)
  {
  }

  /** A file as the sort sees it: its path and its base name. */
  datatype File = File(path: string, basename: string)

  /** The name a title sort compares: the display name when a getter is given, else the base name. */
  function NameOf(file: File, getDisplayName: Option<File -> string>): string {
    if getDisplayName.Some? then getDisplayName.value(file) else file.basename
  }

  /** `getTimestamp(b, kind) - getTimestamp(a, kind)`: newer first. */
  function Newest(time: File -> int): (File, File) -> int {
    (a: File, b: File) => time(b) - time(a)
  }

  /** `getTimestamp(a, kind) - getTimestamp(b, kind)`: older first. */
  function Oldest(time: File -> int): (File, File) -> int {
    (a: File, b: File) => time(a) - time(b)
  }

  /** The name comparison of a title sort: natural order, reversed for `title-desc`. */
  function NameOrder(descending: bool, naturalCompare: (string, string) -> int): (string, string) -> int {
    if descending then (x: string, y: string) => -naturalCompare(x, y) else naturalCompare
  }

  /**
   * Files by name, names comparing equal by length (the shorter first), and
   * names of equal length by path.
   */
  function ByName(nameCompare: (string, string) -> int, pathCompare: (string, string) -> int,
                  getDisplayName: Option<File -> string>): (File, File) -> int
  {
    (a: File, b: File) =>
      var nameA := NameOf(a, getDisplayName);
      var nameB := NameOf(b, getDisplayName);
      var c := nameCompare(nameA, nameB);
      if c != 0 then c
      else if |nameA| != |nameB| then |nameA| - |nameB|
      else pathCompare(a.path, b.path)
  }

  /**
   * The title comparators. `descending` negates only the name comparison:
   * the tie-breakers (the shorter name first, then the path comparison) stay
   * ascending.
   */
  function ByTitle(descending: bool, naturalCompare: (string, string) -> int, pathCompare: (string, string) -> int,
                   getDisplayName: Option<File -> string>): (File, File) -> int
  {
    ByName(NameOrder(descending, naturalCompare), pathCompare, getDisplayName)
  }

  /** The comparator `sortFiles` hands to `Array.prototype.sort` for an option. */
  function FileComparator(option: SortOption, getCreatedTime: File -> int, getModifiedTime: File -> int,
                          naturalCompare: (string, string) -> int, pathCompare: (string, string) -> int,
                          getDisplayName: Option<File -> string>): (File, File) -> int
  {
    match option
    case ModifiedDesc => Newest(getModifiedTime)
    case ModifiedAsc => Oldest(getModifiedTime)
    case CreatedDesc => Newest(getCreatedTime)
    case CreatedAsc => Oldest(getCreatedTime)
    case TitleAsc => ByTitle(false, naturalCompare, pathCompare, getDisplayName)
    case TitleDesc => ByTitle(true, naturalCompare, pathCompare, getDisplayName)
  }

  /** `sortFiles(files, sortOption, …)`: sorts the array in place with the option's comparator. */
  method SortFiles(files: array<File>, option: SortOption, getCreatedTime: File -> int, getModifiedTime: File -> int,
                   naturalCompare: (string, string) -> int, pathCompare: (string, string) -> int,
                   getDisplayName: Option<File -> string>)
    modifies files
    ensures files[..] == SortBy(old(files[..]),
      FileComparator(option, getCreatedTime, getModifiedTime, naturalCompare, pathCompare, getDisplayName))
    ensures multiset(files[..]) == multiset(old(files[..]))
  {
    var cmp := FileComparator(option, getCreatedTime, getModifiedTime, naturalCompare, pathCompare, getDisplayName);
    SortByPermutes(files[..], cmp);
    SortInPlace(files, cmp);
  }

  /** Timestamp differences are consistent comparators. */
  lemma TimestampComparators(time: File -> int)
    ensures Comparator(Newest(time)) && Comparator(Oldest(time))
  {
  }

  /** A consistent comparator reversed is consistent. */
  lemma NegatedComparator(cmp: (string, string) -> int)
    requires Comparator(cmp)
    ensures Comparator((x: string, y: string) => -cmp(x, y))
  {
    var neg := (x: string, y: string) => -cmp(x, y);
    forall a, b, c | neg(a, b) <= 0 && neg(b, c) <= 0
      ensures neg(a, c) <= 0
    {
      assert Sign(cmp(b, a)) == -Sign(cmp(a, b));
      assert Sign(cmp(c, b)) == -Sign(cmp(b, c));
      assert Sign(cmp(c, a)) == -Sign(cmp(a, c));
    }
  }

  /** Swapping two files flips the sign of the name-then-length-then-path comparison. */
  lemma ByNameFlips(nameCompare: (string, string) -> int, pathCompare: (string, string) -> int,
                    getDisplayName: Option<File -> string>, a: File, b: File)
    requires Comparator(nameCompare) && Comparator(pathCompare)
    ensures var cmp := ByName(nameCompare, pathCompare, getDisplayName); Sign(cmp(a, b)) == -Sign(cmp(b, a))
  {
    var nameA, nameB := NameOf(a, getDisplayName), NameOf(b, getDisplayName);
    assert Sign(nameCompare(nameA, nameB)) == -Sign(nameCompare(nameB, nameA));
    assert Sign(pathCompare(a.path, b.path)) == -Sign(pathCompare(b.path, a.path));
  }

  /** "Not greater" under the name-then-length-then-path comparison is transitive. */
  lemma ByNameChains(nameCompare: (string, string) -> int, pathCompare: (string, string) -> int,
                     getDisplayName: Option<File -> string>, a: File, b: File, c: File)
    requires Comparator(nameCompare) && Comparator(pathCompare)
    ensures var cmp := ByName(nameCompare, pathCompare, getDisplayName);
      cmp(a, b) <= 0 && cmp(b, c) <= 0 ==> cmp(a, c) <= 0
  {
    var nameA, nameB, nameC := NameOf(a, getDisplayName), NameOf(b, getDisplayName), NameOf(c, getDisplayName);
    TiesChain(nameCompare, nameA, nameB, nameC);
    if nameCompare(nameA, nameB) == 0 && nameCompare(nameB, nameC) == 0 && |nameA| == |nameB| == |nameC| {
      assert pathCompare(a.path, b.path) <= 0 && pathCompare(b.path, c.path) <= 0 ==> pathCompare(a.path, c.path) <= 0;
    }
  }

  /**
   * The title comparators are consistent whenever the name and the path
   * comparisons are: a lexicographic combination of consistent comparators.
   */
  lemma TitleComparator(descending: bool, naturalCompare: (string, string) -> int, pathCompare: (string, string) -> int,
                        getDisplayName: Option<File -> string>)
    requires Comparator(naturalCompare) && Comparator(pathCompare)
    ensures Comparator(ByTitle(descending, naturalCompare, pathCompare, getDisplayName))
  {
    var nameCompare := NameOrder(descending, naturalCompare);
    if descending {
      NegatedComparator(naturalCompare);
    }
    forall a, b ensures Sign(ByName(nameCompare, pathCompare, getDisplayName)(a, b))
                        == -Sign(ByName(nameCompare, pathCompare, getDisplayName)(b, a))
    {
      ByNameFlips(nameCompare, pathCompare, getDisplayName, a, b);
    }
    forall a, b, c | ByName(nameCompare, pathCompare, getDisplayName)(a, b) <= 0
                     && ByName(nameCompare, pathCompare, getDisplayName)(b, c) <= 0
      ensures ByName(nameCompare, pathCompare, getDisplayName)(a, c) <= 0
    {
      ByNameChains(nameCompare, pathCompare, getDisplayName, a, b, c);
    }
  }

  /** Every option's comparator is consistent when the two string comparisons are. */
  lemma FileComparatorConsistent(option: SortOption, getCreatedTime: File -> int, getModifiedTime: File -> int,
                                 naturalCompare: (string, string) -> int, pathCompare: (string, string) -> int,
                                 getDisplayName: Option<File -> string>)
    requires Comparator(naturalCompare) && Comparator(pathCompare)
    ensures Comparator(FileComparator(option, getCreatedTime, getModifiedTime, naturalCompare, pathCompare, getDisplayName))
  {
    TimestampComparators(getCreatedTime);
    TimestampComparators(getModifiedTime);
    if option == TitleAsc || option == TitleDesc {
      TitleComparator(option == TitleDesc, naturalCompare, pathCompare, getDisplayName);
    }
  }

  /** The timestamp a date sort orders by. */
  function SortTime(option: SortOption, getCreatedTime: File -> int, getModifiedTime: File -> int): File -> int {
    if option == CreatedDesc || option == CreatedAsc then getCreatedTime else getModifiedTime
  }

  /**
   * After a date sort, the chosen timestamps are non-increasing (`-desc`) or
   * non-decreasing (`-asc`) along the list.
   */
  lemma SortedByTimestamp(files: seq<File>, option: SortOption, getCreatedTime: File -> int, getModifiedTime: File -> int,
                          naturalCompare: (string, string) -> int, pathCompare: (string, string) -> int,
                          getDisplayName: Option<File -> string>)
    requires option != TitleAsc && option != TitleDesc
    ensures var sorted := SortBy(files, FileComparator(option, getCreatedTime, getModifiedTime, naturalCompare, pathCompare, getDisplayName));
      var time := SortTime(option, getCreatedTime, getModifiedTime);
      forall i, j :: 0 <= i < j < |sorted| ==>
        if option == ModifiedDesc || option == CreatedDesc then time(sorted[i]) >= time(sorted[j])
        else time(sorted[i]) <= time(sorted[j])
  {
    var cmp := FileComparator(option, getCreatedTime, getModifiedTime, naturalCompare, pathCompare, getDisplayName);
    TimestampComparators(getCreatedTime);
    TimestampComparators(getModifiedTime);
    SortBySorted(files, cmp);
  }

  /**
   * After a title sort, names are in natural order (reversed for
   * `title-desc`); names comparing equal put the shorter first, and names
   * of equal length put the smaller path first.
   */
  lemma SortedByTitle(files: seq<File>, descending: bool, naturalCompare: (string, string) -> int,
                      pathCompare: (string, string) -> int, getDisplayName: Option<File -> string>)
    requires Comparator(naturalCompare) && Comparator(pathCompare)
    ensures var sorted := SortBy(files, ByTitle(descending, naturalCompare, pathCompare, getDisplayName));
      forall i, j :: 0 <= i < j < |sorted| ==>
        var nameA, nameB := NameOf(sorted[i], getDisplayName), NameOf(sorted[j], getDisplayName);
        && (if descending then naturalCompare(nameA, nameB) >= 0 else naturalCompare(nameA, nameB) <= 0)
        && (naturalCompare(nameA, nameB) == 0 ==> |nameA| <= |nameB|)
        && (naturalCompare(nameA, nameB) == 0 && |nameA| == |nameB| ==> pathCompare(sorted[i].path, sorted[j].path) <= 0)
  {
    var cmp := ByTitle(descending, naturalCompare, pathCompare, getDisplayName);
    TitleComparator(descending, naturalCompare, pathCompare, getDisplayName);
    SortBySorted(files, cmp);
  }

  /** `getSortIcon`: the descending icon exactly for the `-desc` options. */
  function SortIcon(option: SortOption): (icon: string)
    ensures icon == "lucide-sort-desc" <==> option in {ModifiedDesc, CreatedDesc, TitleDesc}
    ensures icon == "lucide-sort-asc" <==> option in {ModifiedAsc, CreatedAsc, TitleAsc}
  {
    if EndsWith(OptionName(option), "-desc") then "lucide-sort-desc" else "lucide-sort-asc"
  }

  /** `getDateField`: the creation time exactly for the `created-` options. */
  function DateField(option: SortOption): (field: string)
    ensures field == "ctime" <==> option in {CreatedDesc, CreatedAsc}
    ensures field == "mtime" <==> option !in {CreatedDesc, CreatedAsc}
  {
    assert OptionName(option)[0] == 'c' <==> option in {CreatedDesc, CreatedAsc};
    if StartsWith(OptionName(option), "created") then "ctime" else "mtime"
  }
}

=== FILE: sorting.dfy ===
/**
 * `Array.prototype.sort` with a comparator. The ECMAScript sort is stable, and with a
 * consistent comparator every stable sort produces the same order; the model is a stable
 * insertion sort, given once as a function (`SortBy`) and once as the in-place array
 * algorithm (`SortInPlace`) proved to compute it.
 */
module Sorting {

  function Sign(x: int): int {
    if x < 0 then -1 else if x > 0 then 1 else 0
  }

  /**
   * A consistent comparator in the sense of the ECMAScript `sort` specification:
   * swapping the arguments flips the sign, and "not greater" is transitive.
   */
  ghost predicate Comparator<T(!new)>(cmp: (T, T) -> int) {
    && (forall a, b :: Sign(cmp(a, b)) == -Sign(cmp(b, a)))
    && (forall a, b, c :: cmp(a, b) <= 0 && cmp(b, c) <= 0 ==> cmp(a, c) <= 0)
  }

  /** No element is greater than a later one. */
  ghost predicate SortedBy<T>(s: seq<T>, cmp: (T, T) -> int) {
    forall i, j :: 0 <= i < j < |s| ==> cmp(s[i], s[j]) <= 0
  }

  /** Under a consistent comparator, "compares equal" is transitive and symmetric. */
  lemma TiesChain<T(!new)>(cmp: (T, T) -> int, a: T, b: T, c: T)
    requires Comparator(cmp)
    ensures cmp(a, b) == 0 && cmp(b, c) == 0 ==> cmp(a, c) == 0
    ensures cmp(a, b) == 0 ==> cmp(b, a) == 0
    ensures cmp(a, b) < 0 && cmp(b, c) <= 0 ==> cmp(a, c) < 0
    ensures cmp(a, b) <= 0 && cmp(b, c) < 0 ==> cmp(a, c) < 0
  {
    assert Sign(cmp(a, b)) == -Sign(cmp(b, a));
    assert Sign(cmp(b, c)) == -Sign(cmp(c, b));
    assert Sign(cmp(a, c)) == -Sign(cmp(c, a));
    if cmp(a, b) <= 0 && cmp(b, c) <= 0 {
      assert cmp(a, c) <= 0;
    }
    if cmp(c, b) <= 0 && cmp(b, a) <= 0 {
      assert cmp(c, a) <= 0;
    }
    if cmp(b, c) <= 0 && cmp(c, a) <= 0 {
      assert cmp(b, a) <= 0;
    }
    if cmp(c, a) <= 0 && cmp(a, b) <= 0 {
      assert cmp(c, b) <= 0;
    }
  }

  /** Inserts `x` after the last element of `t` that is not greater than it. */
  function Insert<T>(x: T, t: seq<T>, cmp: (T, T) -> int): seq<T>
    decreases |t|
  {
    if |t| == 0 then [x]
    else if cmp(t[|t| - 1], x) <= 0 then t + [x]
    else Insert(x, t[..|t| - 1], cmp) + [t[|t| - 1]]
  }

  /** Stable insertion sort: element after element is inserted into the sorted prefix. */
  function SortBy<T>(s: seq<T>, cmp: (T, T) -> int): seq<T>
    decreases |s|
  {
    if |s| == 0 then [] else Insert(s[|s| - 1], SortBy(s[..|s| - 1], cmp), cmp)
  }

  lemma {:induction false} InsertPermutes<T>(x: T, t: seq<T>, cmp: (T, T) -> int)
    ensures multiset(Insert(x, t, cmp)) == multiset(t) + multiset{x}
    decreases |t|
  {
    if |t| > 0 {
      assert t == t[..|t| - 1] + [t[|t| - 1]];
      if cmp(t[|t| - 1], x) > 0 {
        InsertPermutes(x, t[..|t| - 1], cmp);
      }
    }
  }

  /** Sorting only reorders: the result is a permutation of the input. */
  lemma {:induction false} SortByPermutes<T>(s: seq<T>, cmp: (T, T) -> int)
    ensures multiset(SortBy(s, cmp)) == multiset(s)
    ensures |SortBy(s, cmp)| == |s|
    decreases |s|
  {
    if |s| > 0 {
      SortByPermutes(s[..|s| - 1], cmp);
      InsertPermutes(s[|s| - 1], SortBy(s[..|s| - 1], cmp), cmp);
      assert s == s[..|s| - 1] + [s[|s| - 1]];
    }
    assert |multiset(SortBy(s, cmp))| == |multiset(s)|;
  }

  lemma {:induction false} InsertSorted<T(!new)>(x: T, t: seq<T>, cmp: (T, T) -> int)
    requires Comparator(cmp)
    requires SortedBy(t, cmp)
    ensures SortedBy(Insert(x, t, cmp), cmp)
    decreases |t|
  {
    if |t| > 0 {
      var last := t[|t| - 1];
      if cmp(last, x) <= 0 {
        AppendSorted(t, x, cmp);
      } else {
        var init := t[..|t| - 1];
        InsertSorted(x, init, cmp);
        var ins := Insert(x, init, cmp);
        InsertPermutes(x, init, cmp);
        assert Sign(cmp(x, last)) == -Sign(cmp(last, x));
        forall e | e in multiset(ins) ensures cmp(e, last) <= 0 {
          if e != x {
            assert e in multiset(init);
            var k :| 0 <= k < |init| && init[k] == e;
            assert cmp(t[k], t[|t| - 1]) <= 0;
          }
        }
        AppendSortedBelow(ins, last, cmp);
      }
    }
  }

  /** Appending an element that is not smaller than the last keeps a sequence sorted. */
  lemma AppendSorted<T(!new)>(t: seq<T>, x: T, cmp: (T, T) -> int)
    requires Comparator(cmp)
    requires SortedBy(t, cmp)
    requires |t| > 0 && cmp(t[|t| - 1], x) <= 0
    ensures SortedBy(t + [x], cmp)
  {
    var r := t + [x];
    forall i, j | 0 <= i < j < |r| ensures cmp(r[i], r[j]) <= 0 {
      if j == |t| && i < |t| - 1 {
        assert cmp(t[i], t[|t| - 1]) <= 0;
      }
    }
  }

  /** Appending an element no element is greater than keeps a sequence sorted. */
  lemma AppendSortedBelow<T(!new)>(t: seq<T>, x: T, cmp: (T, T) -> int)
    requires SortedBy(t, cmp)
    requires forall e | e in multiset(t) :: cmp(e, x) <= 0
    ensures SortedBy(t + [x], cmp)
  {
    var r := t + [x];
    forall i, j | 0 <= i < j < |r| ensures cmp(r[i], r[j]) <= 0 {
      if j == |t| {
        assert t[i] in multiset(t);
      }
    }
  }

  /** With a consistent comparator the result is sorted. */
  lemma {:induction false} SortBySorted<T(!new)>(s: seq<T>, cmp: (T, T) -> int)
    requires Comparator(cmp)
    ensures SortedBy(SortBy(s, cmp), cmp)
    decreases |s|
  {
    if |s| > 0 {
      SortBySorted(s[..|s| - 1], cmp);
      InsertSorted(s[|s| - 1], SortBy(s[..|s| - 1], cmp), cmp);
    }
  }

  /** `Insert` places `x` at the first position after which every element is greater than `x`. */
  lemma {:induction false} InsertAt<T>(x: T, t: seq<T>, cmp: (T, T) -> int, j: nat)
    requires j <= |t|
    requires j == 0 || cmp(t[j - 1], x) <= 0
    requires forall k :: j <= k < |t| ==> cmp(t[k], x) > 0
    ensures Insert(x, t, cmp) == t[..j] + [x] + t[j..]
    decreases |t|
  {
    if |t| > 0 {
      if j == |t| {
        assert t[..j] == t && t[j..] == [];
      } else {
        var init := t[..|t| - 1];
        InsertAt(x, init, cmp, j);
        assert init[..j] == t[..j];
        assert init[j..] + [t[|t| - 1]] == t[j..];
      }
    }
  }

  /** In-place insertion sort of an array; the array ends up as `SortBy` of its old contents. */
  method SortInPlace<T>(a: array<T>, cmp: (T, T) -> int)
    modifies a
    ensures a[..] == SortBy(old(a[..]), cmp)
  {
    ghost var input := a[..];
    var i := 0;
    while i < a.Length
      invariant 0 <= i <= a.Length
      invariant a[..i] == SortBy(input[..i], cmp)
      invariant a[i..] == input[i..]
    {
      InsertStep(a, i, cmp);
      assert input[..i + 1][..i] == input[..i];
      i := i + 1;
    }
    assert input[..a.Length] == input;
  }

  /** One pass of insertion sort: moves `a[i]` into place within the prefix `a[..i]`. */
  method InsertStep<T>(a: array<T>, i: nat, cmp: (T, T) -> int)
    requires i < a.Length
    modifies a
    ensures a[..i + 1] == Insert(old(a[i]), old(a[..i]), cmp)
    ensures a[i + 1..] == old(a[i + 1..])
  {
    ghost var sorted := a[..i];
    var x := a[i];
    var j := i;
    while j > 0 && cmp(a[j - 1], x) > 0
      invariant 0 <= j <= i
      invariant forall k :: 0 <= k < j ==> a[k] == sorted[k]
      invariant forall k :: j < k <= i ==> a[k] == sorted[k - 1]
      invariant forall k :: j <= k < i ==> cmp(sorted[k], x) > 0
      invariant forall k :: i < k < a.Length ==> a[k] == old(a[k])
    {
      a[j] := a[j - 1];
      j := j - 1;
    }
    a[j] := x;
    InsertAt(x, sorted, cmp, j);
    assert a[..i + 1] == sorted[..j] + [x] + sorted[j..];
  }
}

=== FILE: text.dfy ===
/**
 * The JavaScript string operations the core uses, on strings as sequences of
 * Unicode code points: `split`, `join`, `startsWith`, `endsWith`, `includes`,
 * `trim`, ASCII case mapping and "drop every occurrence of a character".
 */
module Text {

  /** `s.startsWith(p)` */
  predicate StartsWith(s: string, p: string) {
    |p| <= |s| && s[..|p|] == p
  }

  /** `s.endsWith(p)` */
  predicate EndsWith(s: string, p: string) {
    |p| <= |s| && s[|s| - |p|..] == p
  }

  /** `s.includes(p)`: `p` occurs in `s` at some position. */
  predicate Contains(s: string, p: string)
    decreases |s|
  {
    StartsWith(s, p) || (|s| > 0 && Contains(s[1..], p))
  }

  /** `s.split(c)` for a one-character separator (JavaScript semantics: `"".split(c) == [""]`). */
  function Split(s: string, c: char): (parts: seq<string>)
    ensures |parts| >= 1
    decreases |s|
  {
    if |s| == 0 then [""]
    else
      var rest := Split(s[1..], c);
      if s[0] == c then [""] + rest else [[s[0]] + rest[0]] + rest[1..]
  }

  /** `parts.join(sep)` */
  function Join(parts: seq<string>, sep: string): string
    decreases |parts|
  {
    if |parts| == 0 then ""
    else if |parts| == 1 then parts[0]
    else parts[0] + sep + Join(parts[1..], sep)
  }

  /** Joining the pieces of a split with the separator gives back the input. */
  lemma {:induction false} JoinSplit(s: string, c: char)
    ensures Join(Split(s, c), [c]) == s
    decreases |s|
  {
    if |s| > 0 {
      var rest := Split(s[1..], c);
      JoinSplit(s[1..], c);
      if s[0] == c {
        assert Split(s, c) == [""] + rest;
        assert s == [c] + s[1..];
      } else {
        var parts := Split(s, c);
        assert parts == [[s[0]] + rest[0]] + rest[1..];
        if |rest| == 1 {
          assert parts == [[s[0]] + rest[0]];
        } else {
          assert parts[1..] == rest[1..];
          assert Join(rest, [c]) == rest[0] + [c] + Join(rest[1..], [c]);
        }
      }
    }
  }

  /** No piece of a split contains the separator. */
  lemma {:induction false} SplitPiecesFree(s: string, c: char)
    ensures forall i :: 0 <= i < |Split(s, c)| ==> c !in Split(s, c)[i]
    decreases |s|
  {
    if |s| > 0 {
      SplitPiecesFree(s[1..], c);
    }
  }

  /** The last index of `c` in `s`, or -1. */
  function LastIndexOf(s: string, c: char): (r: int)
    ensures -1 <= r < |s|
    ensures r == -1 <==> c !in s
    ensures r >= 0 ==> s[r] == c && c !in s[r + 1..]
    decreases |s|
  {
    if |s| == 0 then -1
    else
      var l := LastIndexOf(s[1..], c);
      if l >= 0 then (assert s[l + 2..] == s[1..][l + 1..]; l + 1)
      else if s[0] == c then (assert s[1..] == s[0 + 1..]; 0)
      else (assert s == [s[0]] + s[1..]; -1)
  }

  /** `s` with every occurrence of `c` removed. */
  function RemoveAll(c: char, s: string): (r: string)
    ensures c !in r
    ensures |r| <= |s|
    decreases |s|
  {
    if |s| == 0 then ""
    else if s[0] == c then RemoveAll(c, s[1..])
    else [s[0]] + RemoveAll(c, s[1..])
  }

  lemma {:induction false} RemoveAllConcat(c: char, a: string, b: string)
    ensures RemoveAll(c, a + b) == RemoveAll(c, a) + RemoveAll(c, b)
    decreases |a|
  {
    if |a| > 0 {
      assert (a + b)[1..] == a[1..] + b;
      RemoveAllConcat(c, a[1..], b);
    } else {
      assert a + b == b;
    }
  }

  /** Removing characters adds none. */
  lemma {:induction false} RemoveAllSubset(c: char, s: string, x: char)
    requires x in RemoveAll(c, s)
    ensures x in s
    decreases |s|
  {
    if |s| > 0 && x != s[0] {
      RemoveAllSubset(c, s[1..], x);
    }
  }

  lemma {:induction false} RemoveAllAbsent(c: char, s: string)
    requires c !in s
    ensures RemoveAll(c, s) == s
    decreases |s|
  {
    if |s| > 0 {
      RemoveAllAbsent(c, s[1..]);
      assert s == [s[0]] + s[1..];
    }
  }

  /** The last piece of a split is what follows the last separator. */
  predicate SplitLastHolds(s: string, c: char) {
    Split(s, c)[|Split(s, c)| - 1] == s[LastIndexOf(s, c) + 1..]
  }

  lemma {:induction false} SplitLast(s: string, c: char)
    ensures SplitLastHolds(s, c)
    decreases |s|
  {
    if c !in s {
      SplitPiecesCount(s, c);
      assert LastIndexOf(s, c) == -1;
      assert s[0..] == s;
    } else {
      SplitLast(s[1..], c);
      SplitLastStep(s, c);
    }
  }

  /** The step of `SplitLast` when `s` holds a separator. */
  lemma SplitLastStep(s: string, c: char)
    requires |s| > 0 && c in s && SplitLastHolds(s[1..], c)
    ensures SplitLastHolds(s, c)
  {
    var parts := Split(s, c);
    var rest := Split(s[1..], c);
    var l := LastIndexOf(s[1..], c);
    var li := LastIndexOf(s, c);
    if s[0] == c {
      assert parts == [""] + rest;
      assert li == l + 1 || (l < 0 && li == 0);
    } else {
      assert c in s[1..];
      assert l >= 0 && li == l + 1;
      SplitSingle(s[1..], c);
      assert parts == [[s[0]] + rest[0]] + rest[1..];
    }
    assert parts[|parts| - 1] == rest[|rest| - 1];
    assert s[1..][l + 1..] == s[li + 1..];
  }

  /** A split into a single piece means the separator does not occur. */
  lemma SplitSingle(s: string, c: char)
    ensures |Split(s, c)| == 1 ==> c !in s
  {
    if |Split(s, c)| == 1 {
      JoinSplit(s, c);
      SplitPiecesFree(s, c);
      assert Join(Split(s, c), [c]) == Split(s, c)[0];
    }
  }

  /** All pieces but the last, concatenated, are the text before the last separator with the separators removed. */
  predicate SplitInitHolds(s: string, c: char) {
    var parts := Split(s, c);
    Join(parts[..|parts| - 1], "") == RemoveAll(c, s[..if LastIndexOf(s, c) < 0 then 0 else LastIndexOf(s, c)])
  }

  lemma {:induction false} SplitInit(s: string, c: char)
    ensures var parts := Split(s, c);
      Join(parts[..|parts| - 1], "") == RemoveAll(c, s[..if LastIndexOf(s, c) < 0 then 0 else LastIndexOf(s, c)])
    decreases |s|
  {
    if |s| > 0 {
      SplitInit(s[1..], c);
      assert SplitInitHolds(s[1..], c);
      if s[0] == c {
        SplitInitAfterSeparator(s, c);
      } else {
        SplitInitAfterChar(s, c);
      }
      assert SplitInitHolds(s, c);
    }
  }

  /** The step of `SplitInit` over a leading separator. */
  lemma SplitInitAfterSeparator(s: string, c: char)
    requires |s| > 0 && s[0] == c && SplitInitHolds(s[1..], c)
    ensures SplitInitHolds(s, c)
  {
    var rest := Split(s[1..], c);
    var parts := Split(s, c);
    var l := LastIndexOf(s[1..], c);
    var restInit := rest[..|rest| - 1];
    assert parts == [""] + rest;
    if l >= 0 {
      assert LastIndexOf(s, c) == l + 1;
      assert parts[..|parts| - 1] == [""] + restInit;
      JoinEmptyHead(restInit);
      assert s[..l + 1] == [c] + s[1..][..l];
      RemoveAllConcat(c, [c], s[1..][..l]);
    } else {
      assert LastIndexOf(s, c) == 0;
      assert parts[..|parts| - 1] == [""];
    }
  }

  /** The step of `SplitInit` over a leading ordinary character. */
  lemma SplitInitAfterChar(s: string, c: char)
    requires |s| > 0 && s[0] != c && SplitInitHolds(s[1..], c)
    ensures SplitInitHolds(s, c)
  {
    var rest := Split(s[1..], c);
    var parts := Split(s, c);
    var l := LastIndexOf(s[1..], c);
    var restInit := rest[..|rest| - 1];
    assert parts == [[s[0]] + rest[0]] + rest[1..];
    if l >= 0 {
      assert LastIndexOf(s, c) == l + 1;
      SplitSingle(s[1..], c);
      assert parts[..|parts| - 1] == [[s[0]] + restInit[0]] + restInit[1..];
      JoinOntoFirst(s[0], restInit, "");
      assert s[..l + 1] == [s[0]] + s[1..][..l];
      RemoveAllConcat(c, [s[0]], s[1..][..l]);
    } else {
      assert LastIndexOf(s, c) == -1;
      SplitPiecesCount(s[1..], c);
      assert rest == [s[1..]];
      assert parts[..|parts| - 1] == [];
    }
  }

  /** A split has one more piece than the input has separators; in particular one piece when there is none. */
  lemma {:induction false} SplitPiecesCount(s: string, c: char)
    ensures c !in s ==> Split(s, c) == [s]
    decreases |s|
  {
    if |s| > 0 {
      SplitPiecesCount(s[1..], c);
      if c !in s {
        assert c !in s[1..];
        assert s == [s[0]] + s[1..];
      }
    }
  }

  lemma JoinEmptyHead(ps: seq<string>)
    ensures Join([""] + ps, "") == Join(ps, "")
  {
    if |ps| > 0 {
      assert ([""] + ps)[1..] == ps;
    }
  }

  /** Joining after a character is prepended to the first piece is prepending it to the join. */
  lemma JoinOntoFirst(ch: char, ps: seq<string>, sep: string)
    requires |ps| >= 1
    ensures Join([[ch] + ps[0]] + ps[1..], sep) == [ch] + Join(ps, sep)
  {
    var qs := [[ch] + ps[0]] + ps[1..];
    if |ps| > 1 {
      assert qs[1..] == ps[1..];
    }
  }

  /** Joining with an empty first piece puts a separator in front. */
  lemma JoinAfterEmpty(ps: seq<string>, sep: string)
    requires |ps| >= 1
    ensures Join([""] + ps, sep) == sep + Join(ps, sep)
  {
    assert ([""] + ps)[1..] == ps;
  }

  /** The characters `String.prototype.trim` removes (ECMAScript WhiteSpace and LineTerminator). */
  predicate IsWhitespace(ch: char) {
    ch == ' ' || ch == '\t' || ch == '\n' || ch == '\r' || ch == '\U{000B}' || ch == '\U{000C}'
    || ch == '\U{00A0}' || ch == '\U{1680}' || ('\U{2000}' <= ch <= '\U{200A}')
    || ch == '\U{2028}' || ch == '\U{2029}' || ch == '\U{202F}' || ch == '\U{205F}'
    || ch == '\U{3000}' || ch == '\U{FEFF}'
  }

  function TrimStart(s: string): (r: string)
    ensures |r| <= |s| && r == s[|s| - |r|..]
    ensures r == "" || !IsWhitespace(r[0])
    ensures forall i :: 0 <= i < |s| - |r| ==> IsWhitespace(s[i])
    decreases |s|
  {
    if |s| > 0 && IsWhitespace(s[0]) then
      var r := TrimStart(s[1..]);
      assert s[1..][|s| - 1 - |r|..] == s[|s| - |r|..];
      r
    else s
  }

  function TrimEnd(s: string): (r: string)
    ensures |r| <= |s| && r == s[..|r|]
    ensures r == "" || !IsWhitespace(r[|r| - 1])
    ensures forall i :: |r| <= i < |s| ==> IsWhitespace(s[i])
    decreases |s|
  {
    if |s| > 0 && IsWhitespace(s[|s| - 1]) then
      var r := TrimEnd(s[..|s| - 1]);
      r
    else s
  }

  /** `s.trim()`: `s` without leading and trailing whitespace. */
  function Trim(s: string): (r: string)
    ensures |r| <= |s|
    ensures r == "" || (!IsWhitespace(r[0]) && !IsWhitespace(r[|r| - 1]))
    ensures r == "" <==> forall i :: 0 <= i < |s| ==> IsWhitespace(s[i])
  {
    TrimFacts(s);
    TrimEnd(TrimStart(s))
  }

  lemma TrimFacts(s: string)
    ensures var r := TrimEnd(TrimStart(s));
      && (r == "" <==> forall i :: 0 <= i < |s| ==> IsWhitespace(s[i]))
      && (r == "" || !IsWhitespace(r[0]))
  {
    var t := TrimStart(s);
    var r := TrimEnd(t);
    assert r != "" ==> r[0] == t[0];
    if r == "" {
      assert t == "";
    } else {
      assert !IsWhitespace(s[|s| - |t|]);
    }
  }

  /** Trimming twice is trimming once. */
  lemma TrimIdempotent(s: string)
    ensures Trim(Trim(s)) == Trim(s)
  {
    var r := Trim(s);
    if r != "" {
      assert TrimStart(r) == r;
      assert TrimEnd(r) == r;
    }
  }

  /** ASCII `toLowerCase` of one character. */
  function LowerChar(ch: char): char {
    if 'A' <= ch <= 'Z' then (ch as int + 32) as char else ch
  }

  /** ASCII `toUpperCase` of one character. */
  function UpperChar(ch: char): char {
    if 'a' <= ch <= 'z' then (ch as int - 32) as char else ch
  }

  /** `s.toLowerCase()` (ASCII letters only). */
  function ToLower(s: string): (r: string)
    ensures |r| == |s| && forall i :: 0 <= i < |s| ==> r[i] == LowerChar(s[i])
  {
    seq(|s|, i requires 0 <= i < |s| => LowerChar(s[i]))
  }

  /** `w.charAt(0).toUpperCase() + w.slice(1)` */
  function Capitalize(w: string): (r: string)
    ensures |r| == |w|
    ensures w != "" ==> r[0] == UpperChar(w[0]) && r[1..] == w[1..]
  {
    if w == "" then "" else [UpperChar(w[0])] + w[1..]
  }
}

=== FILE: topic_build.dfy ===
/**
 * Building the topic graph: `traverseTopicsUp` registers a topic and, through
 * its `subset` links, its ancestors; the build then files each note under the
 * topics it links to and keeps the topics without parents as roots.
 *
 * The host (note database, vault and metadata cache) is given as data: the
 * metadata of each existing note and the resolution of link texts to paths.
 */
module TopicBuild {
  import opened Wrappers
  import opened OrderedSets
  import opened TopicNames
  import opened TopicGraph

  /**
   * The host: `metadata` maps the path of every existing note to its cached
   * metadata (`None` when the cache has none); `resolve` maps a link text to
   * the path of the note it resolves to.
   */
  datatype Vault = Vault(metadata: map<string, Option<Metadata>>, resolve: map<string, string>)

  /** A note of the database with its tags, as `getAllFiles` lists it. */
  datatype FileEntry = FileEntry(path: string, tags: Option<seq<string>>)

  /** `getFileCache` for a note the host knows to exist. */
  function MetadataAt(vault: Vault, path: string): Option<Metadata> {
    if path in vault.metadata then vault.metadata[path] else None
  }

  /** `universe` holds the topic name of every note a link can resolve to. */
  ghost predicate Covers(vault: Vault, universe: set<string>) {
    forall l :: l in vault.resolve ==> TopicNameFromPath(vault.resolve[l]) in universe
  }

  /** The topics in registration order that have no parent: the third pass of the build. */
  function Roots(nodes: Store, order: seq<string>): (roots: seq<string>)
    requires forall k :: k in order ==> k in nodes
    ensures forall r :: r in roots <==> r in order && nodes[r].parents == []
    ensures NoDup(order) ==> NoDup(roots)
  {
    if |order| == 0 then []
    else
      var rest := Roots(nodes, order[..|order| - 1]);
      var last := order[|order| - 1];
      assert forall k :: k in order <==> k in order[..|order| - 1] || k == last;
      if nodes[last].parents == [] then rest + [last] else rest
  }

  lemma FewerUnvisited(universe: set<string>, before: set<string>, after: set<string>, x: string)
    requires before <= after && x in universe && x in after && x !in before
    ensures |universe - after| < |universe - before|
  {
    var a, b := universe - after, universe - before;
    assert x in b - a;
    assert b == a + (b - a);
  }

  /** The store after linking `parent` to `child` at both ends. */
  function LinkNodes(nodes: Store, parent: string, child: string): (r: Store)
    requires parent in nodes && child in nodes
    ensures r.Keys == nodes.Keys
    ensures forall k :: k in r ==> r[k].name == nodes[k].name && r[k].notesWithTag == nodes[k].notesWithTag
    ensures child in r[parent].children && parent in r[child].parents
    ensures r[parent].children == AddUnique(nodes[parent].children, child)
    ensures r[child].parents == AddUnique(nodes[child].parents, parent)
    ensures parent != child ==> r[parent].parents == nodes[parent].parents && r[child].children == nodes[child].children
    ensures forall k :: k in r && k != parent && k != child ==> r[k] == nodes[k]
  {
    var p := nodes[parent];
    var linked := nodes[parent := p.(children := AddUnique(p.children, child))];
    var c := linked[child];
    linked[child := c.(parents := AddUnique(c.parents, parent))]
  }

  lemma LinkKeepsClosed(nodes: Store, parent: string, child: string)
    requires Closed(nodes) && parent in nodes && child in nodes
    ensures Closed(LinkNodes(nodes, parent, child))
  {
    var r := LinkNodes(nodes, parent, child);
    forall n, c | n in r && c in r[n].children
      ensures c in r
    {
      if n == parent && c != child {
        assert c in nodes[n].children;
      } else if n != parent {
        assert c in nodes[n].children;
      }
    }
    forall n, p | n in r && p in r[n].parents
      ensures p in r
    {
      if n == child && p != parent {
        assert p in nodes[n].parents;
      } else if n != child {
        assert p in nodes[n].parents;
      }
    }
  }

  lemma LinkKeepsMutual(nodes: Store, parent: string, child: string)
    requires Mutual(nodes) && parent in nodes && child in nodes
    ensures Mutual(LinkNodes(nodes, parent, child))
  {
    var r := LinkNodes(nodes, parent, child);
    forall n, c | n in r && c in r[n].children
      ensures c in r && n in r[c].parents
    {
      if !(n == parent && c == child) {
        assert c in nodes[n].children;
        assert n in nodes[c].parents;
      }
    }
    forall n, p | n in r && p in r[n].parents
      ensures p in r && n in r[p].children
    {
      if !(n == child && p == parent) {
        assert p in nodes[n].parents;
        assert n in nodes[p].children;
      }
    }
  }

  lemma LinkKeepsNoDup(nodes: Store, parent: string, child: string)
    requires parent in nodes && child in nodes
    requires forall k :: k in nodes ==> NoDup(nodes[k].parents) && NoDup(nodes[k].children)
    ensures var r := LinkNodes(nodes, parent, child);
      forall k :: k in r ==> NoDup(r[k].parents) && NoDup(r[k].children)
  {
  }

  lemma NoMoreUnvisited(universe: set<string>, before: set<string>, after: set<string>)
    requires before <= after
    ensures |universe - after| <= |universe - before|
  {
    var a, b := universe - after, universe - before;
    assert b == a + (b - a);
  }

  /** The map of registered topics (`allTopics`), with its keys in insertion order. */
  class TopicStore {
    var nodes: Store
    var order: seq<string>

    ghost predicate Valid()
      reads this
    {
      StoreValid(nodes, order)
    }

    constructor ()
      ensures Valid() && nodes == map[] && order == []
    {
      nodes := map[];
      order := [];
    }

    /** `parent.children.set(child)` and `child.parents.set(parent)`. */
    method Link(parent: string, child: string)
      requires Valid() && parent in nodes && child in nodes
      modifies this
      ensures Valid()
      ensures nodes == LinkNodes(old(nodes), parent, child) && order == old(order)
    {
      LinkKeepsClosed(nodes, parent, child);
      LinkKeepsMutual(nodes, parent, child);
      LinkKeepsNoDup(nodes, parent, child);
      nodes := LinkNodes(nodes, parent, child);
    }

    /** `allTopics.set(name, node)` for a new topic without links or notes. */
    method Register(name: string)
      requires Valid() && name !in nodes
      modifies this
      ensures Valid()
      ensures nodes == old(nodes)[name := Node(name, [], [], {})] && order == old(order) + [name]
    {
      RegisterKeepsValid(nodes, order, name);
      nodes := nodes[name := Node(name, [], [], {})];
      order := order + [name];
    }

    /**
     * `traverseTopicsUp`: registers the topic of `topicPath` unless its name is
     * taken, then registers each parent named by its `subset` links that is a
     * topic (or has no metadata) and links the two. Every link it adds is the
     * `subset` link of a note, and its child end is a topic this call registered.
     */
    method TraverseTopicsUp(vault: Vault, topicPath: string, ghost universe: set<string>) returns (name: string)
      requires Valid() && Covers(vault, universe) && TopicNameFromPath(topicPath) in universe
      modifies this
      ensures Valid()
      ensures name == TopicNameFromPath(topicPath) && name in nodes
      ensures old(name in nodes) ==> nodes == old(nodes) && order == old(order)
      ensures Grows(vault, old(nodes), old(order), nodes, order, universe)
      ensures NewChildrenOnly(old(nodes), nodes, {})
      ensures old(name !in nodes) && MetadataAt(vault, topicPath).Some? ==>
        var topics := SubsetLinks(MetadataAt(vault, topicPath).value);
        LinkedUpTo(vault, topics, |topics|, name, nodes)
      decreases |universe - nodes.Keys|, 2
    {
      name := TopicNameFromPath(topicPath);
      if name in nodes {
        assert Grows(vault, old(nodes), old(order), nodes, order, universe) by {
          assert order[..|old(order)|] == old(order);
        }
        return;
      }
      Register(name);
      assert Grows(vault, old(nodes), old(order), nodes, order, universe) by {
        assert order[..|old(order)|] == old(order);
      }
      var md := MetadataAt(vault, topicPath);
      if md.None? {
        return;
      }
      ghost var nodes1, order1 := nodes, order;
      FewerUnvisited(universe, old(nodes.Keys), nodes.Keys, name);
      AddParents(vault, SubsetLinks(md.value), name, topicPath, universe);
      GrowsTrans(vault, old(nodes), old(order), nodes1, order1, nodes, order, universe);
      NewChildrenOnlyTrans(old(nodes), nodes1, nodes, {name});
    }

    /** The loop of `traverseTopicsUp` over the `subset` links of `child`, the topic of the note at `childPath`. */
    method AddParents(vault: Vault, topics: seq<string>, child: string, ghost childPath: string, ghost universe: set<string>)
      requires Valid() && Covers(vault, universe) && child in nodes
      requires TopicNameFromPath(childPath) == child && MetadataAt(vault, childPath).Some?
      requires topics == SubsetLinks(MetadataAt(vault, childPath).value)
      modifies this
      ensures Valid() && child in nodes
      ensures Grows(vault, old(nodes), old(order), nodes, order, universe)
      ensures NewChildrenOnly(old(nodes), nodes, {child})
      ensures LinkedUpTo(vault, topics, |topics|, child, nodes)
      decreases |universe - nodes.Keys| + 1, 1
    {
      GrowsRefl(vault, nodes, order, universe);
      var i := 0;
      while i < |topics|
        invariant 0 <= i <= |topics|
        invariant Valid() && child in nodes
        invariant Grows(vault, old(nodes), old(order), nodes, order, universe)
        invariant NewChildrenOnly(old(nodes), nodes, {child})
        invariant LinkedUpTo(vault, topics, i, child, nodes)
      {
        ghost var nodes1, order1 := nodes, order;
        NoMoreUnvisited(universe, old(nodes.Keys), nodes.Keys);
        AddParent(vault, topics[i], child, childPath, universe);
        GrowsTrans(vault, old(nodes), old(order), nodes1, order1, nodes, order, universe);
        NewChildrenOnlyTrans(old(nodes), nodes1, nodes, {child});
        LinkedStep(vault, topics, i, child, nodes1, order1, nodes, order, universe);
        i := i + 1;
      }
    }

    /**
     * One step of the loop of `traverseTopicsUp`: resolves the link `topic`; if
     * it names a topic (or a note without metadata), registers that parent and
     * links it to `child`. A link that names no parent changes nothing.
     */
    method AddParent(vault: Vault, topic: string, child: string, ghost childPath: string, ghost universe: set<string>)
      requires Valid() && Covers(vault, universe) && child in nodes
      requires TopicNameFromPath(childPath) == child && MetadataAt(vault, childPath).Some?
      requires topic in SubsetLinks(MetadataAt(vault, childPath).value)
      modifies this
      ensures Valid() && child in nodes
      ensures Grows(vault, old(nodes), old(order), nodes, order, universe)
      ensures NewChildrenOnly(old(nodes), nodes, {child})
      ensures Linked(vault, topic, child, nodes)
      ensures ParentPath(vault, topic).None? ==> nodes == old(nodes) && order == old(order)
      decreases |universe - nodes.Keys| + 1, 0
    {
      GrowsRefl(vault, nodes, order, universe);
      var linktext := LinkTarget(topic);
      if linktext !in vault.resolve {
        return;
      }
      var parentPath := vault.resolve[linktext];
      var parentMd := MetadataAt(vault, parentPath);
      if parentMd.Some? && !HasTopicTag(TopicTags(parentMd.value)) {
        return;
      }
      assert ParentPath(vault, topic) == Some(parentPath);
      var parent := TraverseTopicsUp(vault, parentPath, universe);
      ghost var nodes1, order1 := nodes, order;
      var parentName := TopicNameFromPath(parentPath);
      assert SubsetEdge(vault, childPath, topic, parentName, child);
      Link(parentName, child);
      GrowsAfterLink(vault, old(nodes), old(order), nodes1, order1, universe, parentName, child);
      LinkNewChildren(nodes1, parentName, child);
      NewChildrenOnlyTrans(old(nodes), nodes1, nodes, {child});
    }

    /** `topicNode.notesWithTag.add(path)`. */
    method FileNote(name: string, path: string)
      requires name in nodes
      modifies this
      ensures order == old(order)
      ensures nodes == old(nodes)[name := old(nodes[name]).(notesWithTag := old(nodes[name].notesWithTag) + {path})]
      ensures FiledUnder(old(nodes), nodes, path)
    {
      nodes := nodes[name := nodes[name].(notesWithTag := nodes[name].notesWithTag + {path})];
    }

    /**
     * `collectParentTopics(file, path)`: files the note `path` under every topic
     * the note at `filePath` links to by a topic relation, following links to
     * notes that are not topics upwards. `fuel` is the call depth left; running
     * out abandons the note (the `RangeError` the build catches) and returns true.
     * Without that, the note is filed under every registered topic of
     * `NoteTopics`; either way it is filed under no other topic.
     */
    method CollectParentTopics(vault: Vault, filePath: string, path: string, fuel: nat) returns (overflow: bool)
      modifies this
      ensures order == old(order)
      ensures overflow == NoteOverflows(vault, filePath, fuel)
      ensures Collected(old(nodes), nodes, NoteTopics(vault, filePath, fuel), path, overflow)
      decreases fuel, 2
    {
      NoteUnfold(vault, filePath, fuel);
      var md := MetadataAt(vault, filePath);
      if md.None? || HasTopicTag(TopicTags(md.value)) {
        NothingFiled(nodes, {}, path, false);
        return false;
      }
      var topics := TopicRelations(md.value);
      if |topics| == 0 {
        NothingFiled(nodes, {}, path, false);
        return false;
      }
      overflow := CollectLinks(vault, topics, path, fuel);
    }

    /** The loop of `collectParentTopics` over the relation links `topics`; stops at the first overflow. */
    method CollectLinks(vault: Vault, topics: seq<string>, path: string, fuel: nat) returns (overflow: bool)
      modifies this
      ensures order == old(order)
      ensures overflow == LinksOverflow(vault, topics, fuel)
      ensures Collected(old(nodes), nodes, LinksTopics(vault, topics, fuel), path, overflow)
      decreases fuel, 1
    {
      ghost var all := LinksTopics(vault, topics, fuel);
      var i := 0;
      ghost var seen: set<string> := {};
      while i < |topics|
        invariant 0 <= i <= |topics|
        invariant order == old(order)
        invariant Collecting(vault, topics, i, fuel, path, all, seen, old(nodes), nodes)
      {
        ghost var nodes1 := nodes;
        overflow := CollectLink(vault, topics[i], path, fuel);
        CollectStep(vault, topics, i, fuel, path, all, seen, old(nodes), nodes1, nodes, overflow);
        if overflow {
          return;
        }
        seen := seen + LinkTopics(vault, topics[i], fuel);
        i := i + 1;
      }
      CollectDone(vault, topics, fuel, path, all, seen, old(nodes), nodes);
      return false;
    }

    /**
     * One iteration of the loop of `collectParentTopics`: resolves the link `t`;
     * a note that is not a topic is climbed through with one call less, a topic
     * (or a note without metadata) gets `path` filed under it when registered.
     */
    method CollectLink(vault: Vault, t: string, path: string, fuel: nat) returns (overflow: bool)
      modifies this
      ensures order == old(order)
      ensures overflow == LinkOverflows(vault, t, fuel)
      ensures Collected(old(nodes), nodes, LinkTopics(vault, t, fuel), path, overflow)
      decreases fuel, 0
    {
      var linktext := LinkTarget(t);
      if linktext !in vault.resolve {
        LinkUnresolved(vault, t, fuel);
        NothingFiled(nodes, {}, path, false);
        return false;
      }
      var topicPath := vault.resolve[linktext];
      var topicMd := MetadataAt(vault, topicPath);
      if topicMd.Some? && !HasTopicTag(TopicTags(topicMd.value)) {
        LinkThrough(vault, t, fuel, topicPath);
        if fuel == 0 {
          NothingFiled(nodes, {}, path, true);
          return true;
        }
        overflow := CollectParentTopics(vault, topicPath, path, fuel - 1);
      } else {
        LinkToTopic(vault, t, fuel, topicPath);
        var name := TopicNameFromPath(topicPath);
        if name in nodes {
          FileNote(name, path);
          FileNoteFiles(old(nodes), nodes, name, path);
        } else {
          NothingFiled(nodes, {name}, path, false);
        }
        overflow := false;
      }
    }

    /** The first pass of the build: traverses up from every kept note tagged as a topic. */
    method RegisterTopics(db: seq<FileEntry>, vault: Vault, included: Option<set<string>>, excluded: string -> bool, ghost universe: set<string>)
      requires Valid() && Covers(vault, universe)
      requires forall e :: e in db ==> TopicNameFromPath(e.path) in universe
      modifies this
      ensures Valid()
      ensures Grows(vault, old(nodes), old(order), nodes, order, universe)
      ensures TopicNotesRegistered(db, |db|, included, excluded, nodes)
    {
      GrowsRefl(vault, nodes, order, universe);
      var i := 0;
      while i < |db|
        invariant 0 <= i <= |db|
        invariant Valid()
        invariant Grows(vault, old(nodes), old(order), nodes, order, universe)
        invariant TopicNotesRegistered(db, i, included, excluded, nodes)
      {
        var e := db[i];
        ghost var nodes1, order1 := nodes, order;
        if !Skipped(e.path, included, excluded) && e.tags.Some? && HasTopicTag(e.tags.value) && e.path !in nodes {
          var _ := TraverseTopicsUp(vault, e.path, universe);
          GrowsTrans(vault, old(nodes), old(order), nodes1, order1, nodes, order, universe);
        }
        RegisteredStep(db, i, included, excluded, nodes1, nodes);
        i := i + 1;
      }
    }

    /**
     * The second pass of the build: files every kept, existing note under its
     * topics. Topics and links stay as they are; a note is filed under every
     * registered topic it names (unless its climb overflows) and under nothing
     * else.
     */
    method FileNotes(db: seq<FileEntry>, vault: Vault, included: Option<set<string>>, excluded: string -> bool, stackDepth: nat)
      requires Valid()
      modifies this
      ensures Valid() && order == old(order) && nodes.Keys == old(nodes.Keys)
      ensures forall k :: k in nodes ==> nodes[k].parents == old(nodes[k].parents) && nodes[k].children == old(nodes[k].children)
      ensures FiledEvery(db, vault, included, excluded, stackDepth, |db|, nodes)
      ensures FiledSound(db, vault, included, excluded, stackDepth, old(nodes), nodes)
    {
      var i := 0;
      while i < |db|
        invariant 0 <= i <= |db|
        invariant Valid() && order == old(order) && nodes.Keys == old(nodes.Keys)
        invariant forall k :: k in nodes ==> nodes[k].parents == old(nodes[k].parents) && nodes[k].children == old(nodes[k].children)
        invariant forall k :: k in nodes ==> old(nodes)[k].notesWithTag <= nodes[k].notesWithTag
        invariant FiledEvery(db, vault, included, excluded, stackDepth, i, nodes)
        invariant FiledSound(db, vault, included, excluded, stackDepth, old(nodes), nodes)
      {
        ghost var nodes1 := nodes;
        var e := db[i];
        if !Skipped(e.path, included, excluded) && e.path in vault.metadata {
          var _ := CollectParentTopics(vault, e.path, e.path, stackDepth);
          FiledKeepsValid(nodes1, nodes, order, e.path);
          FiledEveryStep(db, vault, included, excluded, stackDepth, i, nodes1, nodes);
          FiledSoundStep(db, vault, included, excluded, stackDepth, i, old(nodes), nodes1, nodes);
        } else {
          FiledEverySkip(db, vault, included, excluded, stackDepth, i, nodes);
        }
        i := i + 1;
      }
    }

    /** The third pass of the build: the topics without parents, in registration order. */
    method RootTopics() returns (roots: seq<string>)
      requires Valid()
      ensures roots == Roots(nodes, order)
    {
      roots := CollectRoots(nodes, order);
    }
  }

  /** The loop of the third pass over the registration order. */
  method CollectRoots(nodes: Store, order: seq<string>) returns (roots: seq<string>)
    requires forall k :: k in order ==> k in nodes
    ensures roots == Roots(nodes, order)
  {
    roots := [];
    var i := 0;
    while i < |order|
      invariant 0 <= i <= |order|
      invariant roots == Roots(nodes, order[..i])
    {
      assert order[..i + 1][..i] == order[..i];
      if nodes[order[i]].parents == [] {
        roots := roots + [order[i]];
      }
      i := i + 1;
    }
    assert order[..|order|] == order;
  }

  /** The invariant of the topic map: closed, mutual, duplicate-free links, and keys listed once in `order`. */
  ghost predicate StoreValid(nodes: Store, order: seq<string>) {
    && Closed(nodes) && Mutual(nodes)
    && NoDup(order) && (forall k :: k in nodes <==> k in order)
    && forall k :: k in nodes ==> NoDup(nodes[k].parents) && NoDup(nodes[k].children)
  }

  lemma RegisterKeepsValid(nodes: Store, order: seq<string>, name: string)
    requires StoreValid(nodes, order) && name !in nodes
    ensures StoreValid(nodes[name := Node(name, [], [], {})], order + [name])
  {
    var after := nodes[name := Node(name, [], [], {})];
    assert forall n :: n in after && n != name ==> after[n] == nodes[n];
  }

  /** Filing notes changes no key and no link, so the map invariant is kept. */
  lemma FiledKeepsValid(before: Store, after: Store, order: seq<string>, path: string)
    requires StoreValid(before, order) && FiledUnder(before, after, path)
    ensures StoreValid(after, order)
  {
    assert forall n :: n in after ==> after[n].parents == before[n].parents && after[n].children == before[n].children;
  }

  /** Every kept note among the first `n` of `db` that is tagged as a topic has its topic (or its path) registered. */
  predicate TopicNotesRegistered(db: seq<FileEntry>, n: nat, included: Option<set<string>>, excluded: string -> bool, nodes: Store)
    requires n <= |db|
  {
    forall j :: 0 <= j < n && !Skipped(db[j].path, included, excluded) && db[j].tags.Some? && HasTopicTag(db[j].tags.value) ==>
      TopicNameFromPath(db[j].path) in nodes || db[j].path in nodes
  }

  lemma RegisteredStep(db: seq<FileEntry>, i: nat, included: Option<set<string>>, excluded: string -> bool, n0: Store, n1: Store)
    requires i < |db| && TopicNotesRegistered(db, i, included, excluded, n0) && n0.Keys <= n1.Keys
    requires !Skipped(db[i].path, included, excluded) && db[i].tags.Some? && HasTopicTag(db[i].tags.value) ==>
      TopicNameFromPath(db[i].path) in n1 || db[i].path in n1
    ensures TopicNotesRegistered(db, i + 1, included, excluded, n1)
  {
  }

  // ----- which links the first pass makes -----

  /**
   * `t` is a `subset` link of the note at `p`, the note of topic `child`, and
   * it resolves to a parent note whose topic is `parent`.
   */
  predicate SubsetEdge(vault: Vault, p: string, t: string, parent: string, child: string) {
    && TopicNameFromPath(p) == child
    && MetadataAt(vault, p).Some?
    && t in SubsetLinks(MetadataAt(vault, p).value)
    && ParentPath(vault, t).Some?
    && TopicNameFromPath(ParentPath(vault, t).value) == parent
  }

  /** Some note's `subset` link makes `parent` a parent of `child`. */
  ghost predicate Justified(vault: Vault, parent: string, child: string) {
    exists p, t :: SubsetEdge(vault, p, t, parent, child)
  }

  /** Every link of `after` that `before` does not have is justified by a `subset` link. */
  ghost predicate NewLinksJustified(vault: Vault, before: Store, after: Store) {
    && (forall k, x :: k in after && x in after[k].parents && !(k in before && x in before[k].parents) ==> Justified(vault, x, k))
    && (forall k, x :: k in after && x in after[k].children && !(k in before && x in before[k].children) ==> Justified(vault, k, x))
  }

  /** Every parent link that `before` does not have ends in a child from `allowed` or one `before` lacks. */
  ghost predicate NewChildrenOnly(before: Store, after: Store, allowed: set<string>) {
    forall k, x :: k in after && x in after[k].parents && !(k in before && x in before[k].parents) ==>
      k in allowed || k !in before
  }

  /**
   * From `before` to `after` the store only gains topics, all from `universe`,
   * appended to the registration order, each with no notes yet; the notes and
   * links of the topics already there are kept, and every new link is
   * justified by a `subset` link.
   */
  ghost predicate Grows(vault: Vault, before: Store, orderBefore: seq<string>, after: Store, orderAfter: seq<string>, universe: set<string>) {
    Extends(before, orderBefore, after, orderAfter, universe) && NewLinksJustified(vault, before, after)
  }

  /** The part of `Grows` about keys, order, notes and kept links. */
  ghost predicate Extends(before: Store, orderBefore: seq<string>, after: Store, orderAfter: seq<string>, universe: set<string>) {
    && before.Keys <= after.Keys
    && |orderBefore| <= |orderAfter| && orderAfter[..|orderBefore|] == orderBefore
    && (forall k :: k in after ==> k in before || k in universe)
    && (forall k :: k in after ==> after[k].notesWithTag == (if k in before then before[k].notesWithTag else {}))
    && (forall k, x :: k in before && x in before[k].parents ==> x in after[k].parents)
    && (forall k, x :: k in before && x in before[k].children ==> x in after[k].children)
  }

  lemma GrowsRefl(vault: Vault, nodes: Store, order: seq<string>, universe: set<string>)
    ensures Grows(vault, nodes, order, nodes, order, universe)
  {
    assert order[..|order|] == order;
  }

  /**
   * The parent a `subset` link names: the note it resolves to, unless that note
   * has metadata without a topic tag.
   */
  function ParentPath(vault: Vault, topic: string): Option<string> {
    var linktext := LinkTarget(topic);
    if linktext !in vault.resolve then None
    else
      var parentPath := vault.resolve[linktext];
      var parentMd := MetadataAt(vault, parentPath);
      if parentMd.Some? && !HasTopicTag(TopicTags(parentMd.value)) then None
      else Some(parentPath)
  }

  /** The parent named by `topic`, if any, is linked to `child` at both ends. */
  ghost predicate Linked(vault: Vault, topic: string, child: string, nodes: Store) {
    ParentPath(vault, topic).Some? ==>
      var parent := TopicNameFromPath(ParentPath(vault, topic).value);
      && parent in nodes && child in nodes
      && parent in nodes[child].parents && child in nodes[parent].children
  }

  /** Every parent named by the first `n` of `topics` is linked to `child`. */
  ghost predicate LinkedUpTo(vault: Vault, topics: seq<string>, n: nat, child: string, nodes: Store)
    requires n <= |topics|
  {
    forall j :: 0 <= j < n ==> Linked(vault, topics[j], child, nodes)
  }

  lemma LinkedStep(vault: Vault, topics: seq<string>, i: nat, child: string, n0: Store, o0: seq<string>, n1: Store, o1: seq<string>, universe: set<string>)
    requires i < |topics|
    requires LinkedUpTo(vault, topics, i, child, n0) && Grows(vault, n0, o0, n1, o1, universe)
    requires Linked(vault, topics[i], child, n1)
    ensures LinkedUpTo(vault, topics, i + 1, child, n1)
  {
  }

  lemma GrowsTrans(vault: Vault, n0: Store, o0: seq<string>, n1: Store, o1: seq<string>, n2: Store, o2: seq<string>, universe: set<string>)
    requires Grows(vault, n0, o0, n1, o1, universe) && Grows(vault, n1, o1, n2, o2, universe)
    ensures Grows(vault, n0, o0, n2, o2, universe)
  {
    assert o2[..|o0|] == o2[..|o1|][..|o0|];
  }

  lemma GrowsAfterLink(vault: Vault, n0: Store, o0: seq<string>, n1: Store, o1: seq<string>, universe: set<string>, parent: string, child: string)
    requires parent in n1 && child in n1
    requires Grows(vault, n0, o0, n1, o1, universe)
    requires Justified(vault, parent, child)
    ensures Grows(vault, n0, o0, LinkNodes(n1, parent, child), o1, universe)
  {
    var r := LinkNodes(n1, parent, child);
    LinkEdges(n1, parent, child);
    assert Extends(n0, o0, r, o1, universe);
    assert NewLinksJustified(vault, n0, r);
  }

  /** The links after linking are the links before plus the one pair. */
  lemma LinkEdges(nodes: Store, parent: string, child: string)
    requires parent in nodes && child in nodes
    ensures var r := LinkNodes(nodes, parent, child);
      && (forall k, x :: k in r && x in r[k].parents ==> x in nodes[k].parents || (k == child && x == parent))
      && (forall k, x :: k in r && x in r[k].children ==> x in nodes[k].children || (k == parent && x == child))
      && (forall k, x :: k in nodes && x in nodes[k].parents ==> x in r[k].parents)
      && (forall k, x :: k in nodes && x in nodes[k].children ==> x in r[k].children)
  {
  }

  lemma NewChildrenOnlyTrans(n0: Store, n1: Store, n2: Store, allowed: set<string>)
    requires n0.Keys <= n1.Keys
    requires forall k, x :: k in n0 && x in n0[k].parents ==> x in n1[k].parents
    requires NewChildrenOnly(n0, n1, allowed) && NewChildrenOnly(n1, n2, allowed)
    ensures NewChildrenOnly(n0, n2, allowed)
  {
  }

  /** Linking adds one parent link, whose child end is `child`. */
  lemma LinkNewChildren(nodes: Store, parent: string, child: string)
    requires parent in nodes && child in nodes
    ensures NewChildrenOnly(nodes, LinkNodes(nodes, parent, child), {child})
  {
    var r := LinkNodes(nodes, parent, child);
    forall k, x | k in r && x in r[k].parents && !(k in nodes && x in nodes[k].parents)
      ensures k == child
    {
    }
  }

  // ----- which notes the second pass files -----

  /**
   * The topics the link `t` files a note under: the topic of the note it
   * resolves to, or, when that note has metadata but no topic tag, the topics
   * that note's own links reach with one call less.
   */
  function LinkTopics(vault: Vault, t: string, fuel: nat): set<string>
    decreases fuel, 0, 0
  {
    var linktext := LinkTarget(t);
    if linktext !in vault.resolve then {}
    else
      var topicPath := vault.resolve[linktext];
      var topicMd := MetadataAt(vault, topicPath);
      if topicMd.Some? && !HasTopicTag(TopicTags(topicMd.value)) then
        if fuel == 0 then {} else NoteTopics(vault, topicPath, fuel - 1)
      else {TopicNameFromPath(topicPath)}
  }

  /** The topics any of the links `ts` files a note under. */
  function LinksTopics(vault: Vault, ts: seq<string>, fuel: nat): set<string>
    decreases fuel, 1, |ts|
  {
    if |ts| == 0 then {}
    else LinksTopics(vault, ts[..|ts| - 1], fuel) + LinkTopics(vault, ts[|ts| - 1], fuel)
  }

  /** The topics the note at `filePath` is filed under: none for a topic or a note without metadata. */
  function NoteTopics(vault: Vault, filePath: string, fuel: nat): set<string>
    decreases fuel, 2, 0
  {
    var md := MetadataAt(vault, filePath);
    if md.None? || HasTopicTag(TopicTags(md.value)) then {}
    else LinksTopics(vault, TopicRelations(md.value), fuel)
  }

  /** Following the link `t` needs more than `fuel` further calls. */
  predicate LinkOverflows(vault: Vault, t: string, fuel: nat)
    decreases fuel, 0, 0
  {
    var linktext := LinkTarget(t);
    && linktext in vault.resolve
    && var topicPath := vault.resolve[linktext];
    && var topicMd := MetadataAt(vault, topicPath);
    && topicMd.Some? && !HasTopicTag(TopicTags(topicMd.value))
    && (fuel == 0 || NoteOverflows(vault, topicPath, fuel - 1))
  }

  /** Following one of the links `ts` overflows. */
  predicate LinksOverflow(vault: Vault, ts: seq<string>, fuel: nat)
    decreases fuel, 1, |ts|
  {
    |ts| > 0 && (LinksOverflow(vault, ts[..|ts| - 1], fuel) || LinkOverflows(vault, ts[|ts| - 1], fuel))
  }

  /** Filing the note at `filePath` needs more than `fuel` nested calls: the source's `RangeError`. */
  predicate NoteOverflows(vault: Vault, filePath: string, fuel: nat)
    decreases fuel, 2, 0
  {
    var md := MetadataAt(vault, filePath);
    md.Some? && !HasTopicTag(TopicTags(md.value)) && LinksOverflow(vault, TopicRelations(md.value), fuel)
  }

  /** A topic, or a note without metadata, is filed under nothing; any other note under what its relation links reach. */
  lemma NoteUnfold(vault: Vault, filePath: string, fuel: nat)
    ensures var md := MetadataAt(vault, filePath);
      if md.None? || HasTopicTag(TopicTags(md.value)) then NoteTopics(vault, filePath, fuel) == {} && !NoteOverflows(vault, filePath, fuel)
      else
        var ts := TopicRelations(md.value);
        && NoteTopics(vault, filePath, fuel) == LinksTopics(vault, ts, fuel)
        && NoteOverflows(vault, filePath, fuel) == LinksOverflow(vault, ts, fuel)
        && (ts == [] ==> LinksTopics(vault, ts, fuel) == {} && !LinksOverflow(vault, ts, fuel))
  {
  }

  /** An unresolved link reaches nothing and cannot overflow. */
  lemma LinkUnresolved(vault: Vault, t: string, fuel: nat)
    requires LinkTarget(t) !in vault.resolve
    ensures LinkTopics(vault, t, fuel) == {} && !LinkOverflows(vault, t, fuel)
  {
  }

  /** A link to a note that is not a topic reaches what that note reaches with one call less, and overflows without one. */
  lemma LinkThrough(vault: Vault, t: string, fuel: nat, topicPath: string)
    requires LinkTarget(t) in vault.resolve && topicPath == vault.resolve[LinkTarget(t)]
    requires MetadataAt(vault, topicPath).Some? && !HasTopicTag(TopicTags(MetadataAt(vault, topicPath).value))
    ensures fuel == 0 ==> LinkTopics(vault, t, fuel) == {} && LinkOverflows(vault, t, fuel)
    ensures fuel > 0 ==> LinkTopics(vault, t, fuel) == NoteTopics(vault, topicPath, fuel - 1)
    ensures fuel > 0 ==> LinkOverflows(vault, t, fuel) == NoteOverflows(vault, topicPath, fuel - 1)
  {
  }

  /** A link to a topic, or to a note without metadata, reaches the topic of its target. */
  lemma LinkToTopic(vault: Vault, t: string, fuel: nat, topicPath: string)
    requires LinkTarget(t) in vault.resolve && topicPath == vault.resolve[LinkTarget(t)]
    requires !(MetadataAt(vault, topicPath).Some? && !HasTopicTag(TopicTags(MetadataAt(vault, topicPath).value)))
    ensures LinkTopics(vault, t, fuel) == {TopicNameFromPath(topicPath)} && !LinkOverflows(vault, t, fuel)
  {
  }

  /** A link that overflows makes the whole list overflow. */
  lemma {:induction false} LinkOverflowInLinks(vault: Vault, ts: seq<string>, j: nat, fuel: nat)
    requires j < |ts| && LinkOverflows(vault, ts[j], fuel)
    ensures LinksOverflow(vault, ts, fuel)
    decreases |ts|
  {
    if j < |ts| - 1 {
      LinkOverflowInLinks(vault, ts[..|ts| - 1], j, fuel);
    }
  }

  lemma LinksOverflowSnoc(vault: Vault, ts: seq<string>, i: nat, fuel: nat)
    requires i < |ts|
    ensures LinksOverflow(vault, ts[..i + 1], fuel) == (LinksOverflow(vault, ts[..i], fuel) || LinkOverflows(vault, ts[i], fuel))
  {
    assert ts[..i + 1][..i] == ts[..i];
  }

  lemma {:induction false} LinkInLinks(vault: Vault, ts: seq<string>, j: nat, fuel: nat)
    requires j < |ts|
    ensures LinkTopics(vault, ts[j], fuel) <= LinksTopics(vault, ts, fuel)
    decreases |ts|
  {
    if j < |ts| - 1 {
      LinkInLinks(vault, ts[..|ts| - 1], j, fuel);
    }
  }

  /**
   * The invariant of the loop of `collectParentTopics` after `i` links: none
   * overflowed, the note is filed under every registered topic they name
   * (`seen`), and under no topic outside `all`.
   */
  ghost predicate Collecting(vault: Vault, topics: seq<string>, i: nat, fuel: nat, path: string, all: set<string>, seen: set<string>,
                             before: Store, nodes: Store)
    requires i <= |topics|
  {
    && FiledUnder(before, nodes, path) && FiledOnly(before, nodes, all, path)
    && !LinksOverflow(vault, topics[..i], fuel)
    && seen == LinksTopics(vault, topics[..i], fuel) && FiledAll(nodes, seen, path)
  }

  /** One iteration of the loop of `collectParentTopics` keeps its invariant, or shows the note overflows. */
  lemma CollectStep(vault: Vault, topics: seq<string>, i: nat, fuel: nat, path: string, all: set<string>, seen: set<string>,
                    n0: Store, n1: Store, n2: Store, overflow: bool)
    requires i < |topics| && all == LinksTopics(vault, topics, fuel)
    requires Collecting(vault, topics, i, fuel, path, all, seen, n0, n1)
    requires overflow == LinkOverflows(vault, topics[i], fuel)
    requires Collected(n1, n2, LinkTopics(vault, topics[i], fuel), path, overflow)
    ensures FiledUnder(n0, n2, path) && FiledOnly(n0, n2, all, path)
    ensures overflow ==> LinksOverflow(vault, topics, fuel)
    ensures !overflow ==> Collecting(vault, topics, i + 1, fuel, path, all, seen + LinkTopics(vault, topics[i], fuel), n0, n2)
  {
    var here := LinkTopics(vault, topics[i], fuel);
    LinksTopicsSnoc(vault, topics, i, fuel);
    LinksOverflowSnoc(vault, topics, i, fuel);
    LinkInLinks(vault, topics, i, fuel);
    if overflow {
      LinkOverflowInLinks(vault, topics, i, fuel);
    }
    FiledUnderTrans(n0, n1, n2, path);
    FiledOnlyTrans(n0, n1, n2, all, here, path);
    if !overflow {
      FiledAllGrows(n1, n2, seen, path, path);
      FiledAllUnion(n2, seen, here, path);
    }
  }

  /** After the last link, the invariant of the loop of `collectParentTopics` gives its result. */
  lemma CollectDone(vault: Vault, topics: seq<string>, fuel: nat, path: string, all: set<string>, seen: set<string>,
                    before: Store, nodes: Store)
    requires all == LinksTopics(vault, topics, fuel)
    requires Collecting(vault, topics, |topics|, fuel, path, all, seen, before, nodes)
    ensures Collected(before, nodes, all, path, false)
    ensures !LinksOverflow(vault, topics, fuel)
  {
    assert topics[..|topics|] == topics;
  }

  lemma LinksTopicsSnoc(vault: Vault, ts: seq<string>, i: nat, fuel: nat)
    requires i < |ts|
    ensures LinksTopics(vault, ts[..i + 1], fuel) == LinksTopics(vault, ts[..i], fuel) + LinkTopics(vault, ts[i], fuel)
  {
    assert ts[..i + 1][..i] == ts[..i];
  }

  /** Every registered topic of `names` has `path` among its notes. */
  ghost predicate FiledAll(nodes: Store, names: set<string>, path: string) {
    forall n :: n in names && n in nodes ==> path in nodes[n].notesWithTag
  }

  /** Only topics of `names` gained `path` from `before` to `after`. */
  ghost predicate FiledOnly(before: Store, after: Store, names: set<string>, path: string) {
    forall k :: k in after && k in before && path in after[k].notesWithTag && path !in before[k].notesWithTag ==> k in names
  }

  lemma FiledAllGrows(n0: Store, n1: Store, names: set<string>, path: string, added: string)
    requires FiledAll(n0, names, path) && FiledUnder(n0, n1, added)
    ensures FiledAll(n1, names, path)
  {
  }

  /**
   * From `before` to `after` only `path` was filed, only under topics of
   * `names`, and (unless the climb overflowed) under every registered one.
   */
  ghost predicate Collected(before: Store, after: Store, names: set<string>, path: string, overflow: bool) {
    FiledUnder(before, after, path) && FiledOnly(before, after, names, path) && (!overflow ==> FiledAll(after, names, path))
  }

  /** Filing `path` under `name` files it under `{name}` and nothing else. */
  lemma FileNoteFiles(before: Store, after: Store, name: string, path: string)
    requires name in before && after == before[name := before[name].(notesWithTag := before[name].notesWithTag + {path})]
    ensures Collected(before, after, {name}, path, false)
  {
  }

  /** Leaving the store alone collects every set of unregistered names. */
  lemma NothingFiled(nodes: Store, names: set<string>, path: string, overflow: bool)
    requires forall n :: n in names ==> n !in nodes
    ensures Collected(nodes, nodes, names, path, overflow)
  {
  }

  lemma FiledAllUnion(nodes: Store, a: set<string>, b: set<string>, path: string)
    requires FiledAll(nodes, a, path) && FiledAll(nodes, b, path)
    ensures FiledAll(nodes, a + b, path)
  {
  }

  lemma FiledOnlyTrans(n0: Store, n1: Store, n2: Store, names: set<string>, sub: set<string>, path: string)
    requires FiledUnder(n0, n1, path) && FiledUnder(n1, n2, path)
    requires FiledOnly(n0, n1, names, path) && FiledOnly(n1, n2, sub, path) && sub <= names
    ensures FiledOnly(n0, n2, names, path)
  {
  }

  /** The note `e` exists and passes both filters, so the second pass visits it. */
  predicate Kept(e: FileEntry, vault: Vault, included: Option<set<string>>, excluded: string -> bool) {
    !Skipped(e.path, included, excluded) && e.path in vault.metadata
  }

  /** Some kept note of the database has the path `f` and names the topic `k`. */
  ghost predicate FiledFrom(db: seq<FileEntry>, vault: Vault, included: Option<set<string>>, excluded: string -> bool,
                            stackDepth: nat, k: string, f: string) {
    exists j :: 0 <= j < |db| && db[j].path == f && Kept(db[j], vault, included, excluded) && k in NoteTopics(vault, f, stackDepth)
  }

  /** Every kept note among the first `n` of `db` whose climb does not overflow is filed under all its registered topics. */
  ghost predicate FiledEvery(db: seq<FileEntry>, vault: Vault, included: Option<set<string>>, excluded: string -> bool,
                             stackDepth: nat, n: nat, nodes: Store)
    requires n <= |db|
  {
    forall j :: 0 <= j < n && Kept(db[j], vault, included, excluded) && !NoteOverflows(vault, db[j].path, stackDepth) ==>
      FiledAll(nodes, NoteTopics(vault, db[j].path, stackDepth), db[j].path)
  }

  /** Every note of `nodes` that `base` does not have was filed from a kept note naming that topic. */
  ghost predicate FiledSound(db: seq<FileEntry>, vault: Vault, included: Option<set<string>>, excluded: string -> bool,
                             stackDepth: nat, base: Store, nodes: Store)
  {
    forall k, f :: k in nodes && f in nodes[k].notesWithTag ==>
      (k in base && f in base[k].notesWithTag) || FiledFrom(db, vault, included, excluded, stackDepth, k, f)
  }

  /** Visiting note `i` keeps what the earlier visits filed and adds its own topics. */
  lemma FiledEveryStep(db: seq<FileEntry>, vault: Vault, included: Option<set<string>>, excluded: string -> bool, stackDepth: nat,
                       i: nat, n1: Store, n2: Store)
    requires i < |db|
    requires FiledEvery(db, vault, included, excluded, stackDepth, i, n1)
    requires FiledUnder(n1, n2, db[i].path)
    requires !NoteOverflows(vault, db[i].path, stackDepth) ==> FiledAll(n2, NoteTopics(vault, db[i].path, stackDepth), db[i].path)
    ensures FiledEvery(db, vault, included, excluded, stackDepth, i + 1, n2)
  {
    forall j | 0 <= j < i && Kept(db[j], vault, included, excluded) && !NoteOverflows(vault, db[j].path, stackDepth)
      ensures FiledAll(n2, NoteTopics(vault, db[j].path, stackDepth), db[j].path)
    {
      FiledAllGrows(n1, n2, NoteTopics(vault, db[j].path, stackDepth), db[j].path, db[i].path);
    }
  }

  /** A note the second pass skips needs no filing. */
  lemma FiledEverySkip(db: seq<FileEntry>, vault: Vault, included: Option<set<string>>, excluded: string -> bool, stackDepth: nat,
                       i: nat, nodes: Store)
    requires i < |db| && !Kept(db[i], vault, included, excluded)
    requires FiledEvery(db, vault, included, excluded, stackDepth, i, nodes)
    ensures FiledEvery(db, vault, included, excluded, stackDepth, i + 1, nodes)
  {
  }

  /** Visiting the kept note `i` files it only under topics it names. */
  lemma FiledSoundStep(db: seq<FileEntry>, vault: Vault, included: Option<set<string>>, excluded: string -> bool, stackDepth: nat,
                       i: nat, n0: Store, n1: Store, n2: Store)
    requires i < |db| && Kept(db[i], vault, included, excluded)
    requires FiledSound(db, vault, included, excluded, stackDepth, n0, n1)
    requires FiledUnder(n1, n2, db[i].path)
    requires FiledOnly(n1, n2, NoteTopics(vault, db[i].path, stackDepth), db[i].path)
    ensures FiledSound(db, vault, included, excluded, stackDepth, n0, n2)
  {
    forall k, f | k in n2 && f in n2[k].notesWithTag
      ensures (k in n0 && f in n0[k].notesWithTag) || FiledFrom(db, vault, included, excluded, stackDepth, k, f)
    {
      if f !in n1[k].notesWithTag {
        assert f == db[i].path && k in NoteTopics(vault, f, stackDepth);
      }
    }
  }

  /** From `before` to `after` only notes changed, and only by filing `path`. */
  ghost predicate FiledUnder(before: Store, after: Store, path: string) {
    && after.Keys == before.Keys
    && forall k :: k in after ==>
      && after[k] == before[k].(notesWithTag := after[k].notesWithTag)
      && before[k].notesWithTag <= after[k].notesWithTag <= before[k].notesWithTag + {path}
  }

  lemma FiledUnderTrans(n0: Store, n1: Store, n2: Store, path: string)
    requires FiledUnder(n0, n1, path) && FiledUnder(n1, n2, path)
    ensures FiledUnder(n0, n2, path)
  {
  }

  /** The two filters both passes apply: the included paths (when given) and the excluded folders. */
  predicate Skipped(path: string, included: Option<set<string>>, excluded: string -> bool) {
    (included.Some? && path !in included.value) || excluded(path)
  }

  /** The topic names a build can register: those of the database's notes and of every link target. */
  ghost function Candidates(db: seq<FileEntry>, vault: Vault): set<string> {
    (set e | e in db :: TopicNameFromPath(e.path)) + (set l | l in vault.resolve :: TopicNameFromPath(vault.resolve[l]))
  }

  /**
   * `buildTopicGraphFromDatabase`: registers every kept note tagged as a topic
   * together with its ancestors, files each kept note under its topics, and
   * returns the parentless topics as roots. `excluded` stands for the folder
   * exclusion test (constantly false without patterns), `stackDepth` for the
   * call depth the second pass may reach.
   *
   * Every link of the graph is a `subset` link of some note. A topic's notes
   * are exactly the kept notes whose links name it, except that a note whose
   * climb overflows may be missing from some of them.
   */
  method BuildTopicGraph(db: seq<FileEntry>, vault: Vault, included: Option<set<string>>, excluded: string -> bool, stackDepth: nat)
    returns (g: Graph)
    ensures Closed(g.nodes) && Mutual(g.nodes)
    ensures NoDup(g.roots)
    ensures forall r :: r in g.roots <==> r in g.nodes && g.nodes[r].parents == []
    ensures forall k :: k in g.nodes ==> k in Candidates(db, vault)
    ensures TopicNotesRegistered(db, |db|, included, excluded, g.nodes)
    ensures forall k, x :: k in g.nodes && x in g.nodes[k].parents ==> Justified(vault, x, k)
    ensures forall k, f :: k in g.nodes && f in g.nodes[k].notesWithTag ==> FiledFrom(db, vault, included, excluded, stackDepth, k, f)
    ensures forall j, k :: (0 <= j < |db| && Kept(db[j], vault, included, excluded) && !NoteOverflows(vault, db[j].path, stackDepth)
      && k in NoteTopics(vault, db[j].path, stackDepth) && k in g.nodes) ==> db[j].path in g.nodes[k].notesWithTag
  {
    var store := new TopicStore();
    ghost var universe := Candidates(db, vault);
    store.RegisterTopics(db, vault, included, excluded, universe);
    ghost var registered := store.nodes;
    assert forall k :: k in registered ==> registered[k].notesWithTag == {};
    store.FileNotes(db, vault, included, excluded, stackDepth);
    var roots := store.RootTopics();
    g := Graph(roots, store.nodes);
    assert FiledEvery(db, vault, included, excluded, stackDepth, |db|, g.nodes);
    assert FiledSound(db, vault, included, excluded, stackDepth, registered, g.nodes);
  }
}

=== FILE: topic_graph.dfy ===
/**
 * The topic graph and its structural queries. Nodes are stored under their
 * names; `parents` and `children` hold the linked names in insertion order
 * (the iteration order of the JavaScript maps they model).
 *
 * The queries recurse along `children` or along first parents and only
 * terminate on acyclic graphs, so each takes a ghost `rank` witnessing
 * acyclicity: every child ranks strictly below its parent.
 */
module TopicGraph {
  import opened Wrappers
  import opened OrderedSets

  /** A topic: its name, the names of its parents and children, and the paths of the notes filed under it. */
  datatype Node = Node(name: string, parents: seq<string>, children: seq<string>, notesWithTag: set<string>)

  /** The registered topics, keyed by name. */
  type Store = map<string, Node>

  /** The result of the build: the root names in registration order, and every registered node. */
  datatype Graph = Graph(roots: seq<string>, nodes: Store)

  /** Each node is stored under its own name and links only to stored nodes. */
  ghost predicate Closed(nodes: Store) {
    && (forall n :: n in nodes ==> nodes[n].name == n)
    && (forall n, c :: n in nodes && c in nodes[n].children ==> c in nodes)
    && (forall n, p :: n in nodes && p in nodes[n].parents ==> p in nodes)
  }

  /** Every link is recorded at both ends. */
  ghost predicate Mutual(nodes: Store) {
    && (forall n, c :: n in nodes && c in nodes[n].children ==> c in nodes && n in nodes[c].parents)
    && (forall n, p :: n in nodes && p in nodes[n].parents ==> p in nodes && n in nodes[p].children)
  }

  /** `rank` shows the graph acyclic: ranks strictly decrease from parent to child. */
  ghost predicate Ranked(nodes: Store, rank: map<string, nat>) {
    && Closed(nodes)
    && (forall n :: n in nodes ==> n in rank)
    && (forall n, c :: n in nodes && c in nodes[n].children ==> rank[c] < rank[n])
    && (forall n, p :: n in nodes && p in nodes[n].parents ==> rank[n] < rank[p])
  }

  ghost predicate ValidGraph(g: Graph, rank: map<string, nat>) {
    Ranked(g.nodes, rank) && forall r :: r in g.roots ==> r in g.nodes
  }

  /** The topics reachable from `n` along `children`, `n` included. */
  ghost function Reach(nodes: Store, rank: map<string, nat>, n: string): (r: set<string>)
    requires Ranked(nodes, rank) && n in nodes
    ensures n in r && forall m :: m in r ==> m in nodes
    decreases rank[n]
  {
    {n} + set c, m | c in nodes[n].children && m in Reach(nodes, rank, c) :: m
  }

  /** The topics reachable from any of `xs`. */
  ghost function ReachAll(nodes: Store, rank: map<string, nat>, xs: seq<string>): (r: set<string>)
    requires Ranked(nodes, rank) && forall x :: x in xs ==> x in nodes
    ensures forall m :: m in r ==> m in nodes
  {
    set x, m | x in xs && m in Reach(nodes, rank, x) :: m
  }

  /** What the first of `xs` reaches, and what the rest reach. */
  lemma ReachAllCons(nodes: Store, rank: map<string, nat>, xs: seq<string>)
    requires Ranked(nodes, rank) && |xs| > 0 && forall x :: x in xs ==> x in nodes
    ensures forall m :: m in ReachAll(nodes, rank, xs) <==>
      m in Reach(nodes, rank, xs[0]) || m in ReachAll(nodes, rank, xs[1..])
  {
    assert forall y :: y in xs <==> y == xs[0] || y in xs[1..];
  }

  /** A topic reaches itself and what its children reach. */
  lemma ReachUnfold(nodes: Store, rank: map<string, nat>, n: string)
    requires Ranked(nodes, rank) && n in nodes
    ensures forall m :: m in Reach(nodes, rank, n) <==> m == n || m in ReachAll(nodes, rank, nodes[n].children)
  {
  }

  /** `p` is a path of child links from `a` to `b`. */
  ghost predicate IsPath(nodes: Store, p: seq<string>, a: string, b: string) {
    && |p| >= 1 && p[0] == a && p[|p| - 1] == b
    && forall i :: 0 <= i < |p| - 1 ==> p[i] in nodes && p[i + 1] in nodes[p[i]].children
  }

  /** A strict upper bound on the ranks of `xs`. */
  ghost function RankBound(rank: map<string, nat>, xs: seq<string>): (b: nat)
    requires forall x :: x in xs ==> x in rank
    ensures forall x :: x in xs ==> rank[x] < b
  {
    if |xs| == 0 then 0
    else
      var b := RankBound(rank, xs[1..]);
      assert forall x :: x in xs ==> x == xs[0] || x in xs[1..];
      if rank[xs[0]] + 1 > b then rank[xs[0]] + 1 else b
  }

  // ----- collectTopicDescendants -----

  /**
   * `collectTopicDescendants` applied to each of `xs` in turn with a shared
   * accumulator (a JavaScript Set, so each topic is added once, in pre-order).
   */
  function DescendantsOfAll(nodes: Store, ghost rank: map<string, nat>, ghost bound: nat, xs: seq<string>, acc: seq<string>): (r: seq<string>)
    requires Ranked(nodes, rank)
    requires forall x :: x in xs ==> x in nodes && rank[x] < bound
    ensures |acc| <= |r| && r[..|acc|] == acc
    ensures NoDup(acc) ==> NoDup(r)
    ensures forall m :: m in r <==> m in acc || m in ReachAll(nodes, rank, xs)
    decreases bound, |xs|
  {
    if |xs| == 0 then acc
    else
      var x := xs[0];
      var below := DescendantsOfAll(nodes, rank, rank[x], nodes[x].children, AddUnique(acc, x));
      var r := DescendantsOfAll(nodes, rank, bound, xs[1..], below);
      PrefixTransitive(acc, AddUnique(acc, x), below);
      PrefixTransitive(acc, below, r);
      DescendantsStep(nodes, rank, xs, acc, below, r);
      r
  }

  /** The membership step of `DescendantsOfAll`: the first topic's descendants, then the rest's. */
  lemma DescendantsStep(nodes: Store, rank: map<string, nat>, xs: seq<string>, acc: seq<string>,
                        below: seq<string>, r: seq<string>)
    requires Ranked(nodes, rank) && |xs| > 0 && forall x :: x in xs ==> x in nodes
    requires forall m :: m in below <==> m in acc || m == xs[0] || m in ReachAll(nodes, rank, nodes[xs[0]].children)
    requires forall m :: m in r <==> m in below || m in ReachAll(nodes, rank, xs[1..])
    ensures forall m :: m in r <==> m in acc || m in ReachAll(nodes, rank, xs)
  {
    ReachAllCons(nodes, rank, xs);
    ReachUnfold(nodes, rank, xs[0]);
  }

  /** `collectTopicDescendants(node, paths)`: adds `n` and then, recursively, its children. */
  function CollectTopicDescendants(nodes: Store, ghost rank: map<string, nat>, n: string, acc: seq<string>): (r: seq<string>)
    requires Ranked(nodes, rank) && n in nodes
    ensures |acc| <= |r| && r[..|acc|] == acc
    ensures NoDup(acc) ==> NoDup(r)
    ensures forall m :: m in r <==> m in acc || m in Reach(nodes, rank, n)
  {
    var r := DescendantsOfAll(nodes, rank, rank[n] + 1, [n], acc);
    assert forall m :: m in ReachAll(nodes, rank, [n]) <==> m in Reach(nodes, rank, n);
    r
  }

  /** The descendants are closed under `children`. */
  lemma {:induction false} ReachClosed(nodes: Store, rank: map<string, nat>, n: string, m: string, c: string)
    requires Ranked(nodes, rank) && n in nodes
    requires m in Reach(nodes, rank, n) && m in nodes && c in nodes[m].children
    ensures c in Reach(nodes, rank, n)
    decreases rank[n]
  {
    if m == n {
      assert c in Reach(nodes, rank, c);
    } else {
      var c' :| c' in nodes[n].children && m in Reach(nodes, rank, c');
      ReachClosed(nodes, rank, c', m, c);
    }
  }

  /** Every topic reached lies at the end of a path of child links from `n`, and conversely. */
  lemma ReachIsPath(nodes: Store, rank: map<string, nat>, n: string, m: string)
    requires Ranked(nodes, rank) && n in nodes
    ensures m in Reach(nodes, rank, n) <==> exists p :: IsPath(nodes, p, n, m)
  {
    if m in Reach(nodes, rank, n) {
      var p := ReachHasPath(nodes, rank, n, m);
    } else if p :| IsPath(nodes, p, n, m) {
      PathIsReach(nodes, rank, p, n, m);
    }
  }

  lemma {:induction false} ReachHasPath(nodes: Store, rank: map<string, nat>, n: string, m: string) returns (p: seq<string>)
    requires Ranked(nodes, rank) && n in nodes && m in Reach(nodes, rank, n)
    ensures IsPath(nodes, p, n, m)
    decreases rank[n]
  {
    if m == n {
      p := [n];
    } else {
      var c :| c in nodes[n].children && m in Reach(nodes, rank, c);
      var q := ReachHasPath(nodes, rank, c, m);
      p := [n] + q;
      PathCons(nodes, n, c, q, m);
    }
  }

  lemma PathCons(nodes: Store, n: string, c: string, q: seq<string>, m: string)
    requires n in nodes && c in nodes[n].children && IsPath(nodes, q, c, m)
    ensures IsPath(nodes, [n] + q, n, m)
  {
    var p := [n] + q;
    forall i | 0 <= i < |p| - 1
      ensures p[i] in nodes && p[i + 1] in nodes[p[i]].children
    {
      if i > 0 {
        assert p[i] == q[i - 1] && p[i + 1] == q[i];
      }
    }
  }

  lemma {:induction false} PathIsReach(nodes: Store, rank: map<string, nat>, p: seq<string>, n: string, m: string)
    requires Ranked(nodes, rank) && n in nodes && IsPath(nodes, p, n, m)
    ensures m in Reach(nodes, rank, n)
    decreases |p|
  {
    if |p| > 1 {
      assert IsPath(nodes, p[1..], p[1], m);
      PathIsReach(nodes, rank, p[1..], p[1], m);
    }
  }

  // ----- collectTopicFilePaths and getTotalNoteCount -----

  /** `collectTopicFilePaths`: the notes of `n` and of all its descendants. */
  function CollectTopicFilePaths(nodes: Store, ghost rank: map<string, nat>, n: string): (paths: set<string>)
    requires Ranked(nodes, rank) && n in nodes
    ensures nodes[n].notesWithTag <= paths
    decreases rank[n]
  {
    nodes[n].notesWithTag + set c, f | c in nodes[n].children && f in CollectTopicFilePaths(nodes, rank, c) :: f
  }

  /** A path is collected iff it is filed under a topic reachable from `n`. */
  lemma FilePathsOfReach(nodes: Store, rank: map<string, nat>, n: string, f: string)
    requires Ranked(nodes, rank) && n in nodes
    ensures f in CollectTopicFilePaths(nodes, rank, n) <==>
      exists m :: m in Reach(nodes, rank, n) && f in nodes[m].notesWithTag
  {
    if f in CollectTopicFilePaths(nodes, rank, n) {
      FilePathsSound(nodes, rank, n, f);
    }
    if m :| m in Reach(nodes, rank, n) && f in nodes[m].notesWithTag {
      FilePathsComplete(nodes, rank, n, m, f);
    }
  }

  /** A collected path is filed under a topic reachable from `n`. */
  lemma {:induction false} FilePathsSound(nodes: Store, rank: map<string, nat>, n: string, f: string)
    requires Ranked(nodes, rank) && n in nodes && f in CollectTopicFilePaths(nodes, rank, n)
    ensures exists m :: m in Reach(nodes, rank, n) && f in nodes[m].notesWithTag
    decreases rank[n]
  {
    if f !in nodes[n].notesWithTag {
      var c :| c in nodes[n].children && f in CollectTopicFilePaths(nodes, rank, c);
      FilePathsSound(nodes, rank, c, f);
      var m :| m in Reach(nodes, rank, c) && f in nodes[m].notesWithTag;
      assert m in Reach(nodes, rank, n);
    }
  }

  /** A path filed under a topic reachable from `n` is collected. */
  lemma {:induction false} FilePathsComplete(nodes: Store, rank: map<string, nat>, n: string, m: string, f: string)
    requires Ranked(nodes, rank) && n in nodes && m in Reach(nodes, rank, n) && f in nodes[m].notesWithTag
    ensures f in CollectTopicFilePaths(nodes, rank, n)
    decreases rank[n]
  {
    if m != n {
      var c :| c in nodes[n].children && m in Reach(nodes, rank, c);
      FilePathsComplete(nodes, rank, c, m, f);
    }
  }

  /** The `collectFromChildren` helper of `getTotalNoteCount`: the notes of every child and, recursively, of its children. */
  function NotesFromChildren(nodes: Store, ghost rank: map<string, nat>, n: string): (files: set<string>)
    requires Ranked(nodes, rank) && n in nodes
    decreases rank[n]
  {
    set c, f | c in nodes[n].children && f in nodes[c].notesWithTag + NotesFromChildren(nodes, rank, c) :: f
  }

  /** What `getTotalNoteCount` counts is exactly what `collectTopicFilePaths` collects. */
  lemma {:induction false} NoteCountCollectsFilePaths(nodes: Store, rank: map<string, nat>, n: string)
    requires Ranked(nodes, rank) && n in nodes
    ensures nodes[n].notesWithTag + NotesFromChildren(nodes, rank, n) == CollectTopicFilePaths(nodes, rank, n)
    decreases rank[n]
  {
    forall c | c in nodes[n].children {
      NoteCountCollectsFilePaths(nodes, rank, c);
    }
  }

  /** The count of `getTotalNoteCount`, computed afresh. */
  function TotalNoteCount(nodes: Store, ghost rank: map<string, nat>, n: string): (count: nat)
    requires Ranked(nodes, rank) && n in nodes
    ensures count == |CollectTopicFilePaths(nodes, rank, n)|
    ensures count >= |nodes[n].notesWithTag|
  {
    NoteCountCollectsFilePaths(nodes, rank, n);
    SubsetCard(nodes[n].notesWithTag, CollectTopicFilePaths(nodes, rank, n));
    |nodes[n].notesWithTag + NotesFromChildren(nodes, rank, n)|
  }

  lemma SubsetCard<T>(a: set<T>, b: set<T>)
    requires a <= b
    ensures |a| <= |b|
  {
    assert b == a + (b - a);
  }

  /**
   * The memo of `getTotalNoteCount` (a module-level map cleared whenever the
   * graph is rebuilt). It remembers the graph its counts were computed on.
   */
  class NoteCountCache {
    var counts: map<string, nat>
    const nodes: Store
    ghost const rank: map<string, nat>

    ghost predicate Valid()
      reads this
    {
      Ranked(nodes, rank) && CountsCorrect(nodes, rank, counts)
    }

    /** `clearNoteCountCache` for a freshly built graph. */
    constructor (nodes: Store, ghost rank: map<string, nat>)
      requires Ranked(nodes, rank)
      ensures Valid()
      ensures this.nodes == nodes && this.rank == rank && counts == map[]
    {
      this.nodes := nodes;
      this.rank := rank;
      counts := map[];
    }

    /** `getTotalNoteCount`: the cached count if there is one, else the count computed and remembered. */
    method GetTotalNoteCount(n: string) returns (count: nat)
      requires Valid() && n in nodes
      modifies this
      ensures Valid()
      ensures count == |CollectTopicFilePaths(nodes, rank, n)|
      ensures count >= |nodes[n].notesWithTag|
      ensures old(n in counts) ==> counts == old(counts)
      ensures counts == old(counts)[n := count]
    {
      if n in counts {
        count := counts[n];
        SubsetCard(nodes[n].notesWithTag, CollectTopicFilePaths(nodes, rank, n));
        return;
      }
      count := TotalNoteCount(nodes, rank, n);
      CountsCorrectUpdate(nodes, rank, counts, n);
      counts := counts[n := count];
    }
  }

  /** Every remembered count is the number of notes collected for its topic. */
  ghost predicate CountsCorrect(nodes: Store, rank: map<string, nat>, counts: map<string, nat>)
    requires Ranked(nodes, rank)
  {
    forall k :: k in counts ==> k in nodes && counts[k] == |CollectTopicFilePaths(nodes, rank, k)|
  }

  /** Remembering a correct count keeps every remembered count correct. */
  lemma CountsCorrectUpdate(nodes: Store, rank: map<string, nat>, counts: map<string, nat>, n: string)
    requires Ranked(nodes, rank) && n in nodes && CountsCorrect(nodes, rank, counts)
    ensures CountsCorrect(nodes, rank, counts[n := |CollectTopicFilePaths(nodes, rank, n)|])
  {
  }

  // ----- findTopicNode -----

  /** The `searchNode` helper: depth-first, pre-order, over `xs` in order. */
  function SearchNodes(nodes: Store, ghost rank: map<string, nat>, ghost bound: nat, xs: seq<string>, name: string): (r: Option<Node>)
    requires Ranked(nodes, rank)
    requires forall x :: x in xs ==> x in nodes && rank[x] < bound
    ensures r.Some? ==> name in nodes && r.value == nodes[name] && r.value.name == name
    ensures r.None? <==> name !in ReachAll(nodes, rank, xs)
    decreases bound, |xs|
  {
    if |xs| == 0 then None
    else
      var x := xs[0];
      ReachAllCons(nodes, rank, xs);
      ReachUnfold(nodes, rank, x);
      if nodes[x].name == name then Some(nodes[x])
      else
        var found := SearchNodes(nodes, rank, rank[x], nodes[x].children, name);
        if found.Some? then found
        else SearchNodes(nodes, rank, bound, xs[1..], name)
  }

  /** `findTopicNode(tree, name)`: the node called `name` if some root reaches it. */
  function FindTopicNode(g: Graph, ghost rank: map<string, nat>, name: string): (r: Option<Node>)
    requires ValidGraph(g, rank)
    ensures r.Some? ==> name in g.nodes && r.value == g.nodes[name] && r.value.name == name
    ensures r.None? <==> name !in ReachAll(g.nodes, rank, g.roots)
  {
    SearchNodes(g.nodes, rank, RankBound(rank, g.roots), g.roots, name)
  }

  // ----- getTopicAncestors -----

  /** The topics ranked above `n`; it shrinks along every parent link. */
  ghost function Above(rank: map<string, nat>, n: string): set<string>
    requires n in rank
  {
    set m | m in rank && rank[m] > rank[n]
  }

  lemma AboveShrinks(rank: map<string, nat>, n: string, p: string)
    requires n in rank && p in rank && rank[n] < rank[p]
    ensures |Above(rank, p)| < |Above(rank, n)|
  {
    var a, b := Above(rank, p), Above(rank, n);
    assert p in b - a;
    assert b == a + (b - a);
  }

  /**
   * `chain` is a first-parent chain ending in `n`: it starts at a topic without
   * parents, each later topic's first parent is the one before it, and the
   * ranks strictly decrease along it.
   */
  ghost predicate IsChain(nodes: Store, rank: map<string, nat>, chain: seq<string>, n: string)
    requires Ranked(nodes, rank) && n in nodes
  {
    && |chain| >= 1 && chain[|chain| - 1] == n
    && (forall i :: 0 <= i < |chain| ==> chain[i] in nodes && rank[chain[i]] >= rank[n])
    && nodes[chain[0]].parents == []
    && (forall j :: 1 <= j < |chain| ==>
         nodes[chain[j]].parents != [] && nodes[chain[j]].parents[0] == chain[j - 1])
    && (forall i, j :: 0 <= i < j < |chain| ==> rank[chain[i]] > rank[chain[j]])
  }

  /** The `collectAncestors` helper: the first-parent chain ending in `n`, root first. */
  function AncestorChain(nodes: Store, ghost rank: map<string, nat>, n: string): (chain: seq<string>)
    requires Ranked(nodes, rank) && n in nodes
    ensures IsChain(nodes, rank, chain, n)
    decreases |Above(rank, n)|
  {
    if |nodes[n].parents| > 0 then
      var p := nodes[n].parents[0];
      AboveShrinks(rank, n, p);
      var prefix := AncestorChain(nodes, rank, p);
      ChainExtend(nodes, rank, n, prefix);
      prefix + [nodes[n].name]
    else
      [nodes[n].name]
  }

  /** A chain to the first parent of `n`, followed by `n`, is a chain to `n`. */
  lemma ChainExtend(nodes: Store, rank: map<string, nat>, n: string, prefix: seq<string>)
    requires Ranked(nodes, rank) && n in nodes && |nodes[n].parents| > 0
    requires nodes[n].parents[0] in nodes && IsChain(nodes, rank, prefix, nodes[n].parents[0])
    ensures IsChain(nodes, rank, prefix + [nodes[n].name], n)
  {
    var chain := prefix + [nodes[n].name];
    assert nodes[n].name == n;
    assert forall i :: 0 <= i < |prefix| ==> chain[i] == prefix[i];
  }

  /**
   * `getTopicAncestors`: [] for a topic without parents, otherwise the chain of
   * first parents from a root down to the topic's first parent.
   */
  function TopicAncestors(nodes: Store, ghost rank: map<string, nat>, n: string): (r: seq<string>)
    requires Ranked(nodes, rank) && n in nodes
    ensures r == [] <==> nodes[n].parents == []
    ensures forall i :: 0 <= i < |r| ==> r[i] in nodes
    ensures r != [] ==> r[|r| - 1] == nodes[n].parents[0] && nodes[r[0]].parents == []
    ensures forall j :: 1 <= j < |r| ==>
      nodes[r[j]].parents != [] && nodes[r[j]].parents[0] == r[j - 1]
    ensures NoDup(r) && n !in r
  {
    if |nodes[n].parents| == 0 then []
    else AncestorChain(nodes, rank, nodes[n].parents[0])
  }
}

=== FILE: topic_names.dfy ===
/**
 * The pure helpers of the topic graph: topic names from note paths, the
 * `[[target|alias]]` link syntax, and the tag and relation lookups on a
 * note's cached metadata.
 */
module TopicNames {
  import opened Wrappers
  import opened Text
  import opened OrderedSets

  /** Frontmatter field naming a topic's parent topics. */
  const SUBSET_RELATIONS: seq<string> := ["subset"]
  /** Frontmatter fields linking a note to its topics. */
  const HAS_TOPIC_RELATIONS: seq<string> := ["hasTopic", "isA", "for", "subset"]
  /** A note is a topic when one of its tags contains one of these. */
  const TOPIC_TAGS: seq<string> := ["topic"]

  /**
   * The cached metadata of a note: its tags (absent when the note has none) and
   * its frontmatter, each relation field holding a list of link strings.
   */
  datatype Metadata = Metadata(tags: Option<seq<string>>, frontmatter: map<string, seq<string>>)

  /** `getTopicNameFromPath`: split on `/`, take the last segment, split on `.`, drop the last piece, join. */
  function TopicNameFromPath(path: string): string {
    var segments := Split(path, '/');
    var pieces := Split(segments[|segments| - 1], '.');
    Join(pieces[..|pieces| - 1], "")
  }

  /**
   * The name is the file name (the text after the last `/`) up to its last `.`,
   * with every other `.` removed; a file name without a `.` gives "".
   */
  lemma TopicNameFromPathSpec(path: string)
    ensures var file := path[LastIndexOf(path, '/') + 1..];
      var dot := LastIndexOf(file, '.');
      TopicNameFromPath(path) == (if dot < 0 then "" else RemoveAll('.', file[..dot]))
  {
    var segments := Split(path, '/');
    var file := segments[|segments| - 1];
    var pieces := Split(file, '.');
    assert TopicNameFromPath(path) == Join(pieces[..|pieces| - 1], "");
    SplitLast(path, '/');
    assert file == path[LastIndexOf(path, '/') + 1..];
    SplitInit(file, '.');
    var dot := LastIndexOf(file, '.');
    if dot < 0 {
      assert file[..0] == "";
      assert Join(pieces[..|pieces| - 1], "") == RemoveAll('.', "");
    } else {
      assert Join(pieces[..|pieces| - 1], "") == RemoveAll('.', file[..dot]);
    }
  }

  /** A topic name contains neither a `/` nor a `.`. */
  lemma TopicNameFromPathClean(path: string)
    ensures '/' !in TopicNameFromPath(path) && '.' !in TopicNameFromPath(path)
  {
    TopicNameFromPathSpec(path);
    var file := path[LastIndexOf(path, '/') + 1..];
    var dot := LastIndexOf(file, '.');
    if dot >= 0 && '/' in RemoveAll('.', file[..dot]) {
      RemoveAllSubset('.', file[..dot], '/');
      assert false;
    }
  }

  /** The last `c` of `s + [c] + t` is the one appended, when `t` has none. */
  lemma {:induction false} LastIndexOfAppend(s: string, c: char, t: string)
    requires c !in t
    ensures LastIndexOf(s + [c] + t, c) == |s|
  {
    var u := s + [c] + t;
    assert u[|s|] == c;
    assert u[|s| + 1..] == t;
  }

  /** The file name of `dir/file` is `file` when `file` has no `/`. */
  lemma FileOfPath(dir: string, file: string)
    requires '/' !in file
    ensures var path := dir + "/" + file; path[LastIndexOf(path, '/') + 1..] == file
  {
    LastIndexOfAppend(dir, '/', file);
    assert (dir + "/" + file)[|dir| + 1..] == file;
  }

  /** The text before the last `.` of `stem.ext` is `stem` when `ext` has no `.`. */
  lemma StemOfFile(stem: string, ext: string)
    requires '.' !in ext
    ensures var file := stem + "." + ext; LastIndexOf(file, '.') == |stem| && file[..|stem|] == stem
  {
    LastIndexOfAppend(stem, '.', ext);
  }

  /** Only the file name of a path matters: `dir/stem.ext` is named after `stem` (with its dots removed). */
  lemma TopicNameOfFile(dir: string, stem: string, ext: string)
    requires '/' !in stem && '/' !in ext && '.' !in ext
    ensures TopicNameFromPath(dir + "/" + stem + "." + ext) == RemoveAll('.', stem)
  {
    var file := stem + "." + ext;
    assert dir + "/" + stem + "." + ext == dir + "/" + file;
    assert '/' !in file;
    FileOfPath(dir, file);
    StemOfFile(stem, ext);
    TopicNameFromPathSpec(dir + "/" + file);
  }

  /**
   * `dir/a.b.ext` is named `ab`: the extension goes and the dot inside the stem
   * disappears (for `a`, `b` and `ext` free of `.` and `/`).
   */
  lemma TopicNameFromPathExample(dir: string, a: string, b: string, ext: string)
    requires '.' !in a && '.' !in b && '.' !in ext
    requires '/' !in a && '/' !in b && '/' !in ext
    ensures TopicNameFromPath(dir + "/" + a + "." + b + "." + ext) == a + b
  {
    var ab := a + "." + b;
    assert '/' !in ab by {
      assert forall x :: x in ab ==> x in a || x == '.' || x in b;
    }
    TopicNameOfFile(dir, ab, ext);
    assert dir + "/" + ab + "." + ext == dir + "/" + a + "." + b + "." + ext;
    RemoveAllConcat('.', a + ".", b);
    RemoveAllConcat('.', a, ".");
    assert RemoveAll('.', ".") == "";
    RemoveAllAbsent('.', a);
    RemoveAllAbsent('.', b);
    assert RemoveAll('.', a + ".") == a;
  }

  /** JavaScript `s.slice(2, -2)`. */
  function SliceInner(s: string): (r: string)
    ensures |s| >= 4 ==> r == s[2..|s| - 2]
    ensures |s| < 4 ==> r == ""
  {
    if |s| - 2 <= 2 then "" else s[2..|s| - 2]
  }

  /** The link text of a relation value: `value.slice(2, -2).split("|")[0]`. */
  function LinkTarget(value: string): string {
    Split(SliceInner(value), '|')[0]
  }

  /** The first piece of a split is everything before the first separator. */
  lemma {:induction false} SplitFirst(t: string, c: char, rest: string)
    requires c !in t
    requires rest == "" || rest[0] == c
    ensures Split(t + rest, c)[0] == t
    decreases |t|
  {
    if |t| == 0 {
      assert t + rest == rest;
    } else {
      assert (t + rest)[1..] == t[1..] + rest;
      SplitFirst(t[1..], c, rest);
      assert t == [t[0]] + t[1..];
    }
  }

  /** `[[target|alias]]` and `[[target]]` both resolve to `target`. */
  lemma LinkTargetOfLink(target: string, alias: string)
    requires '|' !in target
    ensures LinkTarget("[[" + target + "|" + alias + "]]") == target
    ensures LinkTarget("[[" + target + "]]") == target
  {
    var withAlias := "[[" + target + "|" + alias + "]]";
    assert SliceInner(withAlias) == target + ("|" + alias);
    SplitFirst(target, '|', "|" + alias);
    var plain := "[[" + target + "]]";
    assert SliceInner(plain) == target + "";
    SplitFirst(target, '|', "");
  }

  /** `getTopicTags`: the tags of the metadata, or none. */
  function TopicTags(md: Metadata): (tags: seq<string>)
    ensures md.tags.None? ==> tags == []
    ensures md.tags.Some? ==> tags == md.tags.value
  {
    md.tags.GetOr([])
  }

  /** `hasTopicTag`: some tag contains some entry of `TOPIC_TAGS`. */
  predicate HasTopicTag(tags: seq<string>) {
    exists i, j :: 0 <= i < |tags| && 0 <= j < |TOPIC_TAGS| && Contains(tags[i], TOPIC_TAGS[j])
  }

  /** The concatenated values of the given frontmatter relations, in relation order. */
  function RelationValues(relations: seq<string>, frontmatter: map<string, seq<string>>): (r: seq<string>)
    ensures forall x :: x in r <==> exists k :: 0 <= k < |relations| && relations[k] in frontmatter && x in frontmatter[relations[k]]
  {
    if |relations| == 0 then []
    else
      var first := if relations[0] in frontmatter then frontmatter[relations[0]] else [];
      var r := first + RelationValues(relations[1..], frontmatter);
      assert forall k :: 1 <= k < |relations| ==> relations[k] == relations[1..][k - 1];
      r
  }

  /**
   * `getTopicRelations`: the links of the `hasTopic`, `isA`, `for` and `subset`
   * fields, without duplicates, in order of first occurrence.
   */
  function TopicRelations(md: Metadata): (links: seq<string>)
    ensures NoDup(links)
    ensures forall x :: x in links <==> exists k :: 0 <= k < |HAS_TOPIC_RELATIONS| && HAS_TOPIC_RELATIONS[k] in md.frontmatter && x in md.frontmatter[HAS_TOPIC_RELATIONS[k]]
  {
    Dedup(RelationValues(HAS_TOPIC_RELATIONS, md.frontmatter))
  }

  /** The links of the `subset` field: the parents declared by a topic note. */
  function SubsetLinks(md: Metadata): (links: seq<string>)
    ensures links == if "subset" in md.frontmatter then md.frontmatter["subset"] else []
  {
    var first := if "subset" in md.frontmatter then md.frontmatter["subset"] else [];
    assert RelationValues(SUBSET_RELATIONS[1..], md.frontmatter) == [];
    assert first + [] == first;
    RelationValues(SUBSET_RELATIONS, md.frontmatter)
  }
}

=== FILE: topic_service.dfy ===
/**
 * The topic service: holds the current topic graph for code outside the view
 * and answers name queries by delegating to the graph functions.
 */
module TopicService {
  import opened Wrappers
  import opened OrderedSets
  import opened TopicGraph

  /**
   * The names collected from each root in turn, each root with a fresh
   * accumulator, concatenated: a topic under two roots is listed twice.
   */
  function AllTopicNames(nodes: Store, ghost rank: map<string, nat>, roots: seq<string>): (names: seq<string>)
    requires Ranked(nodes, rank) && forall r :: r in roots ==> r in nodes
  {
    if |roots| == 0 then []
    else AllTopicNames(nodes, rank, roots[..|roots| - 1]) + CollectTopicDescendants(nodes, rank, roots[|roots| - 1], [])
  }

  /** What the roots but the last reach, and what the last reaches. */
  lemma ReachAllSnoc(nodes: Store, rank: map<string, nat>, roots: seq<string>)
    requires Ranked(nodes, rank) && |roots| > 0 && forall r :: r in roots ==> r in nodes
    ensures forall m :: m in ReachAll(nodes, rank, roots) <==>
      m in ReachAll(nodes, rank, roots[..|roots| - 1]) || m in Reach(nodes, rank, roots[|roots| - 1])
  {
    assert forall y :: y in roots <==> y in roots[..|roots| - 1] || y == roots[|roots| - 1];
  }

  /** A name is listed exactly when some root reaches it. */
  lemma {:induction false} AllTopicNamesReach(nodes: Store, rank: map<string, nat>, roots: seq<string>)
    requires Ranked(nodes, rank) && forall r :: r in roots ==> r in nodes
    ensures forall m :: m in AllTopicNames(nodes, rank, roots) <==> m in ReachAll(nodes, rank, roots)
    decreases |roots|
  {
    if |roots| > 0 {
      AllTopicNamesReach(nodes, rank, roots[..|roots| - 1]);
      ReachAllSnoc(nodes, rank, roots);
    }
  }

  /** How many of `roots` (counted with repetition) reach `m`. */
  ghost function RootsReaching(nodes: Store, rank: map<string, nat>, roots: seq<string>, m: string): nat
    requires Ranked(nodes, rank) && forall r :: r in roots ==> r in nodes
  {
    if |roots| == 0 then 0
    else
      RootsReaching(nodes, rank, roots[..|roots| - 1], m)
      + if m in Reach(nodes, rank, roots[|roots| - 1]) then 1 else 0
  }

  /** In a sequence without duplicates every element is counted once. */
  lemma {:induction false} NoDupCount<T>(s: seq<T>, x: T)
    requires NoDup(s)
    ensures multiset(s)[x] == if x in s then 1 else 0
    decreases |s|
  {
    if |s| > 0 {
      var t := s[1..];
      assert forall i, j :: 0 <= i < j < |t| ==> t[i] == s[i + 1] && t[j] == s[j + 1];
      NoDupCount(t, x);
      assert s == [s[0]] + t;
      assert s[0] in s;
      assert x == s[0] ==> x !in t;
    }
  }

  /** Appending a sequence without duplicates adds one occurrence of each of its elements. */
  lemma CountAppend<T>(a: seq<T>, d: seq<T>, x: T)
    requires NoDup(d)
    ensures multiset(a + d)[x] == multiset(a)[x] + if x in d then 1 else 0
  {
    assert multiset(a + d) == multiset(a) + multiset(d);
    NoDupCount(d, x);
  }

  /**
   * A name is listed once per root that reaches it: a topic under two roots
   * appears twice.
   */
  lemma {:induction false} AllTopicNamesCount(nodes: Store, rank: map<string, nat>, roots: seq<string>, m: string)
    requires Ranked(nodes, rank) && forall r :: r in roots ==> r in nodes
    ensures multiset(AllTopicNames(nodes, rank, roots))[m] == RootsReaching(nodes, rank, roots, m)
    decreases |roots|
  {
    if |roots| > 0 {
      var init, last := roots[..|roots| - 1], roots[|roots| - 1];
      AllTopicNamesCount(nodes, rank, init, m);
      var d := CollectTopicDescendants(nodes, rank, last, []);
      var reached := m in Reach(nodes, rank, last);
      assert m in d <==> reached;
      CountAppend(AllTopicNames(nodes, rank, init), d, m);
      assert RootsReaching(nodes, rank, roots, m) == RootsReaching(nodes, rank, init, m) + if reached then 1 else 0;
    }
  }

  /** The loop of `getAllTopicNames` over the roots. */
  method CollectAllTopicNames(nodes: Store, ghost rank: map<string, nat>, roots: seq<string>) returns (allNames: seq<string>)
    requires Ranked(nodes, rank) && forall r :: r in roots ==> r in nodes
    ensures allNames == AllTopicNames(nodes, rank, roots)
  {
    allNames := [];
    var i := 0;
    while i < |roots|
      invariant i <= |roots|
      invariant allNames == AllTopicNames(nodes, rank, roots[..i])
    {
      var names := CollectTopicDescendants(nodes, rank, roots[i], []);
      AllTopicNamesSnoc(nodes, rank, roots, i);
      allNames := allNames + names;
      i := i + 1;
    }
    assert roots[..i] == roots;
  }

  /** Taking one more root appends what that root reaches. */
  lemma AllTopicNamesSnoc(nodes: Store, rank: map<string, nat>, roots: seq<string>, i: nat)
    requires Ranked(nodes, rank) && i < |roots| && forall r :: r in roots ==> r in nodes
    ensures forall r :: r in roots[..i] ==> r in nodes
    ensures AllTopicNames(nodes, rank, roots[..i + 1]) ==
      AllTopicNames(nodes, rank, roots[..i]) + CollectTopicDescendants(nodes, rank, roots[i], [])
  {
    assert roots[..i + 1][..i] == roots[..i];
  }

  class TopicService {
    /**
     * The current graph (the root map and the store its nodes live in). Any
     * graph may be held, cyclic ones included; only the queries that walk it
     * need a ranking of its store.
     */
    var graph: Graph

    /** A fresh service holds the empty graph. */
    constructor()
      ensures graph == Graph([], map[])
    {
      graph := Graph([], map[]);
    }

    /** `updateTopicGraph(graph)`: replaces the held graph, whatever its shape. */
    method UpdateTopicGraph(g: Graph)
      modifies this
      ensures graph == g
    {
      graph := g;
    }

    /** `getTopicGraph()`: the graph last given to `UpdateTopicGraph`. */
    method GetTopicGraph() returns (g: Graph)
      ensures g == graph
    {
      g := graph;
    }

    /**
     * `findTopicNode(name)`: the node called `name` if some root reaches it.
     * The walk ends because `r` ranks the held graph's store.
     */
    method FindTopicNode(topicName: string, ghost r: map<string, nat>) returns (node: Option<Node>)
      requires ValidGraph(graph, r)
      ensures node == TopicGraph.FindTopicNode(graph, r, topicName)
      ensures node.Some? ==> topicName in graph.nodes && node.value == graph.nodes[topicName]
      ensures node.None? <==> topicName !in ReachAll(graph.nodes, r, graph.roots)
    {
      node := TopicGraph.FindTopicNode(graph, r, topicName);
    }

    /** `getAllTopicNames()`: the descendants' names of each root in turn. */
    method GetAllTopicNames(ghost r: map<string, nat>) returns (allNames: seq<string>)
      requires ValidGraph(graph, r)
      ensures allNames == AllTopicNames(graph.nodes, r, graph.roots)
      ensures forall m :: m in allNames <==> m in ReachAll(graph.nodes, r, graph.roots)
      ensures graph.roots == [] ==> allNames == []
    {
      allNames := CollectAllTopicNames(graph.nodes, r, graph.roots);
      AllTopicNamesReach(graph.nodes, r, graph.roots);
    }

    /** `collectTopicNames(node)`: the names of `node` and all its descendants. */
    method CollectTopicNames(n: string, ghost r: map<string, nat>) returns (names: set<string>)
      requires ValidGraph(graph, r) && n in graph.nodes
      ensures names == Reach(graph.nodes, r, n)
      ensures n in names
    {
      var collected := CollectTopicDescendants(graph.nodes, r, n, []);
      names := set m | m in collected;
    }
  }
}

=== FILE: wrappers.dfy ===
/** Option: the model of TypeScript's `T | null` / `T | undefined`. */
module Wrappers {
  datatype Option<+T> = None | Some(value: T) {
    function GetOr(default: T): T {
      match this
      case Some(v) => v
      case None => default
    }
  }
}
